=== FILE: README.md ===
# python_journey, modelled in Dafny

python_journey is a collection of Python tutorial scripts. This project models
the parts of it that have behaviour worth stating, and proves that behaviour.

- **Task lists.** Five versions of a `TaskList` class. Two keep their tasks in
  memory (testing/task_list.py, testing/tasks.py). Three keep them in a SQLite
  `tasks` table (task_list_db/). Each version normalises a task by stripping
  surrounding whitespace and, except in testing/tasks.py, cutting it to
  `max_length` characters. Each has its own rules for adding, unique adding,
  completing, removing and clearing. The SQLite table is modelled as a sequence
  of rows `(id, text, completed)` in id order (`TaskTable`).
- **Algorithms and data structures.**
  - two stacks and their uses: reversing a string, balanced parentheses;
  - a two-index palindrome test;
  - bubble sort over a copy of an array;
  - 6k±1 primality and a sum of primes;
  - three Dijkstra variants and path reconstruction;
  - a doubly linked list whose traversal stops when it comes back to the head;
  - the seven "magic summation" scripts. Each deletes randomly drawn
    positions from 1..n, replaces every element but the last by the floor
    quotient of its right neighbour by itself, and sums the result.
- **Small state machines.**
  - the `CompanyType` registry of two financial modules;
  - a cache that counts hits and misses;
  - two plain singletons;
  - two singleton SQLite connection managers, which differ in how they resolve
    the database path.
- **One validator.** The name checks of the Flask `greet` route.

Each core file is its own module, named after the file. Shared pieces:

- `Wrappers`: `Option` and `Result`.
- `Text`: `strip`, truncation and ASCII letters.
- `Lists`: counting, ranges and reversal.
- `JsonData`: the parsed JSON a task file holds.
- `TaskTable`: the SQLite table of the task lists.
- `DijkstraCore`: graphs, walks, shortest distances and the loop invariants
  the three Dijkstra variants share.
- `MagicCore`: what the magic summation scripts share.
- `Registries`: the registry dictionary.
- `SqliteLog`: the SQLite calls as a log of events.

Where the source updates objects in place, the model has classes whose methods
say the whole new state. This covers the task lists, the stacks, the linked
list, the registry, the cache and the singletons. Loops are methods with loop
invariants, proved against specification functions. Pure code is functions and
lemmas.

Several quirks of the source are stated as lemmas. They are documented here
rather than corrected, because the scripts behave exactly as written:

- `DijkstraBugs.KeysSize` and `DijkstraBugs.SampleRun`: `all_nodes_visited` only
  measures the size of the distance map. It is true exactly when `start` lies in
  0..19, whichever nodes were visited.
- `DbConnection.RepeatAccepted` and `DbConnection.SampleRepeatRelative`:
  financial/db/connection.py stores a relative path under its default directory.
  Later constructions resolve the path against the working directory instead, so
  naming the same relative path again raises unless the two directories are the
  same.
- `MagicCore.UnshiftedIsNotPositional`: the scripts that delete without
  shifting do not delete the drawn positions of the original list. The shifting
  and filtering versions do (`MagicCore.DeleteShifted`).
- `MagicSummationOptimized3.RepeatsMatter`: magic_summation_optimized_3.py
  compares the number of draws, not their set, with `n`. This matters only
  because `choice(..., replace=False)` cannot repeat.
- `MagicCore.ChecksDifferOnSmallFloats`: the original magic summation tests the
  size before the type.
- `Text.NormalizeNotIdempotent`: cutting to `max_length` can leave trailing
  whitespace. Normalising again then strips it, so `load_from_file` of
  testing/task_list.py can change a saved task.
- `TaskListDb.UniqueAddOfCompletedFails`: in task_list_db/task_list_db.py a
  unique add of a completed task's text passes the duplicate check, which looks
  only at pending rows. The INSERT then fails on the UNIQUE column with an
  `IntegrityError` that nothing catches.
- `DoublyLinkedLists.SampleInnerCycle` and `DoublyLinkedLists.SampleBypass`:
  the class of doubly_linked_list/doubly_coursera.py promises that cycles made
  by `link_nodes` are handled by `traverse`, but `traverse` stops only at
  `None` or on coming back to the head. After `link_nodes(n3, n2)` on three
  nodes the walk from the head never returns to it, so `traverse` never
  returns. After `link_nodes(n1, n3)` the second node is skipped.

## Model

| member | source | states |
|---|---|---|
| Text.Strip | testing/tasks.py:61-64 | `str.strip()` over the ASCII whitespace of `str.isspace()`, `\x1c`..`\x1f` included: the result neither starts nor ends with whitespace, is no longer than the input, and text without surrounding whitespace is returned unchanged; `Text.StripIsInfix` states that the result is the input with its surrounding whitespace removed |
| Text.StripIsInfix | testing/tasks.py:61-64 | what `strip()` keeps is a slice of the input with only whitespace before it and only whitespace after it |
| Text.StripEmptyIff | testing/tasks.py:29-31 | stripping yields empty text exactly when every character is whitespace, which is when `add_task` raises `EmptyTaskError` |
| Text.Normalize | testing/task_list.py:68-70 | `task.strip()[:max_length]`: at most `max_length` characters, the whole stripped text when it fits, exactly `max_length` characters when it does not, never starting with whitespace |
| Text.NormalizeIsPrefix | testing/task_list.py:68-70 | the normalised text is a prefix of the stripped text |
| Text.NormalizeEmptyIff | testing/task_list.py:68-70 | normalisation yields empty text exactly for all-whitespace input or a zero bound |
| Text.NormalizeNotIdempotent | testing/task_list.py:99-104 | normalising twice differs from normalising once: `"ab cd"` cut to 3 is `"ab "`, which re-normalises to `"ab"`, so reloading a stored list can change it |
| Text.NormalizeStable | testing/task_list.py:99-104 | text whose stripped form fits the bound is a fixed point of normalisation |
| JsonData.StringItems | testing/task_list.py:96-97 | a parsed value is accepted exactly when it is a list whose every element is a string, and then its strings come back in order |
| TestingTasks.TaskList.constructor | testing/tasks.py:23-25 | a new list is empty |
| TestingTasks.TaskList.ListTasks | testing/tasks.py:43-45 | the stored tasks in insertion order |
| TestingTasks.TaskList.AddTask | testing/tasks.py:27-33 | whitespace-only input raises `EmptyTaskError` and changes nothing; otherwise the stripped text is appended, its count grows by one, and the message is `Task <t> added.` |
| TestingTasks.TaskList.RemoveTask | testing/tasks.py:35-41 | a present task loses its first occurrence (its count drops by one); an absent one raises `TaskNotFoundError` and changes nothing |
| TestingTasks.TaskList.AddUniqueTask | testing/tasks.py:47-55 | empty input and an already-stored stripped text raise, changing nothing; otherwise the text is appended and occurs exactly once |
| TestingTasks.TaskList.ClearTasks | testing/tasks.py:57-59 | the list becomes empty |
| TestingTasks.TaskList.LoadFromFile | testing/tasks.py:76-82 | a value that is not a list of strings raises `TaskError` and keeps the old list; otherwise the loaded strings become the list verbatim |
| TestingTasks.DuplicatesAllowed | testing/tasks.py:27-33 | adding the same text twice through `add_task` lists it twice |
| TestingTasks.UniqueAddKeepsOneCopy | testing/tasks.py:47-55 | a second `add_unique_task` of the same text raises `TaskAlreadyExistsError` and the text is still listed once |
| TestingTaskList.NormalizedEntries | testing/task_list.py:99-104 | the list a load rebuilds holds no more entries than were loaded, each in normal form |
| TestingTaskList.NormalizedEntriesKeepsAll | testing/task_list.py:99-104 | when no entry normalises to empty, the rebuilt list has one normalised entry per loaded string, in order |
| TestingTaskList.LoadNormalizedIsIdentity | testing/task_list.py:99-104 | loading strings that are already normalised gives them back unchanged |
| TestingTaskList.TaskList.constructor | testing/task_list.py:24-27 | a new list is empty and keeps its `max_length` |
| TestingTaskList.TaskList.ListTasks | testing/task_list.py:50-52 | the stored tasks, every one non-empty, within `max_length` and not starting with whitespace |
| TestingTaskList.TaskList.AddTask | testing/task_list.py:34-40 | input that normalises to empty raises `EmptyTaskError`; otherwise the normalised text is appended and reported; every stored task stays normalised |
| TestingTaskList.TaskList.RemoveTask | testing/task_list.py:42-48 | a present task loses its first occurrence; an absent one raises `TaskNotFoundError`; every stored task stays normalised |
| TestingTaskList.TaskList.AddUniqueTask | testing/task_list.py:54-62 | empty and duplicate normalised texts raise and change nothing; otherwise the text is appended once |
| TestingTaskList.TaskList.ClearTasks | testing/task_list.py:64-66 | the list becomes empty |
| TestingTaskList.TaskList.LoadFromFile | testing/task_list.py:86-104 | decode and read failures and a value that is not a list of strings raise `TaskError` and keep the old list; otherwise the list is exactly the normalised non-empty loaded entries, in order |
| TestingTaskList.LongTaskTruncated | testing/task_list.py:68-70 | a text longer than 100 stripped characters is stored and reported as exactly its first 100 |
| TaskTable.Texts | task_list_db/task_list_db_optimized.py:76-79 | `SELECT task FROM tasks`: one text per row, in table order |
| TaskTable.TextsWith | task_list_db/task_list_db_optimized.py:64-74 | `SELECT task FROM tasks WHERE completed = ?`: no more texts than rows |
| TaskTable.TextsWithMember | task_list_db/task_list_db_optimized.py:64-66 | a text is listed under a status exactly when some row holds it with that status |
| TaskTable.ListingsPartition | task_list_db/task_list_db_duplicates.py:101-125 | the pending and the completed listings split the full listing: together they hold every text as often as the table does |
| TaskTable.AppendListing | task_list_db/task_list_db_duplicates.py:53-55 | inserting a row puts its text at the end of the listing for its status and leaves the other listing alone |
| TaskTable.SetStatusListing | task_list_db/task_list_db_duplicates.py:85-91 | flipping one row's status moves one copy of its text from one listing to the other |
| TaskTable.DeleteListing | task_list_db/task_list_db_duplicates.py:66-68 | deleting one row takes one copy of its text out of its own listing and leaves the other alone |
| TaskTable.FirstPending | task_list_db/task_list_db_duplicates.py:60-65 | `... WHERE task = ? AND completed = 0 ORDER BY created_at LIMIT 1`: the first pending row with the text, or none when no pending row has it |
| TaskTable.Find | task_list_db/task_list_db_optimized.py:58 | the row holding the text, or none when no row holds it |
| TaskTable.FindIsOnly | task_list_db/task_list_db_optimized.py:31 | under the UNIQUE constraint the row found is the only one with that text |
| TaskTable.UniqueRowListed | task_list_db/task_list_db_optimized.py:31 | under the UNIQUE constraint a row's text is listed under its own status and not under the other |
| TaskTable.AppendKeepsIds | task_list_db/task_list_db_duplicates.py:34 | an insert with the next AUTOINCREMENT id keeps ids rising |
| TaskTable.SetStatusKeepsTable | task_list_db/task_list_db_optimized.py:52 | an UPDATE of the status keeps ids rising and texts unique |
| TaskTable.DeleteKeepsIds | task_list_db/task_list_db_optimized.py:58 | a DELETE keeps ids rising |
| TaskTable.DeleteKeepsUnique | task_list_db/task_list_db_optimized.py:58 | a DELETE keeps texts unique |
| TaskListDb.TaskList.constructor | task_list_db/task_list_db.py:24-28 | opening the database keeps the table it holds and the `max_length` |
| TaskListDb.TaskList.AddTask | task_list_db/task_list_db.py:48-63 | empty input raises `EmptyTaskError`; a new text gets a pending row; a stored text (the swallowed `IntegrityError`) changes nothing; both report `Task <t> added.`, and afterwards exactly one row holds the text |
| TaskListDb.TaskList.AddUniqueTask | task_list_db/task_list_db.py:65-80 | empty input raises `EmptyTaskError`; a pending copy raises `TaskAlreadyExistsError`; a completed-only copy makes the INSERT raise `IntegrityError`; otherwise one pending row is added and the text joins the end of `list_tasks` |
| TaskListDb.TaskList.RemoveTask | task_list_db/task_list_db.py:82-93 | the normalised text's row is deleted whatever its status and no row holds the text afterwards; no such row raises `TaskNotFoundError` and changes nothing |
| TaskListDb.TaskList.ClearTasks | task_list_db/task_list_db.py:103-108 | every row is deleted and `list_tasks` is empty |
| TaskListDb.AddTwiceStoresOnce | task_list_db/task_list_db.py:54-63 | adding a text twice reports success both times and lists it once |
| TaskListDb.UniqueAddOfCompletedFails | task_list_db/task_list_db.py:71-78 | `add_unique_task` of a text stored only as completed ends in the uncaught `IntegrityError` |
| TaskListDuplicates.TaskList.constructor | task_list_db/task_list_db_duplicates.py:6-15 | opening the database keeps the table it holds and the `max_length` |
| TaskListDuplicates.TaskList.AddTask | task_list_db/task_list_db_duplicates.py:47-55 | empty input gets the refusal message and changes nothing; otherwise a fresh pending row is inserted even for a stored text, the text joins the end of the pending listing and the completed listing is unchanged |
| TaskListDuplicates.TaskList.RemoveTask | task_list_db/task_list_db_duplicates.py:57-70 | the un-normalised text's oldest pending row is deleted, the pending listing loses one copy and the completed one is unchanged; with no pending row the message says so and nothing changes |
| TaskListDuplicates.TaskList.CompleteTask | task_list_db/task_list_db_duplicates.py:72-94 | empty input and a text with no pending row get their messages and change nothing; otherwise exactly the oldest pending row is marked completed and one copy of the text moves from the pending to the completed listing |
| TaskListDuplicates.TaskList.ClearTasks | task_list_db/task_list_db_duplicates.py:96-99 | every row is deleted and all three listings are empty |
| TaskListDuplicates.AddTwiceListsTwice | task_list_db/task_list_db_duplicates.py:136-141 | adding the same text twice lists it twice as pending |
| TaskListDuplicates.CompleteMovesTask | task_list_db/task_list_db_duplicates.py:143-146 | completing a pending task moves it out of the pending listing and into the completed one |
| TaskListOptimized.TaskList.constructor | task_list_db/task_list_db_optimized.py:6-15 | opening the database keeps the table it holds and the `max_length` |
| TaskListOptimized.TaskList.AddTask | task_list_db/task_list_db_optimized.py:41-53 | empty input is refused; a new text gets a pending row; a stored text has its one row set back to pending (`re-activated`); either way the text ends up pending and not completed |
| TaskListOptimized.TaskList.RemoveTask | task_list_db/task_list_db_optimized.py:55-62 | the un-normalised text's row is deleted whatever its status, otherwise `Task not found.`; afterwards no row holds the text |
| TaskListOptimized.TaskList.CompleteTask | task_list_db/task_list_db_optimized.py:86-98 | the upsert: a new text gets a completed row, a stored one is set to completed; either way exactly one row holds the text, completed; a text already completed leaves the table as it was |
| TaskListOptimized.TaskList.ClearTasks | task_list_db/task_list_db_optimized.py:81-84 | every row is deleted and all three listings are empty |
| TaskListOptimized.CompleteTwiceSettles | task_list_db/task_list_db_optimized.py:92-97 | completing the same text twice: the second call leaves the table as the first left it |
| TaskListOptimized.AddTwiceKeepsOneRow | task_list_db/task_list_db_optimized.py:46-53 | adding a text twice reports `re-activated` the second time and the table lists it once |
| BubbleSort.SwapNeighbours | sorting/bubble_sort.py:30-33 | the swap exchanges two neighbours, touches no other place and keeps the multiset of elements |
| BubbleSort.BubblePass | sorting/bubble_sort.py:27-33 | one inner pass only permutes the prefix up to `n - 1 - i`, leaves the suffix alone, ends with the prefix's largest element at its end, keeps the sorted suffix in place, and a pass with no swap means the prefix is sorted |
| BubbleSort.GrowSuffix | sorting/bubble_sort.py:26-34 | after a pass the sorted suffix grows by one place and stays at least everything before it |
| BubbleSort.BubbleSortCopy | sorting/bubble_sort.py:3-39 | the result is a new list, sorted ascending and a permutation of the input, which is left unchanged |
| Primes.NoSmallDivisorMeansPrime | cprofile.py:11-15 | a number with no divisor below `i` where `i * i > n` is prime |
| Primes.WheelStep | cprofile.py:10-14 | once 2, 3, `i` and `i + 2` are ruled out for `i = 5 (mod 6)`, nothing below `i + 6` divides `n` |
| Primes.MultiplesOfTwoOrThreeNotPrime | cprofile.py:8-9 | multiples of 2 or 3 above 3 are not prime |
| Primes.IsPrimeOptimized | cprofile.py:3-15 | the 6k +/- 1 trial division answers exactly whether `n` is prime (at least 2 with no divisor between 1 and itself) |
| Primes.SumPrimesConcat | cprofile.py:17-22 | the sum of primes over a concatenation is the sum of the two sums |
| Primes.SumOfPrimesOptimized | cprofile.py:17-22 | the loop's total is the sum of the prime elements, duplicates included |
| Palindrome.Letters | p2/palindrome.py:7-10 | the letters the check compares are no more than the characters of the sentence |
| Palindrome.IsPalMeansMirror | p2/palindrome.py:6-14 | matching outer pairs inwards is the same as reading the same forwards and backwards |
| Palindrome.LettersConcat | p2/palindrome.py:7-10 | the letters of a concatenation are the letters of each part |
| Palindrome.SkipLeft | p2/palindrome.py:7-8 | moving `left` past a non-letter keeps the answer the window decides |
| Palindrome.SkipRight | p2/palindrome.py:9-10 | moving `right` past a non-letter keeps the answer the window decides |
| Palindrome.MatchEnds | p2/palindrome.py:11-14 | two letters that differ ignoring case decide "not a palindrome"; two that match narrow the window without changing the answer |
| Palindrome.SmallWindow | p2/palindrome.py:6 | a window of at most one character decides "palindrome" |
| Palindrome.IsPalindrome | p2/palindrome.py:1-15 | anything but a `str` raises `TypeError('Input must be a string')`; a string is answered, exactly whether its lowercased letters read the same both ways |
| Palindrome.SkipNonLettersLeft | p2/palindrome.py:7-8 | `left` moves past non-letters, stops on a letter or at `right`, and the window still decides the answer |
| Palindrome.SkipNonLettersRight | p2/palindrome.py:9-10 | `right` moves past non-letters, stops on a letter or at `left`, and the window still decides the answer |
| Palindrome.Scan | p2/palindrome.py:5-15 | the two-index loop answers exactly whether the lowercased letters of the sentence read the same both ways |
| Palindrome.SampleTypeErrors | p2/palindrome.py:30-42 | `None` and `12321` raise `TypeError`, while a string is answered |
| Palindrome.NoLettersIsPalindrome | p2/palindrome.py:25-26 | text without letters, such as `123@#321` or `!!!`, counts as a palindrome |
| Palindrome.LettersIgnoreCase | p2/palindrome.py:11 | lowercasing the sentence first changes nothing the check compares |
| StackJourney.Stack.constructor | stack/stack_journey.py:2-3 | a new stack is empty |
| StackJourney.Stack.Push | stack/stack_journey.py:5-6 | the item goes on top and nothing else changes |
| StackJourney.Stack.Pop | stack/stack_journey.py:8-12 | a non-empty stack loses and returns its top item; an empty one returns `None` and stays empty |
| StackJourney.Stack.Peek | stack/stack_journey.py:14-18 | `None` exactly on an empty stack, otherwise the top item |
| StackJourney.Stack.IsEmpty | stack/stack_journey.py:20-24 | empty exactly when the size is 0 |
| StackJourney.PushPopRestores | stack/stack_journey.py:5-12 | a push followed by a pop returns the pushed item and leaves the stack as it was |
| StackJourney.ReverseString | stack/stack_journey.py:27-36 | the popped characters spell the input backwards |
| StackJourney.DepthConcat | stack/stack_journey.py:47-53 | the nesting depth of a concatenation is the sum of the depths |
| StackJourney.IsBalanced | stack/stack_journey.py:45-54 | the answer is exactly whether the running depth never drops below zero and ends at zero |
| StackJourney.BalancedConcat | stack/stack_journey.py:59-60 | two balanced expressions written one after the other are balanced |
| StackJourney.ClosingFirstUnbalanced | stack/stack_journey.py:62-64 | an expression that starts with `)` is unbalanced |
| StackOptimized.StackFixed.constructor | stack/stack_optimized.py:2-3 | a new stack is empty |
| StackOptimized.StackFixed.Push | stack/stack_optimized.py:5-6 | the item goes on top and nothing else changes |
| StackOptimized.StackFixed.Pop | stack/stack_optimized.py:8-12 | a non-empty stack loses and returns its top item; an empty one raises `IndexError('cannot pop from empty stack')` and stays empty |
| StackOptimized.StackFixed.Peek | stack/stack_optimized.py:14-18 | `IndexError('cannot peek from empty stack')` exactly on an empty stack, otherwise the top item |
| StackOptimized.StackFixed.IsEmpty | stack/stack_optimized.py:20-24 | empty exactly when the size is 0 |
| StackOptimized.ListStr | stack/stack_optimized.py:26-27 | `str` of a list is bracketed, and the empty list prints as `[]`; with `ListStrPush` this determines the rendering of every list |
| StackOptimized.ListStrPush | stack/stack_optimized.py:26-27 | pushing an item adds its rendering just before the closing bracket, after `, ` unless the stack was empty |
| StackOptimized.PopsReverseOrder | stack/stack_optimized.py:8-12 | items pop in the reverse of their push order, and a fourth pop raises |
| StackOptimized.DecimalStr | stack/stack_optimized.py:26-27 | `str` of a non-negative `int` inside the printed list: decimal digits only, at least one, with a leading `0` exactly for zero |
| StackOptimized.DecimalStrRoundTrip | stack/stack_optimized.py:26-27 | reading the printed digits back gives the number again |
| StackOptimized.PushThenStr | stack/stack_optimized.py:23-27 | after pushing 1, 2, 3 the stack prints as `[1, 2, 3]` and has size 3 |
| DijkstraCore.Extend | dijkstra/dijkstra_vs.py:14-15 | following one more edge out of a walk's end gives a walk ending at the edge's target, heavier by the edge's weight |
| DijkstraCore.FixpointBoundsWalks | dijkstra/dijkstra_vs.py:14-18 | when no edge out of a reached node can improve its target, every walk from `start` weighs at least the distance of where it ends |
| DijkstraCore.FixpointIsShortest | dijkstra/dijkstra_vs.py:1-20 | such a fixpoint whose finite distances are all weights of walks is exactly the shortest distances |
| DijkstraCore.ShortestUnique | dijkstra/dijkstra_vs.py:73-74 | two distance maps over the same nodes that both hold the shortest distances are equal |
| DijkstraCore.InfIffUnreachable | dijkstra/dijkstra.py:45-48 | with shortest distances, a node stays at infinity exactly when no walk from `start` reaches it |
| DijkstraCore.MinIndex | dijkstra/dijkstra_vs.py:9 | `heapq.heappop` takes an entry whose distance is least in the heap |
| DijkstraCore.Initial | dijkstra/dijkstra_vs.py:3-6 | every node at infinity, `start` at 0 and the heap `[(0, start)]` satisfy the loop invariants |
| DijkstraCore.Pop | dijkstra/dijkstra_vs.py:9-12 | popping a least entry of an unvisited node: that node's distance is final and the neighbour loop can start |
| DijkstraCore.Skip | dijkstra/dijkstra_vs.py:10-11 | skipping a popped node that was visited already keeps the loop invariant |
| DijkstraCore.Finish | dijkstra/dijkstra_vs.py:14-18 | after every edge out of the popped node is relaxed, the node is settled and the outer invariant holds again |
| DijkstraCore.Done | dijkstra/dijkstra_vs.py:8-20 | an empty heap means the distances are a fixpoint and the shortest ones |
| DijkstraCore.RelaxNeighbour | dijkstra/dijkstra_vs.py:14-18 | `distance = d + weight`; when it is below the neighbour's distance that distance drops to it and the entry is pushed (in the guarded variants only for an unvisited neighbour); no distance grows and the neighbour loop's invariant advances by one edge |
| Dijkstra.TreeInitial | dijkstra/dijkstra.py:4-8 | before the loop, with every predecessor `None` and only `start` at a finite distance, the predecessor invariant holds |
| Dijkstra.TreePop | dijkstra/dijkstra.py:11-12 | adding the popped node to `visited` keeps the predecessor invariant |
| Dijkstra.TreeRelax | dijkstra/dijkstra.py:17-21 | recording `current_node` as the predecessor of an improved neighbour keeps every link a tight edge leaving an earlier-visited node |
| Dijkstra.TreeDone | dijkstra/dijkstra.py:10-25 | on return the predecessors form a shortest-path tree: `start` has none, a node has one exactly when reached, each link is a tight edge, and following links always ends |
| Dijkstra.RelaxAndRecord | dijkstra/dijkstra.py:14-23 | one relaxation: an improvement lowers the neighbour's distance, links it to `current_node`, and pushes it only when unvisited; otherwise nothing changes |
| Dijkstra.Expand | dijkstra/dijkstra.py:14-23 | the neighbour loop: distances only fall, no node that was visited before is pushed, and the popped node ends settled |
| Dijkstra.VisitNext | dijkstra/dijkstra.py:10-23 | one pass of the `while heap` loop: the termination measure drops and the invariants hold again |
| Dijkstra.Dijkstra | dijkstra/dijkstra.py:3-25 | the loop ends whatever the weights; both maps have the graph's nodes as keys; with non-negative weights the distances are the shortest ones and `previous` is a shortest-path tree rooted at `start` |
| Dijkstra.ReconstructPath | dijkstra/dijkstra.py:27-34 | the chain from `target` through its predecessors, reversed, kept only when it begins at `start`; a non-empty answer runs from `start` to `target` |
| Dijkstra.AncestorsReachStart | dijkstra/dijkstra.py:27-34 | under a shortest-path tree the predecessors of a reached node lead back to `start` along tight edges, and an unreached node other than `start` has no predecessor |
| Dijkstra.ShortestPath | dijkstra/dijkstra.py:36-48 | the path printed for a node is empty (`unreachable`) exactly when no walk reaches it; otherwise it runs from `start` to the node along tight edges, so it is a shortest path |
| DijkstraVs.DijkstraV1 | dijkstra/dijkstra_vs.py:1-20 | the skip-on-pop loop ends whatever the weights, keeps the graph's nodes as keys, and with non-negative weights returns the shortest distances |
| DijkstraVs.DijkstraV2 | dijkstra/dijkstra_vs.py:22-40 | the never-push-a-visited-node loop ends whatever the weights, keeps the graph's nodes as keys, and with non-negative weights returns the shortest distances |
| DijkstraVs.BothVersionsAgree | dijkstra/dijkstra_vs.py:73-74 | with non-negative weights the two versions return the same distance map |
| DijkstraBugs.KeysSize | dijkstra/dijkstra_bugs.py:4-5 | the distance map has exactly 20 keys exactly when `start` lies in 0..19 |
| DijkstraBugs.DijkstraBugs | dijkstra/dijkstra_bugs.py:3-24 | the keys are 0..19 and `start`; `all_nodes_visited` holds exactly when `start` lies in 0..19, whatever was visited; with non-negative weights the distances are the shortest ones |
| DijkstraBugs.PotentialBound | dijkstra/dijkstra_bugs.py:26-31 | a potential (0 at `start`, growing along no edge by more than its weight) bounds every walk from below |
| DijkstraBugs.SampleZeroUnreached | dijkstra/dijkstra_bugs.py:26-33 | in the script's graph no walk from node 1 reaches node 0, so it stays at infinity |
| DijkstraBugs.SampleFourAtFour | dijkstra/dijkstra_bugs.py:26-33 | in the script's graph node 4 is at distance 4 from node 1 |
| DijkstraBugs.SampleRun | dijkstra/dijkstra_bugs.py:33 | `dijkstra_bugs(graph, 1)` reports every node visited although node 0 was never reached, and puts node 4 at 4 |
| MagicCore.CheckSizeFirst | magic_summation/magic_summation.py:8-11 | testing `n <= 2` before `isinstance(n, int)` lets exactly the integers above 2 through |
| MagicCore.CheckIntegerFirst | magic_summation/magic_summation_3.py:10-13 | testing `isinstance(n, int)` before `n <= 2` lets exactly the integers above 2 through |
| MagicCore.ChecksAgreeOnIntegers | magic_summation/magic_summation_optimized.py:9-12 | on an `int` both orders of validation return the same |
| MagicCore.ChecksDifferOnSmallFloats | magic_summation/magic_summation.py:8-11 | on a `float` no larger than 2 the original reports the size and the later versions the type |
| MagicCore.OneTo | magic_summation/magic_summation.py:13 | `list(range(1, n + 1))` has `n` elements, the one at position `i` being `i + 1` |
| MagicCore.DeleteAtAscending | magic_summation/magic_summation.py:23 | `del s[i]` keeps a positive, strictly increasing list so, one element shorter, with no new element |
| MagicCore.DeleteEachShape | magic_summation/magic_summation.py:21-23 | deleting index after index keeps the list positive and strictly increasing, keeps only its own elements, and loses at most one element per index |
| MagicCore.DeleteUnshifted | magic_summation/magic_summation.py:21-23 | the loop deletes each index from the list as the earlier deletions left it, skipping those out of range |
| MagicCore.UnshiftedIsNotPositional | magic_summation/magic_summation.py:21-23 | that loop does not delete the drawn positions of the original list: indices 0 then 1 of [1, 2, 3] leave [2], not [3] |
| MagicCore.SurvivorsNone | magic_summation/magic_summation_optimized_2.py:27 | filtering out no index keeps the list |
| MagicCore.SurvivorsMembers | magic_summation/magic_summation_optimized_2.py:27 | a value survives the filter exactly when it stands at some position that is not drawn |
| MagicCore.SurvivorsAscending | magic_summation/magic_summation_optimized_2.py:27 | the filter keeps the order, so a strictly increasing list stays so |
| MagicCore.SurvivorsOfOneTo | magic_summation/magic_summation_optimized_2.py:15-27 | from 1..n exactly the values `k + 1` with `k` not drawn survive, in increasing order |
| MagicCore.SurvivorsLength | magic_summation/magic_summation_optimized_2.py:27 | one value survives per position of the list that is not drawn |
| MagicCore.SurvivorsWithin | magic_summation/magic_summation_optimized_2.py:27 | drawn indices beyond the list make no difference |
| MagicCore.ShiftedStep | magic_summation/magic_summation_3.py:28-33 | with the indices visited in increasing order and `shift` counting the deletions, `idx - shift` is in range exactly when `idx` is a position of the original list, and deleting there removes that original position |
| MagicCore.SortedElements | magic_summation/magic_summation_3.py:29 | `sorted(indices_to_remove)` holds exactly the drawn values, strictly increasing |
| MagicCore.DeleteShifted | magic_summation/magic_summation_3.py:28-33 | the shifted loop deletes exactly the drawn positions of the original list, as the filter of magic_summation_optimized_2.py does |
| MagicCore.DistinctElements | magic_summation/magic_summation_optimized_3.py:19 | indices drawn without replacement are as many as their set |
| MagicCore.Unshifted | magic_summation/magic_summation.py:13-23 | what the unshifted deletions leave of 1..n is positive, strictly increasing, within 1..n, and at most one element shorter per index |
| MagicCore.Positional | magic_summation/magic_summation_3.py:16-33 | what the positional deletions leave of 1..n: exactly the values whose position was not drawn, increasing, one per undrawn position |
| MagicCore.PositionalNonEmpty | magic_summation/magic_summation_3.py:23-25 | with fewer drawn indices than elements something survives, so the guarded early return is the only way to an empty list |
| MagicCore.FloorQuotient | magic_summation/magic_summation_3.py:37 | `a // b` for positive `b` is the largest `q` with `q * b <= a` |
| MagicCore.TransformedQuotients | magic_summation/magic_summation_3.py:36-39 | each transformed element but the last is the floor quotient of its right neighbour by it; the last is kept |
| MagicCore.QuotientAtLeastOne | magic_summation/magic_summation_3.py:37 | the quotient of a number by a positive one no larger is at least 1 |
| MagicCore.SumAtLeastCount | magic_summation/magic_summation_3.py:36-39 | a sum of elements each at least 1 is at least their count |
| MagicCore.MagicValueBound | magic_summation/magic_summation_3.py:36-39 | on a strictly increasing list the summation is at least the number of quotients plus the last element |
| MagicCore.TransformInPlace | magic_summation/magic_summation_optimized.py:31-32 | the in-place loop over all but the last position leaves exactly the transform of the list |
| MagicCore.TransformGuarded | magic_summation/magic_summation.py:24-26 | the loop over every position, guarded by `i < len(magic_list) - 1`, leaves exactly the same transform |
| MagicCore.Accumulate | magic_summation/magic_summation.py:27-35 | adding up what the generator yields, one `next` at a time until `StopIteration`, gives the sum of the list |
| MagicSummation.MagicSummation | magic_summation/magic_summation.py:4-37 | size test first; 0 when as many indices were drawn as elements; otherwise the summation of what the unshifted deletions leave |
| MagicSummation3.MagicSummation3 | magic_summation/magic_summation_3.py:4-42 | type test first; 0 when the drawn set is as large as the list; otherwise the summation of what is left at the undrawn positions |
| MagicSummationOptimized.MagicSummationOptimized | magic_summation/magic_summation_optimized.py:4-39 | type test first; 0 when as many indices were drawn as elements; otherwise the summation of what the unshifted deletions leave |
| MagicSummationOptimized.AgreesWithOriginal | magic_summation/magic_summation_optimized.py:4-39 | on an `int` this version returns what magic_summation.py returns; on a small `float` the two messages differ |
| MagicSummationOptimized2.Optimized2Outcome | magic_summation/magic_summation_optimized_2.py:4-37 | a message exactly when the type-first validation fails; otherwise a non-zero result is at least the number of survivors minus one plus the last survivor |
| MagicSummationOptimized2.AgreesWithVersion3 | magic_summation/magic_summation_optimized_2.py:19-22 | with draws from `randint(0, n)` the test `>=` agrees with the `==` of magic_summation_3.py and the two scripts return the same |
| MagicSummationOptimized3.SameAsOptimized2 | magic_summation/magic_summation_optimized_3.py:19-27 | with distinct indices, as `choice(..., replace=False)` gives, the result equals that of magic_summation_optimized_2.py |
| MagicSummationOptimized3.RepeatsMatter | magic_summation/magic_summation_optimized_3.py:19-22 | counting the array's length rather than its set matters when indices repeat: [0, 0, 0] out of 3 gives 0 here and not in magic_summation_optimized_2.py |
| MagicSummationTest.CompareVersions | magic_summation/magic_summation_test.py:3-76 | the original and optimized functions agree on every `int` and on every visiting order of the drawn set, and differ in message on a small `float` |
| MagicSummationTest2.MagicSummationOptimized | magic_summation/magic_summation_test_2.py:53-90 | type test first; 0 for a full drawn set; otherwise shifted deletion, in-place transform and sum give the summation of the undrawn positions |
| MagicSummationTest2.CompareVersions | magic_summation/magic_summation_test_2.py:3-90 | `magic_summation_original` and `magic_summation_optimized` return the same for every input and every draw |
| DoublyLinkedLists.Node.constructor | doubly_linked_list/doubly_coursera.py:2-5 | a new node holds `data` and links to nothing either way |
| DoublyLinkedLists.DoublyLinkedList.constructor | doubly_linked_list/doubly_coursera.py:21-26 | a new list is empty: no head, no tail |
| DoublyLinkedLists.DoublyLinkedList.AddNode | doubly_linked_list/doubly_coursera.py:28-45 | the returned node is fresh, holds `data` and becomes the tail; on an empty list it is the head too, otherwise the old tail and it link to each other and the head stays; no value changes and the list stays a well-linked chain |
| DoublyLinkedLists.DoublyLinkedList.Start | doubly_linked_list/doubly_coursera.py:39-40 | the first node of an empty list is both its head and its tail |
| DoublyLinkedLists.DoublyLinkedList.Append | doubly_linked_list/doubly_coursera.py:41-44 | a node linked after the tail becomes the tail, each pointing at the other, and the chain stays well linked |
| DoublyLinkedLists.DoublyLinkedList.LinkNodes | doubly_linked_list/doubly_coursera.py:47-64 | `node1.next` becomes `node2` and `node2.prev` becomes `node1`, and no value, head or tail changes; linking the tail back to the head, or relinking two neighbours, keeps the chain well linked |
| DoublyLinkedLists.DoublyLinkedList.Traverse | doubly_linked_list/doubly_coursera.py:66-82 | on a well-linked chain, the traversal returns exactly the chain from head to tail, each node once and in order, whether the tail ends the chain or links back to the head |
| DoublyLinkedLists.Alternates | doubly_linked_list/doubly_coursera.py:77-79 | following `next` between two nodes linked to each other alternates between them for ever |
| DoublyLinkedLists.SampleInnerCycle | doubly_linked_list/doubly_coursera.py:57-64 | after `link_nodes(n3, n2)` on three appended nodes every step of the walk from the head reaches a node that is neither `None` nor the head, so the loop at lines 77-81 never exits |
| DoublyLinkedLists.SampleBypass | doubly_linked_list/doubly_coursera.py:63-64 | after `link_nodes(n1, n3)` the walk from the head reaches the third node and then `None` |
| DoublyLinkedLists.SampleRun | doubly_linked_list/doubly_coursera.py:84-97 | 10, 20 and 30 appended traverse as 10, 20, 30, and still do so once the tail links back to the head |
| WordCount.CountWords | counter/coursera_counter_25.py:23 | `Counter(words)` has exactly the words of the list as keys, each counted as often as it occurs |
| WordCount.Lowered | counter/coursera_counter_25.py:22 | `content.lower()` lowers each word and keeps their number and order |
| WordCount.DownloadAndCount | counter/coursera_counter_25.py:11-34 | a URL that is not http or https, an HTTP error, a URL error or any other failure gives an empty Counter; a page read gives, for every word, the number of its lowered occurrences |
| WordCount.HelloWorld | counter/coursera_counter_25_unit_tests.py:15-23 | 'Hello world! Hello universe!' counts hello 2, world 1 and universe 1 |
| WordCount.Update | counter/coursera_counter_25.py:39 | `Counter.update` adds the counts word by word, keeping every word of either |
| WordCount.MergeCounters | counter/coursera_counter_25.py:36-40 | every word's merged count is the sum of its counts over all the Counters, and exactly the words some Counter mentions are keys |
| WordCount.SampleMerge | counter/coursera_counter_25_unit_tests.py:36-41 | merging {a: 2, b: 1} and {a: 1, c: 5} gives {a: 3, c: 5, b: 1} |
| WordCount.MaxIn | counter/coursera_counter_25.py:49 | a word of the candidates whose count no other candidate exceeds |
| WordCount.RankNext | counter/coursera_counter_25.py:49 | ranking next a word of largest count among the rest keeps the ranking: distinct words, their own counts, non-increasing, none left out counting more |
| WordCount.MostCommon | counter/coursera_counter_25.py:49 | `most_common(n)` returns `min(n, len(c))` distinct words with their counts, largest first, and no word left out counts more than one returned |
| WordCount.Downloads | counter/coursera_counter_3.py:76-77 | `pool.map(download_fn, urls)` gives one Counter per URL, in order |
| WordCount.CountTopWords | counter/coursera_counter_3.py:65-84 | the `top_n` most common words over all pages: none when `top_n` is not positive, else `top_n` words or every word mentioned when there are fewer, each once with its total count, counts non-increasing, and no word left out with a larger total than a ranked one |
| WordCount.CountTopWordsDefault | counter/coursera_counter_25.py:42-50 | the same ranking with `TOP_N_WORDS` = 152: 152 words, or every word when there are fewer, each once with its total, counts non-increasing, no omitted word counting more |
| Registries.Registry.constructor | financial/company/types.py:4 | the registry starts empty |
| Registries.Registry.ResolveClass | financial/company/types.py:21-23 | the class registered for a member, and `None` exactly when none is |
| Registries.Registry.Register | financial/company/types.py:14-19 | the decorator returns the class unchanged and records it for the member, replacing an earlier one and leaving every other entry |
| CompanyTypes.FromValue | financial/company/types.py:28 | `CompanyType(raw)` finds only a member whose value is `raw` |
| CompanyTypes.ValueRoundTrip | financial/company/types.py:6-12 | every member, given its value string (what `str` returns), is found again |
| CompanyTypes.GetClass | financial/company/types.py:25-31 | a member's value gives whatever `resolve_class` gives for it; any other string gives `None` instead of raising |
| CompanyTypes.LoadSubclasses | financial/company/subclasses.py:5-30 | after the three decorated classes load, every member resolves to a class whose `company_type` is that member |
| CompanyTypes.SampleLookups | financial/company/types.py:25-31 | after loading, 'crypto' gives `CryptoCompany` and 'bank' gives `None` |
| CompanyClassRegistry.FromValue | financial/company_class.py:34 | `CompanyType(raw)` finds only a member whose value is `raw` |
| CompanyClassRegistry.ValueRoundTrip | financial/company_class.py:13-18 | each of the two members, given its value string, is found again |
| CompanyClassRegistry.GetClass | financial/company_class.py:31-37 | a member's value gives whatever `resolve_class` gives for it; any other string gives `None` |
| CompanyClassRegistry.CryptoUnknown | financial/company_class.py:13-15 | 'crypto' names no member here, so `get_class('crypto')` is `None` whatever was registered |
| CompanyClassRegistry.LoadModule | financial/company_class.py:90-100 | after loading, DOMESTIC resolves to `DomesticCompany` and FOREIGN to `ForeignCompany`, each with its own member as `company_type` |
| InstrumentedCaches.HitRate | db3/cache_utils.py:19-20 | the hit rate is a percentage: 100 exactly when every lookup hit, 0 exactly when none hit or there were none |
| InstrumentedCaches.InstrumentedCache.constructor | db3/cache_utils.py:4-7 | a new cache holds no entry and counts no hit and no miss |
| InstrumentedCaches.InstrumentedCache.Put | db3/cache_utils.py:3 | storing an entry, as the underlying cache does, leaves both counters |
| InstrumentedCaches.InstrumentedCache.Get | db3/cache_utils.py:9-16 | a present key returns its value and counts one hit; an absent key counts one miss and raises `KeyError`; the entries stay |
| InstrumentedCaches.InstrumentedCache.Stats | db3/cache_utils.py:18-25 | the hits, the misses, and a rate between 0 and 100 that is 0 exactly when nothing hit |
| InstrumentedCaches.InstrumentedCache.ResetStats | db3/cache_utils.py:27-29 | both counters return to 0 and the entries stay |
| InstrumentedCaches.SampleRun | db3/cache_utils.py:9-29 | a hit and a miss on a one-entry cache return the value and raise, the rate is 50, and after a reset the stats are all 0 |
| Greeting.Greet | flask/flask_training.py:6-13 | a name over 100 characters gives 400 'Name too long'; otherwise one of `< > { } ;` gives 400 'Invalid characters in name'; exactly the other names give 200 with the POST or the GET message |
| Greeting.GreetNameRoundTrip | flask/flask_training.py:11-13 | the name can be read back out of every successful reply |
| Greeting.SampleReplies | flask/flask_training.py:11-13 | GET 'DJ' answers 'Hello, DJ!', POST 'DJ' answers 'This is POST by DJ.' |
| SingletonConfig.Instance.constructor | singleton/singleton_config/singleton_class.py:7 | a newly allocated object has no `configuration` yet |
| SingletonConfig.Singleton.constructor | singleton/singleton_config/singleton_class.py:1-2 | the class starts without an instance |
| SingletonConfig.MergedLastWins | singleton/singleton_config/singleton_class.py:10-13 | a key of the configuration is one some construction passed, holding the value of the last construction that passed it |
| SingletonConfig.Singleton.Construct | singleton/singleton_config/singleton_class.py:4-13 | the first construction makes the one instance, configured with its keyword arguments; every later one returns that same instance with the new arguments merged over the old |
| SingletonConfig.Singleton.ConstructAll | singleton/singleton_config/singleton_class.py:4-13 | after a series of constructions the one instance holds all their arguments merged in order |
| SingletonConfig.SampleRun | singleton/singleton_config/singleton_class.py:16-21 | `Singleton(dj=42, daniel=42)` and `Singleton(dj=14)` are the same object, configured with dj 14 and daniel 42 |
| BasicInitSingleton.Singleton.constructor | singleton/basic_init_singleton.py:1-2 | the class starts without an instance |
| BasicInitSingleton.Singleton.Construct | singleton/basic_init_singleton.py:10-14 | a direct construction when an instance exists raises 'This class is a singleton!' and changes nothing; otherwise the new object becomes the instance |
| BasicInitSingleton.Singleton.GetInstance | singleton/basic_init_singleton.py:4-8 | `getInstance` returns the existing instance, or a fresh one that becomes the instance |
| BasicInitSingleton.SampleRun | singleton/basic_init_singleton.py:4-14 | two `getInstance` calls give one object and a direct construction then raises; a direct construction first is what `getInstance` returns later |
| DbSingleton.Instance.constructor | financial/db_singleton.py:21 | a new instance has no shared and no scoped connection yet |
| DbSingleton.DatabaseConnection.constructor | financial/db_singleton.py:15-16 | the class starts without an instance and with the path 'company_database.db' |
| DbSingleton.DatabaseConnection.Connect | financial/db_singleton.py:22-24 | `sqlite3.connect(path)` gives a new handle for that path and records one opening |
| DbSingleton.DatabaseConnection.New | financial/db_singleton.py:18-30 | the first construction fixes the path (the given one, or the default when none or '' is given) and opens one shared connection; a later one with another non-empty path raises the 'already initialized' message; any other later one returns the same instance; later ones open nothing |
| DbSingleton.DatabaseConnection.Enter | financial/db_singleton.py:32-38 | entering a `with` block opens a new scoped connection on the fixed path, leaving the shared one |
| DbSingleton.DatabaseConnection.Exit | financial/db_singleton.py:40-47 | leaving it commits and closes the scoped connection, if there is one, and clears it |
| DbSingleton.DatabaseConnection.GetConnection | financial/db_singleton.py:49-64 | without an instance it raises 'has not been initialized'; otherwise it returns the shared connection, reopening it on the fixed path when it was closed |
| DbSingleton.DatabaseConnection.CloseConnection | financial/db_singleton.py:66-74 | closes the shared connection when there is one and clears it; otherwise does nothing |
| DbSingleton.SampleRun | financial/db_singleton.py:18-74 | constructing with 'a.db' then with no path gives one instance, 'b.db' is refused, and closing twice then getting the connection reopens 'a.db' as a new handle |
| DbConnection.FirstPathShape | financial/db/connection.py:19-30 | the first path is absolute: the default directory joined with 'company_database.db' when none is given, an absolute path as given, and a relative path joined to the default directory |
| DbConnection.RepeatAccepted | financial/db/connection.py:25-35 | a repeated absolute path is accepted; a repeated relative path is accepted exactly when the working directory is the default directory, since the check resolves it against the working directory and the first construction against the default directory |
| DbConnection.DatabaseConnection.constructor | financial/db/connection.py:15-17 | the class starts without an instance, with its default directory |
| DbConnection.DatabaseConnection.Connect | financial/db/connection.py:33 | `sqlite3.connect(path)` gives a new handle for that path and records one opening |
| DbConnection.DatabaseConnection.New | financial/db/connection.py:19-41 | the first construction fixes the resolved path and opens one shared connection; a later one whose non-empty path resolves elsewhere raises; any other later one returns the same instance; later ones open nothing |
| DbConnection.DatabaseConnection.Enter | financial/db/connection.py:43-49 | entering a `with` block opens a new scoped connection on the fixed path, leaving the shared one |
| DbConnection.DatabaseConnection.Exit | financial/db/connection.py:51-58 | leaving it commits and closes the scoped connection, if there is one, and clears it |
| DbConnection.DatabaseConnection.GetConnection | financial/db/connection.py:60-75 | without an instance it raises; otherwise it returns the shared connection, reopening it when it was closed |
| DbConnection.DatabaseConnection.CloseConnection | financial/db/connection.py:77-85 | closes the shared connection when there is one and clears it |
| DbConnection.SampleRepeatRelative | financial/db/connection.py:25-39 | constructing twice with 'company.db' from a working directory other than the default one: the second construction raises although it names the same file |

## Left out

- Printing and logging are not modelled. Neither is the output format of the
  scripts' `print` calls or the `__main__` blocks beyond the sample runs
  modelled as `SampleRun` methods.
- Randomness is taken as input. The magic summation scripts take the drawn
  indices (or the order in which a set is iterated) instead of the
  `numpy.random` draws. Seeds, argv parsing and the `timeit` and cProfile
  timing code are not modelled.
- The argument `n` of a magic summation is an `int` or a `float` (`MagicCore.Arg`).
  Other Python types are not modelled.
- Floating point is not modelled:
  - `float('inf')` in the Dijkstra files is the value `Inf` of `Dist`.
  - Weights and distances are integers.
  - The cache's hit rate is a real number without `round(..., 2)`.
  - Bollinger bands, grading and the pandas time series of `Company` in
    financial/company_class.py and financial/company/base.py are not modelled.
- `heapq` orders entries that tie on distance by node. `DijkstraCore.MinIndex`
  takes the first least entry instead. None of the proved properties depends on
  which least entry is taken.
- The Dijkstra methods assume every neighbour is a node of the graph (`Closed`).
  The source needs this for its dictionary lookups.
- The shortest-distance and shortest-path conclusions hold only for graphs with
  non-negative weights, as for Dijkstra's algorithm in general.
  `Dijkstra.ShortestPath` requires non-negative weights; the other methods state
  those conclusions under `NonNegative`.
- `Dijkstra.ReconstructPath` takes a ghost rank of the predecessor map, which
  rules out predecessor cycles. Predecessor maps built by `dijkstra` always have
  such a rank (`Dijkstra.TreeDone`).
- SQLite is modelled as data, not as a database. The `tasks` table is a sequence
  of rows in id order, and `ORDER BY created_at` is taken to be id order.
  `created_at` has one-second resolution, so ties are broken by id.
  `completed_at` is not stored, and the completed listing of
  task_list_db_duplicates.py is in id order.
- The connection lifecycle of the SQLite task lists is not modelled: `__enter__`,
  `__exit__`, `close`, `_initialize_db` and `db_path`.
- The connection managers treat a connection as an opaque handle in a log of
  `connect`, `commit` and `close` events. Paths are POSIX strings already in
  normal form. `mkdir`, the threading flag and `Path.resolve` are not modelled,
  apart from the rule for placing a relative path.
- `DbSingleton.DatabaseConnection.Enter` and `DbConnection.DatabaseConnection.Enter`
  require an instance. The source only reaches `__enter__` through an object
  returned by `__new__`.
- `__repr__` of the task lists is not modelled. Neither is `save_to_file` and
  JSON parsing: `load_from_file` starts from the parsed value (`JsonData.FileRead`).
- The `size` methods of the two stacks and the task-list listings have no
  contracts of their own. Their behaviour is stated by the contracts of
  `StackJourney.Stack` and `StackOptimized.StackFixed` and by the `TaskTable`
  lemmas.
- `StackJourney.Stack.Pop` and `StackJourney.Stack.Peek` return `None` on an
  empty stack. The model cannot tell that `None` from a pushed `None` item.
- `WordCount.DownloadAndCount` does no real fetching. The page's outcome and its
  word list, as `\b\w+\b` would find them, are inputs. `lower()` covers ASCII
  letters only, and the multiprocessing `Pool` is an ordered map over the URLs.
- `DoublyLinkedLists.DoublyLinkedList.Traverse`,
  `DoublyLinkedLists.DoublyLinkedList.LinkNodes` and
  `DoublyLinkedLists.DoublyLinkedList.AddNode`: `AddNode` requires a
  well-linked chain, while `add_node` runs in any link state; the script only
  adds nodes before any `link_nodes`. Traversal is modelled only on
  a well-linked chain whose tail ends it or links back to the head. `LinkNodes`
  keeps that shape only when it closes the ring or relinks neighbours. On the
  other link states `link_nodes` can leave, `Traverse` is not modelled. There
  the source's traversal may skip nodes or never end
  (`DoublyLinkedLists.SampleBypass`, `DoublyLinkedLists.SampleInnerCycle`).
- `TaskTable.Texts` and `TaskTable.TextsWith`: the listings without `ORDER BY`
  are `SELECT task FROM tasks WHERE completed = 0` in task_list_db.py and the
  `completed = ?` and unfiltered listings of task_list_db_optimized.py. The
  model returns them in id order, but SQLite promises no order for them. The
  unfiltered listing may follow the UNIQUE index on `task` instead. Only their
  contents as a multiset are the source's promise.
- `Dijkstra.Dijkstra`, `Dijkstra.ShortestPath`, `DijkstraVs.DijkstraV1`,
  `DijkstraVs.DijkstraV2`, `DijkstraVs.BothVersionsAgree` and
  `DijkstraBugs.DijkstraBugs` require `start` to be a node of the graph. For
  another `start` the source adds it to the distances and then raises
  `KeyError` on `graph[start]`; that error path is not modelled.
  `Dijkstra.ReconstructPath` requires `target` to have an entry in `previous`;
  the source raises `KeyError` for an unknown target, which is not modelled.
- `Palindrome.IsPalindrome`: letters are ASCII letters only. The source's test
  at p2/palindrome.py:27 holds the mis-decoded apostrophe `â€™`, and Python
  counts `â` as a letter, so the source compares `â` with `s` and answers
  False; that assertion of the test fails. The model skips all three
  characters and answers True, agreeing with the test only because of the
  ASCII abstraction.
- `WordCount.MostCommon`: the order of words with equal counts is not modelled
  (Python keeps first-insertion order).
- `str.strip`, `str.isalpha` and `str.lower` are modelled on ASCII characters
  only. Non-ASCII whitespace such as `\x85`, `\xa0` or `\u2028` is not stripped,
  and non-ASCII letters are not letters. `max_length` is a natural number; negative slices are not modelled.
- The Flask application is not modelled: routing, methods other than GET and
  POST, and the 404, 405 and 500 handlers. `Greeting.Greet` is the `greet`
  function alone.
- The TTL expiry and size-based eviction of the `TTLCache` under
  `InstrumentedCache` are not modelled. Its entries are a finite map that
  changes only through `Put`.
- `CompanyFactory.get_company` and financial/company/factory.py are not
  modelled (a database query and a constructor call). Neither are the
  print-only pipeline hooks of financial/company/subclasses.py.
- Object identity beyond the single instance is not modelled. Neither is class
  attribute inheritance.

=== FILE: basic_init_singleton.dfy ===
/**
 * singleton/basic_init_singleton.py: a singleton reached through
 * `getInstance`, whose constructor refuses to make a second object.
 */
module BasicInitSingleton {
  import opened Wrappers

  /** What `Singleton()` raises once an instance exists. */
  const AlreadyExists := "This class is a singleton!"

  /** An object of the class; only its identity matters. */
  class Instance {
    constructor ()
    {
    }
  }

  /** The class object and its `_instance` attribute. */
  class Singleton {
    var instance: Instance?

    /** The class as defined: no instance yet. */
    constructor ()
      ensures instance == null
    {
      instance := null;
    }

    /**
     * `Singleton()`: with an instance already there it raises and changes
     * nothing; otherwise the new object records itself as the instance.
     */
    method Construct() returns (r: Result<Instance, string>)
      modifies this
      ensures old(instance) != null ==> r == Err(AlreadyExists) && instance == old(instance)
      ensures old(instance) == null ==> r.Ok? && fresh(r.value) && instance == r.value
    {
      if instance != null {
        return Err(AlreadyExists);
      }
      var obj := new Instance();
      instance := obj;
      r := Ok(obj);
    }

    /**
     * `getInstance`: the existing instance, or on the first call a new one,
     * which becomes the instance.
     */
    method GetInstance() returns (obj: Instance)
      modifies this
      ensures old(instance) != null ==> obj == old(instance)
      ensures old(instance) == null ==> fresh(obj)
      ensures instance == obj
    {
      if instance == null {
        var r := Construct();
        instance := r.value;
      }
      obj := instance;
    }
  }

  /**
   * `getInstance` twice gives one object and a direct construction after it
   * raises; on another class, a direct construction first is what
   * `getInstance` then returns.
   */
  method SampleRun() returns (same: bool, refused: bool, adopted: bool)
    ensures same && refused && adopted
  {
    var cls := new Singleton();
    var a := cls.GetInstance();
    var b := cls.GetInstance();
    same := a == b;
    var c := cls.Construct();
    refused := c == Err(AlreadyExists);
    var other := new Singleton();
    var d := other.Construct();
    var e := other.GetInstance();
    adopted := d == Ok(e);
  }
}

=== FILE: bubble_sort.dfy ===
/**
 * sorting/bubble_sort.py: `bubble_sort_copy` sorts a copy of its input with
 * bubble sort, stopping early after a pass that swaps nothing.
 */
module BubbleSort {

  predicate Sorted(s: seq<int>) {
    forall i, j :: 0 <= i < j < |s| ==> s[i] <= s[j]
  }

  /** `a[lo..hi]` is in ascending order. */
  ghost predicate SortedBetween(a: array<int>, lo: int, hi: int)
    reads a
    requires 0 <= lo <= hi <= a.Length
  {
    forall i, j :: lo <= i < j < hi ==> a[i] <= a[j]
  }

  /** Everything before `mid` is at most everything from `mid` on. */
  ghost predicate Split(a: array<int>, mid: int)
    reads a
    requires 0 <= mid <= a.Length
  {
    forall x, y :: 0 <= x < mid <= y < a.Length ==> a[x] <= a[y]
  }

  /** `a[j], a[j + 1] = a[j + 1], a[j]`: exchanges two neighbours and nothing else. */
  method SwapNeighbours(a: array<int>, j: int)
    requires 0 <= j < a.Length - 1
    modifies a
    ensures a[j] == old(a[j + 1]) && a[j + 1] == old(a[j])
    ensures forall k :: 0 <= k < a.Length && k != j && k != j + 1 ==> a[k] == old(a[k])
    ensures multiset(a[..]) == old(multiset(a[..]))
  {
    a[j], a[j + 1] := a[j + 1], a[j];
  }

  /**
   * One pass of the inner loop, `for j in range(0, bound)`: bubbles the
   * largest of `a[..bound + 1]` up to position `bound` and reports whether it
   * swapped; it only permutes that prefix and leaves the rest alone.
   */
  method BubblePass(a: array<int>, bound: int) returns (swapped: bool)
    requires 0 <= bound < a.Length
    modifies a
    ensures multiset(a[..]) == old(multiset(a[..]))
    ensures forall k :: bound < k < a.Length ==> a[k] == old(a[k])
    ensures forall k :: 0 <= k <= bound ==> a[k] <= a[bound]
    ensures Split(a, bound + 1) <== old(Split(a, bound + 1))
    ensures !swapped ==> SortedBetween(a, 0, bound + 1)
  {
    swapped := false;
    for j := 0 to bound
      invariant multiset(a[..]) == old(multiset(a[..]))
      invariant forall k :: bound < k < a.Length ==> a[k] == old(a[k])
      invariant old(Split(a, bound + 1)) ==> Split(a, bound + 1)
      invariant forall k :: 0 <= k <= j ==> a[k] <= a[j]
      invariant !swapped ==> SortedBetween(a, 0, j + 1)
    {
      if a[j] > a[j + 1] {
        SwapNeighbours(a, j);
        swapped := true;
      }
    }
  }

  /** Once the largest of the unsorted prefix sits at its end, the sorted suffix grows by one. */
  lemma GrowSuffix(a: array<int>, mid: int)
    requires 0 < mid <= a.Length
    requires SortedBetween(a, mid, a.Length) && Split(a, mid)
    requires forall k :: 0 <= k < mid ==> a[k] <= a[mid - 1]
    ensures SortedBetween(a, mid - 1, a.Length) && Split(a, mid - 1)
  {
  }

  /**
   * `bubble_sort_copy`: the result is a new array holding the input's
   * elements in ascending order; the input is left as it was. After pass `i`
   * the last `i + 1` places hold the largest elements in their final order,
   * and a pass without a swap means the rest is sorted already.
   */
  method BubbleSortCopy(arr: array<int>) returns (sortedArr: array<int>)
    ensures fresh(sortedArr)
    ensures Sorted(sortedArr[..])
    ensures multiset(sortedArr[..]) == multiset(arr[..])
  {
    sortedArr := new int[arr.Length](k requires 0 <= k < arr.Length reads arr => arr[k]);
    assert sortedArr[..] == arr[..];
    var n := sortedArr.Length;
    for i := 0 to n
      invariant multiset(sortedArr[..]) == multiset(arr[..])
      invariant SortedBetween(sortedArr, n - i, n) && Split(sortedArr, n - i)
    {
      var swapped := BubblePass(sortedArr, n - 1 - i);
      GrowSuffix(sortedArr, n - i);
      if !swapped {
        break;
      }
    }
    assert Sorted(sortedArr[..]);
  }
}

=== FILE: company_class.dfy ===
/**
 * financial/company_class.py: the two-member `CompanyType` enumeration, its
 * registry, and the two subclasses registered in the same file.
 */
module CompanyClassRegistry {
  import opened Wrappers
  import opened Registries

  datatype CompanyType = Domestic | Foreign

  /** The member's value, which `str(member)` returns. */
  function Value(t: CompanyType): string {
    match t
    case Domestic => "domestic"
    case Foreign => "foreign"
  }

  /** `CompanyType(raw)`: the member with that value, or `None` for the `ValueError` any other string raises. */
  function FromValue(raw: string): (r: Option<CompanyType>)
    ensures r.Some? ==> Value(r.value) == raw
  {
    if raw == "domestic" then Some(Domestic)
    else if raw == "foreign" then Some(Foreign)
    else None
  }

  /** Every member is found again from its value. */
  lemma ValueRoundTrip(t: CompanyType)
    ensures FromValue(Value(t)) == Some(t)
  {
    assert |"domestic"| == 8 && |"foreign"| == 7;
  }

  /**
   * `get_class(raw)`: a string that is the value of a member gives the class
   * registered for that member, or `None` when there is none; any other
   * string gives `None` rather than raising.
   */
  function GetClass<C>(registry: Registry<CompanyType, C>, raw: string): (r: Option<C>)
    reads registry
    ensures forall t :: Value(t) == raw ==> r == registry.ResolveClass(t)
    ensures (forall t :: Value(t) != raw) ==> r == None
  {
    match FromValue(raw)
    case Some(t) =>
      assert forall u :: Value(u) == raw ==> u == t by {
        forall u | Value(u) == raw ensures u == t {
          ValueRoundTrip(u);
        }
      }
      registry.ResolveClass(t)
    case None =>
      assert forall t :: Value(t) != raw by {
        forall t ensures Value(t) != raw {
          ValueRoundTrip(t);
        }
      }
      None
  }

  /** 'crypto' is no member's value here, so `get_class('crypto')` is `None` whatever was registered. */
  lemma CryptoUnknown<C>(registry: Registry<CompanyType, C>)
    ensures GetClass(registry, "crypto") == None
  {
    assert |"crypto"| == 6 && |Value(Domestic)| == 8 && |Value(Foreign)| == 7;
  }

  /** `DomesticCompany` and `ForeignCompany`. */
  datatype CompanyClass = DomesticCompany | ForeignCompany

  /** The `company_type` each subclass's constructor sets. */
  function CompanyTypeOf(c: CompanyClass): CompanyType {
    match c
    case DomesticCompany => Domestic
    case ForeignCompany => Foreign
  }

  /**
   * Loading the file: both decorated classes are registered, after which
   * DOMESTIC resolves to `DomesticCompany`, FOREIGN to `ForeignCompany`, and
   * each class's `company_type` is the member it is registered for.
   */
  method LoadModule() returns (registry: Registry<CompanyType, CompanyClass>)
    ensures fresh(registry)
    ensures registry.ResolveClass(Domestic) == Some(DomesticCompany)
    ensures registry.ResolveClass(Foreign) == Some(ForeignCompany)
    ensures forall t :: registry.ResolveClass(t).Some? && CompanyTypeOf(registry.ResolveClass(t).value) == t
  {
    registry := new Registry();
    var c := registry.Register(Domestic, DomesticCompany);
    c := registry.Register(Foreign, ForeignCompany);
    forall t ensures registry.ResolveClass(t).Some? && CompanyTypeOf(registry.ResolveClass(t).value) == t {
      assert t == Domestic || t == Foreign;
    }
  }
}

=== FILE: company_types.dfy ===
/**
 * financial/company/types.py and the subclasses financial/company/subclasses.py
 * registers: the three-member `CompanyType` enumeration of string values and
 * the class registered for each member.
 */
module CompanyTypes {
  import opened Wrappers
  import opened Registries

  datatype CompanyType = Domestic | Foreign | Crypto

  /** The member's value, which `str(member)` returns. */
  function Value(t: CompanyType): string {
    match t
    case Domestic => "domestic"
    case Foreign => "foreign"
    case Crypto => "crypto"
  }

  /** `CompanyType(raw)`: the member with that value, or `None` for the `ValueError` any other string raises. */
  function FromValue(raw: string): (r: Option<CompanyType>)
    ensures r.Some? ==> Value(r.value) == raw
  {
    if raw == "domestic" then Some(Domestic)
    else if raw == "foreign" then Some(Foreign)
    else if raw == "crypto" then Some(Crypto)
    else None
  }

  /** Every member is found again from its value. */
  lemma ValueRoundTrip(t: CompanyType)
    ensures FromValue(Value(t)) == Some(t)
  {
    assert |"domestic"| == 8 && |"foreign"| == 7 && |"crypto"| == 6;
  }

  /**
   * `get_class(raw)`: a string that is the value of a member gives the class
   * registered for that member, or `None` when there is none; any other
   * string gives `None` rather than raising.
   */
  function GetClass<C>(registry: Registry<CompanyType, C>, raw: string): (r: Option<C>)
    reads registry
    ensures forall t :: Value(t) == raw ==> r == registry.ResolveClass(t)
    ensures (forall t :: Value(t) != raw) ==> r == None
  {
    match FromValue(raw)
    case Some(t) =>
      assert forall u :: Value(u) == raw ==> u == t by {
        forall u | Value(u) == raw ensures u == t {
          ValueRoundTrip(u);
        }
      }
      registry.ResolveClass(t)
    case None =>
      assert forall t :: Value(t) != raw by {
        forall t ensures Value(t) != raw {
          ValueRoundTrip(t);
        }
      }
      None
  }

  /** The subclasses of `Company`. */
  datatype CompanyClass = DomesticCompany | ForeignCompany | CryptoCompany

  /** The `company_type` each subclass's constructor sets. */
  function CompanyTypeOf(c: CompanyClass): CompanyType {
    match c
    case DomesticCompany => Domestic
    case ForeignCompany => Foreign
    case CryptoCompany => Crypto
  }

  /**
   * Loading financial/company/subclasses.py: the three decorated classes are
   * registered, after which every member resolves to a class whose
   * `company_type` is that member.
   */
  method LoadSubclasses() returns (registry: Registry<CompanyType, CompanyClass>)
    ensures fresh(registry)
    ensures forall t :: registry.ResolveClass(t).Some? && CompanyTypeOf(registry.ResolveClass(t).value) == t
  {
    registry := new Registry();
    var c := registry.Register(Domestic, DomesticCompany);
    c := registry.Register(Foreign, ForeignCompany);
    c := registry.Register(Crypto, CryptoCompany);
    forall t ensures registry.ResolveClass(t).Some? && CompanyTypeOf(registry.ResolveClass(t).value) == t {
      assert t == Domestic || t == Foreign || t == Crypto;
    }
  }

  /**
   * After loading, `get_class('crypto')` is `CryptoCompany` and
   * `get_class('bank')` is `None`.
   */
  method SampleLookups() returns (crypto: Option<CompanyClass>, bank: Option<CompanyClass>)
    ensures crypto == Some(CryptoCompany) && bank == None
  {
    var registry := LoadSubclasses();
    crypto := GetClass(registry, "crypto");
    bank := GetClass(registry, "bank");
  }
}

=== FILE: db_connection.dfy ===
/**
 * financial/db/connection.py: the `DatabaseConnection` singleton of
 * financial/db_singleton.py with the database path resolved against a
 * default directory on the first construction. The default directory (the
 * `instance` folder two levels above the file) and the process's working
 * directory are inputs; paths are POSIX strings already in normal form.
 */
module DbConnection {
  import opened Wrappers
  import opened SqliteLog
  import opened DbSingleton

  /** `_default_filename`. */
  const DefaultFilename := "company_database.db"

  predicate IsAbsolute(p: string) {
    |p| > 0 && p[0] == '/'
  }

  /** `dir / p`: an absolute `p` replaces `dir`, an empty one (`Path('')` is `.`) leaves it. */
  function Join(dir: string, p: string): string {
    if IsAbsolute(p) then p else if p == "" then dir else dir + "/" + p
  }

  /** The path the first construction stores: the default file, or `db_path` under the default directory unless absolute. */
  function FirstPath(defaultDir: string, dbPath: Option<string>): string {
    match dbPath
    case None => Join(defaultDir, DefaultFilename)
    case Some(p) => Join(defaultDir, p)
  }

  /** `str(Path(p).resolve())`: an absolute path as it is, a relative one under the working directory. */
  function Resolved(p: string, cwd: string): string {
    Join(cwd, p)
  }

  /**
   * The stored path is absolute; with no `db_path` it is the default file in
   * the default directory, an absolute `db_path` is kept, and a relative one
   * is placed under the default directory.
   */
  lemma FirstPathShape(defaultDir: string, dbPath: Option<string>)
    requires IsAbsolute(defaultDir)
    ensures IsAbsolute(FirstPath(defaultDir, dbPath))
    ensures dbPath.None? ==> FirstPath(defaultDir, dbPath) == defaultDir + "/" + DefaultFilename
    ensures dbPath.Some? && IsAbsolute(dbPath.value) ==> FirstPath(defaultDir, dbPath) == dbPath.value
    ensures dbPath.Some? && !IsAbsolute(dbPath.value) && dbPath.value != "" ==>
              FirstPath(defaultDir, dbPath) == defaultDir + "/" + dbPath.value
  {
    assert DefaultFilename[0] == 'c';
    if dbPath.Some? && !IsAbsolute(dbPath.value) && dbPath.value != "" {
      assert (defaultDir + "/" + dbPath.value)[0] == defaultDir[0];
    }
  }

  /**
   * Naming the same path again passes the check for an absolute path, but
   * for a relative one only when the working directory is the default
   * directory: the first construction placed it under the default directory
   * and the check resolves it against the working directory.
   */
  lemma RepeatAccepted(defaultDir: string, p: string, cwd: string)
    requires p != ""
    ensures IsAbsolute(p) ==> Resolved(p, cwd) == FirstPath(defaultDir, Some(p))
    ensures !IsAbsolute(p) ==> (Resolved(p, cwd) == FirstPath(defaultDir, Some(p)) <==> cwd == defaultDir)
  {
    if !IsAbsolute(p) && cwd + "/" + p == defaultDir + "/" + p {
      assert |cwd| == |defaultDir|;
      assert cwd == (cwd + "/" + p)[..|cwd|];
      assert defaultDir == (defaultDir + "/" + p)[..|defaultDir|];
    }
  }

  /** The class object: `_instance`, `_db_path`, `_default_dir`, and the SQLite calls made so far. */
  class DatabaseConnection {
    var instance: Instance?
    var dbPath: string
    const defaultDir: string
    var log: seq<Event>

    /** The class as defined: no instance and no calls. */
    constructor (defaultDir: string)
      ensures instance == null && this.defaultDir == defaultDir && log == []
    {
      instance := null;
      dbPath := "";
      this.defaultDir := defaultDir;
      log := [];
    }

    /** `sqlite3.connect(path)`: a new handle, and one more `Open` in the log. */
    method Connect(path: string) returns (c: Connection)
      modifies this
      ensures c == NextConnection(old(log), path) && log == old(log) + [Open(path)]
      ensures instance == old(instance) && dbPath == old(dbPath)
    {
      c := NextConnection(log, path);
      log := log + [Open(path)];
    }

    /**
     * `DatabaseConnection(db_path)` run from the working directory `cwd`: the
     * first construction stores the path `FirstPath` gives and opens the
     * shared connection to it; a later one returns the same instance unless
     * it names a path that resolves to another than the stored one, which
     * raises.
     */
    method New(path: Option<string>, cwd: string) returns (r: Result<Instance, string>)
      modifies this, instance
      ensures old(instance) == null ==>
                r.Ok? && fresh(r.value) && instance == r.value &&
                dbPath == FirstPath(defaultDir, path) &&
                log == old(log) + [Open(dbPath)] &&
                instance.connection == Some(NextConnection(old(log), dbPath)) && instance.scoped == None
      ensures old(instance) != null && Given(path) && Resolved(path.value, cwd) != old(dbPath) ==>
                r == Err(AlreadyInitialised(old(dbPath), path.value))
      ensures old(instance) != null ==> instance == old(instance) && dbPath == old(dbPath) && log == old(log)
      ensures old(instance) != null ==> instance.connection == old(instance.connection) && instance.scoped == old(instance.scoped)
      ensures old(instance) != null && !(Given(path) && Resolved(path.value, cwd) != old(dbPath)) ==> r == Ok(old(instance))
    {
      if instance == null {
        dbPath := FirstPath(defaultDir, path);
        var obj := new Instance();
        instance := obj;
        var c := Connect(dbPath);
        obj.connection := Some(c);
        return Ok(obj);
      } else if Given(path) && Resolved(path.value, cwd) != dbPath {
        return Err(AlreadyInitialised(dbPath, path.value));
      }
      return Ok(instance);
    }

    /** `__enter__`: a new connection to the stored path, kept as the scoped one. */
    method Enter() returns (c: Connection)
      requires instance != null
      modifies this, instance
      ensures c == NextConnection(old(log), dbPath) && log == old(log) + [Open(dbPath)]
      ensures instance == old(instance) && dbPath == old(dbPath)
      ensures instance.scoped == Some(c) && instance.connection == old(instance.connection)
    {
      c := Connect(dbPath);
      instance.scoped := Some(c);
    }

    /** `__exit__`: the scoped connection, if any, is committed, closed and cleared. */
    method Exit()
      requires instance != null
      modifies this, instance
      ensures instance == old(instance) && dbPath == old(dbPath) && instance.connection == old(instance.connection)
      ensures instance.scoped == None
      ensures old(instance.scoped).Some? ==>
                log == old(log) + [Commit(old(instance.scoped).value.serial), Close(old(instance.scoped).value.serial)]
      ensures old(instance.scoped).None? ==> log == old(log)
    {
      match instance.scoped
      case Some(c) =>
        log := log + [Commit(c.serial), Close(c.serial)];
        instance.scoped := None;
      case None =>
    }

    /**
     * `get_connection`: raises before any construction; otherwise the shared
     * connection, opened again to the stored path when it was closed.
     */
    method GetConnection() returns (r: Result<Connection, string>)
      modifies this, instance
      ensures old(instance) == null ==> r == Err(NotInitialised) && log == old(log)
      ensures instance == old(instance) && dbPath == old(dbPath)
      ensures instance != null && old(instance.connection).Some? ==>
                r == Ok(old(instance.connection).value) && log == old(log) && instance.connection == old(instance.connection)
      ensures instance != null && old(instance.connection).None? ==>
                r == Ok(NextConnection(old(log), dbPath)) && log == old(log) + [Open(dbPath)] && instance.connection == Some(r.value)
      ensures instance != null ==> instance.scoped == old(instance.scoped)
    {
      if instance == null {
        return Err(NotInitialised);
      }
      if instance.connection.None? {
        var c := Connect(dbPath);
        instance.connection := Some(c);
      }
      r := Ok(instance.connection.value);
    }

    /**
     * `close_connection`: the shared connection, if open, is closed and
     * cleared; otherwise nothing happens, so a second call does nothing.
     */
    method CloseConnection()
      modifies this, instance
      ensures instance == old(instance) && dbPath == old(dbPath)
      ensures instance != null && old(instance.connection).Some? ==>
                log == old(log) + [Close(old(instance.connection).value.serial)] && instance.connection == None
      ensures instance == null || old(instance.connection).None? ==> log == old(log)
      ensures instance != null ==> instance.connection == None && instance.scoped == old(instance.scoped)
    {
      if instance != null && instance.connection.Some? {
        log := log + [Close(instance.connection.value.serial)];
        instance.connection := None;
      }
    }
  }

  /**
   * Constructing twice with the relative path 'company.db' from a working
   * directory other than the default one: the second construction raises,
   * though it names the same path.
   */
  method SampleRepeatRelative() returns (first: Result<Instance, string>, second: Result<Instance, string>)
    ensures first.Ok? && second.Err?
  {
    var cls := new DatabaseConnection("/app/instance");
    first := cls.New(Some("company.db"), "/app");
    RepeatAccepted("/app/instance", "company.db", "/app");
    assert "/app" != "/app/instance" by {
      assert |"/app"| == 4 && |"/app/instance"| == 13;
    }
    second := cls.New(Some("company.db"), "/app");
  }
}

=== FILE: db_singleton.dfy ===
/**
 * financial/db_singleton.py: `DatabaseConnection`, a singleton holding one
 * shared SQLite connection to a path fixed by the first construction, plus
 * short-lived connections for `with` blocks.
 */
module DbSingleton {
  import opened Wrappers
  import opened SqliteLog

  /** The class attribute `_db_path` before any construction. */
  const DefaultPath := "company_database.db"

  const NotInitialised := "DatabaseConnection has not been initialized."

  /** The message raised when a second construction names another path. */
  function AlreadyInitialised(current: string, requested: string): string {
    "DatabaseConnection already initialized with " + current + ". Cannot reinitialize with " + requested + "."
  }

  /** `db_path` is truthy: given, and not the empty string. */
  predicate Given(dbPath: Option<string>) {
    dbPath.Some? && dbPath.value != ""
  }

  /** The one instance: its shared `connection` and the `_scoped_conn` of a `with` block. */
  class Instance {
    var connection: Option<Connection>
    var scoped: Option<Connection>

    constructor ()
      ensures connection == None && scoped == None
    {
      connection := None;
      scoped := None;
    }
  }

  /** The class object: `_instance`, `_db_path`, and the SQLite calls made so far. */
  class DatabaseConnection {
    var instance: Instance?
    var dbPath: string
    var log: seq<Event>

    /** The class as defined: no instance, the default path, no calls. */
    constructor ()
      ensures instance == null && dbPath == DefaultPath && log == []
    {
      instance := null;
      dbPath := DefaultPath;
      log := [];
    }

    /** `sqlite3.connect(path)`: a new handle, and one more `Open` in the log. */
    method Connect(path: string) returns (c: Connection)
      modifies this
      ensures c == NextConnection(old(log), path) && log == old(log) + [Open(path)]
      ensures instance == old(instance) && dbPath == old(dbPath)
    {
      c := NextConnection(log, path);
      log := log + [Open(path)];
    }

    /**
     * `DatabaseConnection(db_path)`: the first construction keeps `db_path`,
     * or the default when it is missing or empty, and opens the shared
     * connection to it; a later one with no path or the same path returns the
     * same instance and opens nothing, and one with another path raises.
     */
    method New(path: Option<string>) returns (r: Result<Instance, string>)
      modifies this, instance
      ensures old(instance) == null ==>
                r.Ok? && fresh(r.value) && instance == r.value &&
                dbPath == (if Given(path) then path.value else old(dbPath)) &&
                log == old(log) + [Open(dbPath)] &&
                instance.connection == Some(NextConnection(old(log), dbPath)) && instance.scoped == None
      ensures old(instance) != null && Given(path) && path.value != old(dbPath) ==>
                r == Err(AlreadyInitialised(old(dbPath), path.value))
      ensures old(instance) != null ==> instance == old(instance) && dbPath == old(dbPath) && log == old(log)
      ensures old(instance) != null ==> instance.connection == old(instance.connection) && instance.scoped == old(instance.scoped)
      ensures old(instance) != null && !(Given(path) && path.value != old(dbPath)) ==> r == Ok(old(instance))
    {
      if instance == null {
        if Given(path) {
          dbPath := path.value;
        }
        var obj := new Instance();
        instance := obj;
        var c := Connect(dbPath);
        obj.connection := Some(c);
        return Ok(obj);
      } else if Given(path) && path.value != dbPath {
        return Err(AlreadyInitialised(dbPath, path.value));
      }
      return Ok(instance);
    }

    /** `__enter__`: a new connection to the stored path, kept as the scoped one. */
    method Enter() returns (c: Connection)
      requires instance != null
      modifies this, instance
      ensures c == NextConnection(old(log), dbPath) && log == old(log) + [Open(dbPath)]
      ensures instance == old(instance) && dbPath == old(dbPath)
      ensures instance.scoped == Some(c) && instance.connection == old(instance.connection)
    {
      c := Connect(dbPath);
      instance.scoped := Some(c);
    }

    /** `__exit__`: the scoped connection, if any, is committed, closed and cleared. */
    method Exit()
      requires instance != null
      modifies this, instance
      ensures instance == old(instance) && dbPath == old(dbPath) && instance.connection == old(instance.connection)
      ensures instance.scoped == None
      ensures old(instance.scoped).Some? ==>
                log == old(log) + [Commit(old(instance.scoped).value.serial), Close(old(instance.scoped).value.serial)]
      ensures old(instance.scoped).None? ==> log == old(log)
    {
      match instance.scoped
      case Some(c) =>
        log := log + [Commit(c.serial), Close(c.serial)];
        instance.scoped := None;
      case None =>
    }

    /**
     * `get_connection`: raises before any construction; otherwise the shared
     * connection, opened again to the stored path when it was closed.
     */
    method GetConnection() returns (r: Result<Connection, string>)
      modifies this, instance
      ensures old(instance) == null ==> r == Err(NotInitialised) && log == old(log)
      ensures instance == old(instance) && dbPath == old(dbPath)
      ensures instance != null && old(instance.connection).Some? ==>
                r == Ok(old(instance.connection).value) && log == old(log) && instance.connection == old(instance.connection)
      ensures instance != null && old(instance.connection).None? ==>
                r == Ok(NextConnection(old(log), dbPath)) && log == old(log) + [Open(dbPath)] && instance.connection == Some(r.value)
      ensures instance != null ==> instance.scoped == old(instance.scoped)
    {
      if instance == null {
        return Err(NotInitialised);
      }
      if instance.connection.None? {
        var c := Connect(dbPath);
        instance.connection := Some(c);
      }
      r := Ok(instance.connection.value);
    }

    /**
     * `close_connection`: the shared connection, if open, is closed and
     * cleared; otherwise nothing happens, so a second call does nothing.
     */
    method CloseConnection()
      modifies this, instance
      ensures instance == old(instance) && dbPath == old(dbPath)
      ensures instance != null && old(instance.connection).Some? ==>
                log == old(log) + [Close(old(instance.connection).value.serial)] && instance.connection == None
      ensures instance == null || old(instance.connection).None? ==> log == old(log)
      ensures instance != null ==> instance.connection == None && instance.scoped == old(instance.scoped)
    {
      if instance != null && instance.connection.Some? {
        log := log + [Close(instance.connection.value.serial)];
        instance.connection := None;
      }
    }
  }

  /**
   * A session: construct with a path, again with no path, then with another
   * path (refused); close twice, and get the connection back, which reopens
   * the first path as a new handle.
   */
  method SampleRun() returns (same: bool, refused: bool, reopened: Connection)
    ensures same && refused
    ensures reopened == Connection(2, "a.db")
  {
    var cls := new DatabaseConnection();
    var first := cls.New(Some("a.db"));
    assert cls.dbPath == "a.db" && |cls.log| == 1 && cls.instance.connection.Some?;
    var second := cls.New(None);
    same := first == second;
    var third := cls.New(Some("b.db"));
    refused := third.Err?;
    assert cls.dbPath == "a.db" && |cls.log| == 1 && cls.instance.connection.Some?;
    cls.CloseConnection();
    assert |cls.log| == 2 && cls.instance.connection.None?;
    cls.CloseConnection();
    var r := cls.GetConnection();
    reopened := r.value;
  }
}

=== FILE: dijkstra.dfy ===
/**
 * dijkstra/dijkstra.py: Dijkstra's algorithm that also records, for each
 * node, the predecessor through which its distance last improved, and
 * `reconstruct_path`, which follows those predecessors back from a target.
 */
module Dijkstra {
  import opened Wrappers
  import opened Lists
  import opened DijkstraCore

  /** `previous`: each node's predecessor, `None` where there is none. */
  type Previous<N> = map<N, Option<N>>

  /** Some edge from `u` to `v` carries exactly the difference of their distances. */
  predicate TightEdge<N>(g: Graph<N>, dist: map<N, Dist>, u: N, v: N) {
    u in g && u in dist && v in dist && dist[u].Fin? &&
    exists k :: 0 <= k < |g[u]| && g[u][k].0 == v && dist[v] == Fin(dist[u].value + g[u][k].1)
  }

  /**
   * Following predecessors climbs strictly down `rank` and never leaves the
   * map, so `reconstruct_path` always stops.
   */
  predicate Ranked<N>(prev: Previous<N>, rank: map<N, nat>) {
    forall v :: v in prev && prev[v].Some? ==>
      prev[v].value in prev && v in rank && prev[v].value in rank && rank[prev[v].value] < rank[v]
  }

  /**
   * What `previous` is on return, with non-negative weights: `start` has no
   * predecessor; any other node has one exactly when it is reached; each
   * link is a tight edge; and following links always ends.
   */
  ghost predicate ShortestPathTree<N(!new)>(g: Graph<N>, start: N, dist: map<N, Dist>, prev: Previous<N>) {
    prev.Keys == dist.Keys && start in prev && prev[start] == None &&
    (forall v :: v in dist && v != start ==> (prev[v].Some? <==> dist[v].Fin?)) &&
    (forall v :: v in prev && prev[v].Some? ==> TightEdge(g, dist, prev[v].value, v)) &&
    exists rank :: Ranked(prev, rank)
  }

  // ------------------------------------------------------------ the loop

  /**
   * The loop's invariant about `previous`, with non-negative weights: every
   * link leaves a visited node along a tight edge, every reached node other
   * than `start` has a link, and a link never points to a node visited later
   * (`order` numbers the nodes by first visit, `clock` is the next number).
   */
  ghost predicate Tree<N>(g: Graph<N>, start: N, dist: map<N, Dist>, prev: Previous<N>, visited: set<N>,
                          order: map<N, nat>, clock: nat) {
    start in prev && prev[start] == None && order.Keys == visited &&
    (forall v :: v in order ==> order[v] < clock) &&
    (forall v :: v in dist && v != start && dist[v].Fin? ==> v in prev && prev[v].Some?) &&
    (forall v :: v in prev && prev[v].Some? ==>
       prev[v].value in visited && TightEdge(g, dist, prev[v].value, v) &&
       (v in order ==> order[prev[v].value] < order[v]))
  }

  lemma TreeInitial<N>(g: Graph<N>, start: N, dist: map<N, Dist>, prev: Previous<N>)
    requires start in dist && start in prev && prev[start] == None
    requires forall v :: v in dist && v != start ==> dist[v] == Inf
    requires forall v :: v in prev ==> prev[v] == None
    ensures Tree(g, start, dist, prev, {}, map[], 0)
  {
  }

  /** Popping `u` numbers it on its first visit; the links are untouched. */
  lemma TreePop<N>(g: Graph<N>, start: N, dist: map<N, Dist>, prev: Previous<N>, visited: set<N>,
                   order: map<N, nat>, clock: nat, u: N)
    requires Tree(g, start, dist, prev, visited, order, clock)
    ensures Tree(g, start, dist, prev, visited + {u}, if u in visited then order else order[u := clock], clock + 1)
  {
  }

  /**
   * Relaxing the `k`-th edge out of `u`: an improvement links the neighbour
   * to `u`, which has its final distance `d`, and the neighbour is still
   * unvisited, so no link points to a node visited later.
   */
  lemma TreeRelax<N>(g: Graph<N>, start: N, u: N, d: int, k: int, dist: map<N, Dist>, prev: Previous<N>,
                     visited: set<N>, order: map<N, nat>, clock: nat, dist': map<N, Dist>, prev': Previous<N>)
    requires Tree(g, start, dist, prev, visited, order, clock) && u in visited && u in g && 0 <= k < |g[u]|
    requires u in dist && g[u][k].0 in dist
    requires Improves(d + g[u][k].1, dist[g[u][k].0]) ==>
               g[u][k].0 !in visited && g[u][k].0 != start && dist[u] == Fin(d) &&
               dist' == dist[g[u][k].0 := Fin(d + g[u][k].1)] && prev' == prev[g[u][k].0 := Some(u)]
    requires !Improves(d + g[u][k].1, dist[g[u][k].0]) ==> dist' == dist && prev' == prev
    ensures Tree(g, start, dist', prev', visited, order, clock)
  {
    var nb := g[u][k].0;
    if Improves(d + g[u][k].1, dist[nb]) {
      TightKept(g, dist, prev, visited, nb, d + g[u][k].1);
      assert TightEdge(g, dist', u, nb);
    }
  }

  /** Lowering the distance of an unvisited node keeps every link that leaves a visited node and ends elsewhere tight. */
  lemma TightKept<N>(g: Graph<N>, dist: map<N, Dist>, prev: Previous<N>, visited: set<N>, nb: N, x: int)
    requires forall v :: v in prev && prev[v].Some? ==> prev[v].value in visited && TightEdge(g, dist, prev[v].value, v)
    requires nb !in visited && nb in dist
    ensures forall v :: v in prev && prev[v].Some? && v != nb ==> TightEdge(g, dist[nb := Fin(x)], prev[v].value, v)
  {
    forall v | v in prev && prev[v].Some? && v != nb
      ensures TightEdge(g, dist[nb := Fin(x)], prev[v].value, v)
    {
      var y := prev[v].value;
      var j :| 0 <= j < |g[y]| && g[y][j].0 == v && dist[v] == Fin(dist[y].value + g[y][j].1);
      assert g[y][j].0 == v && dist[nb := Fin(x)][v] == Fin(dist[nb := Fin(x)][y].value + g[y][j].1);
    }
  }

  /** With an empty heap, every reached node has been visited. */
  lemma EmptyHeapAllVisited<N>(dist: map<N, Dist>, visited: set<N>)
    requires Queued(dist, visited, [])
    ensures forall v :: v in dist && dist[v].Fin? ==> v in visited
  {
  }

  /** An empty heap leaves every reached node visited, so the visit order ranks the links. */
  lemma TreeDone<N(!new)>(g: Graph<N>, D: set<N>, start: N, dist: map<N, Dist>, prev: Previous<N>, visited: set<N>,
                    order: map<N, nat>, clock: nat, floor: int, paths: map<N, seq<Hop<N>>>)
    requires Shape(g, D, start, dist, visited, []) && Progress(g, start, dist, visited, [], floor, paths)
    requires prev.Keys == D && Tree(g, start, dist, prev, visited, order, clock)
    ensures ShortestPathTree(g, start, dist, prev)
  {
    EmptyHeapAllVisited(dist, visited);
    forall v | v in prev && prev[v].Some?
      ensures prev[v].value in prev && v in order && prev[v].value in order && order[prev[v].value] < order[v]
    {
      assert dist[v].Fin?;
    }
    assert Ranked(prev, order);
  }

  /**
   * The inner loop's body, `dijkstra.py` lines 15-23: relax the `k`-th edge
   * out of `u`, and when the neighbour's distance improves, record `u` as
   * its predecessor in the same step; an unvisited neighbour is pushed.
   */
  method RelaxAndRecord<N>(graph: Graph<N>, ghost D: set<N>, ghost start: N, u: N, d: int, k: int,
                           dist: map<N, Dist>, prev: Previous<N>, visited: set<N>, heap: seq<(int, N)>,
                           ghost paths: map<N, seq<Hop<N>>>, ghost order: map<N, nat>, ghost clock: nat)
    returns (dist': map<N, Dist>, prev': Previous<N>, heap': seq<(int, N)>, ghost paths': map<N, seq<Hop<N>>>)
    requires u in graph && 0 <= k < |graph[u]| && Shape(graph, D, start, dist, visited, heap) && prev.Keys == D
    ensures Shape(graph, D, start, dist', visited, heap') && prev'.Keys == D
    ensures forall v :: v in dist ==> NoWorse(dist'[v], dist[v])
    ensures Improves(d + graph[u][k].1, dist[graph[u][k].0]) ==>
              dist'[graph[u][k].0] == Fin(d + graph[u][k].1) && prev' == prev[graph[u][k].0 := Some(u)]
    ensures !Improves(d + graph[u][k].1, dist[graph[u][k].0]) ==> dist' == dist && prev' == prev && heap' == heap
    ensures heap' == heap || (heap' == heap + [(d + graph[u][k].1, graph[u][k].0)] && graph[u][k].0 !in visited)
    ensures NonNegative(graph) && Relaxing(graph, start, u, d, k, dist, visited, heap, paths) &&
            Tree(graph, start, dist, prev, visited, order, clock) ==>
              Relaxing(graph, start, u, d, k + 1, dist', visited, heap', paths') &&
              Tree(graph, start, dist', prev', visited, order, clock)
  {
    var neighbor := graph[u][k].0;
    var improved;
    dist', heap', paths', improved := RelaxNeighbour(graph, D, start, u, d, k, dist, visited, heap, paths, true);
    prev' := prev;
    if improved {
      prev' := prev[neighbor := Some(u)];
    }
    if NonNegative(graph) && Relaxing(graph, start, u, d, k, dist, visited, heap, paths) &&
       Tree(graph, start, dist, prev, visited, order, clock) {
      if improved {
        FirstVisitImproves(graph, start, u, d, k, dist, visited, heap, paths);
      }
      TreeRelax(graph, start, u, d, k, dist, prev, visited, order, clock, dist', prev');
    }
  }

  /**
   * The loop over the neighbours of `u`, popped at distance `d`: relaxes
   * every edge out of `u` in turn. Distances only fall, and no node of
   * `before` (a set of visited nodes) is pushed. With non-negative weights,
   * `u` ends settled and the outer invariant holds with `d` as the floor.
   */
  method Expand<N>(graph: Graph<N>, ghost D: set<N>, ghost start: N, u: N, d: int,
                   dist: map<N, Dist>, prev: Previous<N>, visited: set<N>, heap: seq<(int, N)>,
                   ghost paths: map<N, seq<Hop<N>>>, ghost order: map<N, nat>, ghost clock: nat, ghost before: set<N>)
    returns (dist': map<N, Dist>, prev': Previous<N>, heap': seq<(int, N)>, ghost paths': map<N, seq<Hop<N>>>)
    requires u in graph && Shape(graph, D, start, dist, visited, heap) && prev.Keys == D && before <= visited
    requires NonNegative(graph) ==>
               Relaxing(graph, start, u, d, 0, dist, visited, heap, paths) &&
               Tree(graph, start, dist, prev, visited, order, clock)
    ensures Shape(graph, D, start, dist', visited, heap') && prev'.Keys == D
    ensures forall v :: v in dist ==> NoWorse(dist'[v], dist[v])
    ensures CountIn(heap', before) == CountIn(heap, before)
    ensures NonNegative(graph) ==>
              Progress(graph, start, dist', visited, heap', d, paths') &&
              Tree(graph, start, dist', prev', visited, order, clock)
  {
    dist', prev', heap', paths' := dist, prev, heap, paths;
    ghost var relaxing := NonNegative(graph);
    for k := 0 to |graph[u]|
      invariant Shape(graph, D, start, dist', visited, heap') && prev'.Keys == D
      invariant forall v :: v in dist ==> NoWorse(dist'[v], dist[v])
      invariant CountIn(heap', before) == CountIn(heap, before)
      invariant relaxing ==>
                  Relaxing(graph, start, u, d, k, dist', visited, heap', paths') &&
                  Tree(graph, start, dist', prev', visited, order, clock)
    {
      ghost var (dist0, heap0) := (dist', heap');
      dist', prev', heap', paths' :=
        RelaxAndRecord(graph, D, start, u, d, k, dist', prev', visited, heap', paths', order, clock);
      if heap' != heap0 {
        CountInPush(heap0, (d + graph[u][k].1, graph[u][k].0), before);
      }
      NoWorseTrans(dist, dist0, dist');
    }
    if relaxing {
      Finish(graph, start, u, d, dist', visited, heap', paths');
    }
  }

  /** `NoWorse` chains: distances that fell twice fell overall. */
  lemma NoWorseTrans<N>(a: map<N, Dist>, b: map<N, Dist>, c: map<N, Dist>)
    requires a.Keys <= b.Keys <= c.Keys
    requires forall v :: v in a ==> NoWorse(b[v], a[v])
    requires forall v :: v in b ==> NoWorse(c[v], b[v])
    ensures forall v :: v in a ==> NoWorse(c[v], a[v])
  {
  }

  /**
   * Popping the least entry `(d, u)` and adding `u` to `visited`: the shape
   * is kept, the loop measure drops, and with non-negative weights the inner
   * invariant starts at the first edge out of `u`.
   */
  lemma PopStep<N>(g: Graph<N>, D: set<N>, start: N, dist: map<N, Dist>, prev: Previous<N>, visited: set<N>,
                   heap: seq<(int, N)>, floor: int, paths: map<N, seq<Hop<N>>>, order: map<N, nat>, clock: nat,
                   i: int)
    requires Shape(g, D, start, dist, visited, heap)
    requires 0 <= i < |heap| && forall j :: 0 <= j < |heap| ==> heap[i].0 <= heap[j].0
    requires NonNegative(g) ==> Progress(g, start, dist, visited, heap, floor, paths) &&
                                Tree(g, start, dist, prev, visited, order, clock)
    ensures Shape(g, D, start, dist, visited + {heap[i].1}, heap[..i] + heap[i + 1..])
    ensures CountIn(heap[..i] + heap[i + 1..], visited) == CountIn(heap, visited) - (if heap[i].1 in visited then 1 else 0)
    ensures heap[i].1 !in visited ==> |D - (visited + {heap[i].1})| < |D - visited|
    ensures heap[i].1 in visited ==> visited + {heap[i].1} == visited
    ensures NonNegative(g) ==>
              Relaxing(g, start, heap[i].1, heap[i].0, 0, dist, visited + {heap[i].1}, heap[..i] + heap[i + 1..], paths) &&
              Tree(g, start, dist, prev, visited + {heap[i].1},
                   if heap[i].1 in visited then order else order[heap[i].1 := clock], clock + 1)
  {
    ShapePop(g, D, start, dist, visited, heap, i);
    CountInRemove(heap, i, visited);
    if NonNegative(g) {
      Pop(g, D, start, dist, visited, heap, floor, paths, i);
      TreePop(g, start, dist, prev, visited, order, clock, heap[i].1);
    }
    if heap[i].1 !in visited {
      OneMoreVisited(D, visited, heap[i].1);
    } else {
      AddPresent(visited, heap[i].1);
    }
  }

  /**
   * One pass of the `while heap` loop: pop a least entry `(d, u)`, add `u`
   * to `visited` and relax every edge out of it. The loop measure (unvisited
   * nodes, then heap entries of visited nodes) drops, distances only fall,
   * and with non-negative weights the invariants hold again with `d` as
   * the floor.
   */
  method VisitNext<N>(graph: Graph<N>, ghost D: set<N>, ghost start: N, dist: map<N, Dist>, prev: Previous<N>,
                      visited: set<N>, heap: seq<(int, N)>, ghost floor: int, ghost paths: map<N, seq<Hop<N>>>,
                      ghost order: map<N, nat>, ghost clock: nat)
    returns (dist': map<N, Dist>, prev': Previous<N>, visited': set<N>, heap': seq<(int, N)>, ghost floor': int,
             ghost paths': map<N, seq<Hop<N>>>, ghost order': map<N, nat>, ghost clock': nat)
    requires heap != [] && Shape(graph, D, start, dist, visited, heap) && prev.Keys == D
    requires NonNegative(graph) ==>
               Progress(graph, start, dist, visited, heap, floor, paths) &&
               Tree(graph, start, dist, prev, visited, order, clock)
    ensures Shape(graph, D, start, dist', visited', heap') && prev'.Keys == D
    ensures forall v :: v in dist ==> NoWorse(dist'[v], dist[v])
    ensures |D - visited'| < |D - visited| ||
            (|D - visited'| == |D - visited| && CountIn(heap', visited') < CountIn(heap, visited))
    ensures NonNegative(graph) ==>
              Progress(graph, start, dist', visited', heap', floor', paths') &&
              Tree(graph, start, dist', prev', visited', order', clock')
  {
    var i := MinIndex(heap);
    var currentDistance, currentNode := heap[i].0, heap[i].1;
    PopStep(graph, D, start, dist, prev, visited, heap, floor, paths, order, clock, i);
    order' := if currentNode in visited then order else order[currentNode := clock];
    clock' := clock + 1;
    heap' := heap[..i] + heap[i + 1..];
    visited' := visited + {currentNode};
    dist', prev', heap', paths' :=
      Expand(graph, D, start, currentNode, currentDistance, dist, prev, visited', heap', paths, order', clock',
             visited);
    floor' := currentDistance;
  }

  /**
   * `dijkstra`: every node starts at infinity with no predecessor, and
   * `start` at 0. Every popped node is expanded, and only unvisited
   * neighbours are pushed, so the loop ends whatever the weights. With
   * non-negative weights the distances are the shortest ones and the
   * predecessors form a tree of shortest paths rooted at `start`.
   */
  method Dijkstra<N(!new)>(graph: Graph<N>, start: N) returns (distances: map<N, Dist>, previous: Previous<N>)
    requires start in graph && Closed(graph, graph.Keys)
    ensures distances.Keys == graph.Keys && previous.Keys == graph.Keys
    ensures NonNegative(graph) ==>
              Fixpoint(graph, start, distances) && ShortestDistances(graph, start, distances) &&
              ShortestPathTree(graph, start, distances, previous)
  {
    ghost var D := graph.Keys;
    distances := map v | v in graph :: Inf;
    previous := map v | v in graph :: None;
    distances := distances[start := Fin(0)];
    var visited: set<N> := {};
    var heap: seq<(int, N)> := [(0, start)];
    ghost var floor := 0;
    ghost var paths: map<N, seq<Hop<N>>> := map[start := []];
    ghost var order: map<N, nat> := map[];
    ghost var clock: nat := 0;
    if NonNegative(graph) {
      Initial(graph, D, start, distances);
      TreeInitial(graph, start, distances, previous);
    }
    while heap != []
      invariant Shape(graph, D, start, distances, visited, heap) && previous.Keys == D
      invariant NonNegative(graph) ==>
                  Progress(graph, start, distances, visited, heap, floor, paths) &&
                  Tree(graph, start, distances, previous, visited, order, clock)
      decreases |D - visited|, CountIn(heap, visited)
    {
      distances, previous, visited, heap, floor, paths, order, clock :=
        VisitNext(graph, D, start, distances, previous, visited, heap, floor, paths, order, clock);
    }
    if NonNegative(graph) {
      Done(graph, D, start, distances, visited, floor, paths);
      TreeDone(graph, D, start, distances, previous, visited, order, clock, floor, paths);
    }
  }

  // ---------------------------------------------------- reconstruct_path

  /** The nodes met by following `previous` from `v`: `v` itself, its predecessor, and so on. */
  ghost function Ancestors<N>(prev: Previous<N>, rank: map<N, nat>, v: N): (r: seq<N>)
    requires Ranked(prev, rank) && v in prev
    ensures r != [] && r[0] == v
    decreases if v in rank then rank[v] + 1 else 0
  {
    match prev[v]
    case None => [v]
    case Some(u) => [v] + Ancestors(prev, rank, u)
  }

  /**
   * `reconstruct_path`: collects the target and its predecessors until one
   * has none, reverses them, and keeps the result only when it begins at
   * `start`. A non-empty
   * answer starts at `start` and ends at `target`.
   */
  method ReconstructPath<N>(previous: Previous<N>, start: N, target: N, ghost rank: map<N, nat>)
    returns (path: seq<N>)
    requires target in previous && Ranked(previous, rank)
    ensures var chain := Reverse(Ancestors(previous, rank, target));
            path == if chain[0] == start then chain else []
    ensures path != [] ==> path[0] == start && path[|path| - 1] == target
  {
    var collected: seq<N> := [];
    var current: Option<N> := Some(target);
    ghost var remaining := Ancestors(previous, rank, target);
    while current.Some?
      invariant collected + remaining == Ancestors(previous, rank, target)
      invariant current.Some? ==> current.value in previous && remaining == Ancestors(previous, rank, current.value)
      invariant current.None? ==> remaining == []
      decreases |remaining|
    {
      var c := current.value;
      current := previous[c];
      remaining := if current.Some? then Ancestors(previous, rank, current.value) else [];
      assert Ancestors(previous, rank, c) == [c] + remaining;
      assert collected + ([c] + remaining) == (collected + [c]) + remaining;
      collected := collected + [c];
    }
    assert collected + [] == collected;
    ReverseEnds(collected);
    path := Reverse(collected);
    if path[0] != start {
      path := [];
    }
  }

  /** Reversal swaps the first and the last element. */
  lemma ReverseEnds<T>(s: seq<T>)
    requires s != []
    ensures Reverse(s) != [] && Reverse(s)[0] == s[|s| - 1] && Reverse(s)[|s| - 1] == s[0]
  {
  }

  /**
   * Under a shortest-path tree, the ancestors of a reached node end at
   * `start`, each joined to the one before it by a tight edge; a node other
   * than `start` that is not reached has no predecessor at all.
   */
  lemma {:induction false} AncestorsReachStart<N(!new)>(g: Graph<N>, start: N, dist: map<N, Dist>, prev: Previous<N>,
                                                  rank: map<N, nat>, v: N)
    requires ShortestPathTree(g, start, dist, prev) && Ranked(prev, rank) && v in prev
    ensures var a := Ancestors(prev, rank, v);
            (dist[v].Fin? ==> a[|a| - 1] == start && forall i :: 0 <= i < |a| - 1 ==> TightEdge(g, dist, a[i + 1], a[i])) &&
            (dist[v].Inf? && v != start ==> a == [v])
    decreases if v in rank then rank[v] + 1 else 0
  {
    if prev[v].Some? {
      var u := prev[v].value;
      AncestorsReachStart(g, start, dist, prev, rank, u);
      var a := Ancestors(prev, rank, v);
      assert a == [v] + Ancestors(prev, rank, u);
    }
  }

  /**
   * One entry of `print_all_paths`: run `dijkstra`, then rebuild the path to
   * `target`. The path is empty exactly when no walk reaches `target`;
   * otherwise it runs from `start` to `target` along tight edges, so it is a
   * shortest path.
   */
  method ShortestPath<N(!new)>(graph: Graph<N>, start: N, target: N) returns (distances: map<N, Dist>, path: seq<N>)
    requires start in graph && target in graph && Closed(graph, graph.Keys) && NonNegative(graph)
    ensures ShortestDistances(graph, start, distances)
    ensures path != [] <==> exists walk :: IsWalk(graph, start, walk) && End(graph, start, walk) == target
    ensures path != [] ==> path[0] == start && path[|path| - 1] == target
    ensures forall i :: 0 <= i < |path| - 1 ==> TightEdge(graph, distances, path[i], path[i + 1])
  {
    var previous;
    distances, previous := Dijkstra(graph, start);
    ghost var rank :| Ranked(previous, rank);
    path := ReconstructPath(previous, start, target, rank);
    AncestorsReachStart(graph, start, distances, previous, rank, target);
    InfIffUnreachable(graph, start, distances, target);
    ghost var a := Ancestors(previous, rank, target);
    if distances[target].Fin? {
      ReversedTight(graph, distances, a);
    }
  }

  /** Read backwards, a chain of links from child to parent runs from parent to child. */
  lemma ReversedTight<N>(g: Graph<N>, dist: map<N, Dist>, a: seq<N>)
    requires forall i :: 0 <= i < |a| - 1 ==> TightEdge(g, dist, a[i + 1], a[i])
    ensures forall i :: 0 <= i < |a| - 1 ==> TightEdge(g, dist, Reverse(a)[i], Reverse(a)[i + 1])
  {
    var r := Reverse(a);
    forall i | 0 <= i < |a| - 1 ensures TightEdge(g, dist, r[i], r[i + 1]) {
      var j := |a| - 2 - i;
      assert r[i] == a[j + 1] && r[i + 1] == a[j];
    }
  }
}

=== FILE: dijkstra_bugs.dfy ===
/**
 * dijkstra/dijkstra_bugs.py: the skip-on-pop loop over integer nodes, with
 * the distance map fixed to the keys 0..19 (plus `start`), and a flag
 * `all_nodes_visited` that only compares the size of that map with 20.
 */
module DijkstraBugs {
  import opened DijkstraCore
  import opened Lists

  /** The keys of the distance map number 20 exactly when `start` is one of 0..19. */
  lemma KeysSize(start: int)
    ensures |Range(20) + {start}| == 20 <==> 0 <= start < 20
  {
    RangeSize(20);
    if !(0 <= start < 20) {
      assert |Range(20) + {start}| == |Range(20)| + 1;
    } else {
      assert Range(20) + {start} == Range(20);
    }
  }

  /**
   * `dijkstra_bugs`: distances for 0..19 start at infinity and `start` at 0;
   * a popped node that was visited already is skipped. The map's keys are
   * 0..19 and `start`, whatever the graph, so `all_nodes_visited` holds
   * exactly when `start` lies in 0..19, whichever nodes were visited. Every
   * neighbour must be a key of both the graph and the map, as the lookups
   * `graph[current_node]` and `distances[neighbor]` demand. With
   * non-negative weights the distances of the keys are the shortest ones.
   */
  method DijkstraBugs(graph: Graph<int>, start: int) returns (distances: map<int, Dist>, allNodesVisited: bool)
    requires start in graph && Closed(graph, Range(20) + {start})
    ensures distances.Keys == Range(20) + {start}
    ensures allNodesVisited <==> 0 <= start < 20
    ensures NonNegative(graph) ==>
              Fixpoint(graph, start, distances) && ShortestDistances(graph, start, distances)
  {
    ghost var D := Range(20) + {start};
    distances := map x | x in Range(20) :: Inf;
    distances := distances[start := Fin(0)];
    var pq: seq<(int, int)> := [(0, start)];
    var visited: set<int> := {};
    ghost var floor := 0;
    ghost var paths: map<int, seq<Hop<int>>> := map[start := []];
    if NonNegative(graph) {
      Initial(graph, D, start, distances);
    }
    while pq != []
      invariant Shape(graph, D, start, distances, visited, pq)
      invariant NonNegative(graph) ==> Progress(graph, start, distances, visited, pq, floor, paths)
      decreases |D - visited|, CountIn(pq, visited)
    {
      var i := MinIndex(pq);
      var currentDistance, currentNode := pq[i].0, pq[i].1;
      ShapePop(graph, D, start, distances, visited, pq, i);
      CountInRemove(pq, i, visited);
      if currentNode in visited {
        if NonNegative(graph) {
          Skip(graph, D, start, distances, visited, pq, floor, paths, i);
        }
        pq := pq[..i] + pq[i + 1..];
        continue;
      }
      if NonNegative(graph) {
        Pop(graph, D, start, distances, visited, pq, floor, paths, i);
      }
      OneMoreVisited(D, visited, currentNode);
      pq := pq[..i] + pq[i + 1..];
      visited := visited + {currentNode};
      for k := 0 to |graph[currentNode]|
        invariant Shape(graph, D, start, distances, visited, pq)
        invariant NonNegative(graph) ==>
                    Relaxing(graph, start, currentNode, currentDistance, k, distances, visited, pq, paths)
      {
        var improved;
        distances, pq, paths, improved :=
          RelaxNeighbour(graph, D, start, currentNode, currentDistance, k, distances, visited, pq, paths, false);
      }
      if NonNegative(graph) {
        Finish(graph, start, currentNode, currentDistance, distances, visited, pq, paths);
      }
      floor := currentDistance;
    }
    if NonNegative(graph) {
      Done(graph, D, start, distances, visited, floor, paths);
    }
    KeysSize(start);
    allNodesVisited := |distances| == 20;
  }

  /** The graph the script runs on: 1 -> 2 (1), 1 -> 3 (4), 2 -> 3 (2), 2 -> 4 (5), 3 -> 4 (1). */
  function SampleGraph(): Graph<int> {
    map[1 := [(2, 1), (3, 4)], 2 := [(3, 2), (4, 5)], 3 := [(4, 1)], 4 := []]
  }

  /** A walk ends where it starts or at the target of some edge. */
  lemma EndIsStartOrTarget<N>(g: Graph<N>, start: N, walk: seq<Hop<N>>)
    requires IsWalk(g, start, walk)
    ensures End(g, start, walk) == start ||
            exists u, k :: u in g && 0 <= k < |g[u]| && End(g, start, walk) == g[u][k].0
  {
    if walk != [] {
      var h := walk[|walk| - 1];
      assert ValidHop(g, h) && End(g, start, walk) == g[h.from][h.index].0;
    }
  }

  /**
   * A potential: 0 at `start`, and growing along no edge by more than the
   * edge's weight.
   */
  predicate Potential<N>(g: Graph<N>, start: N, p: map<N, int>) {
    start in p && p[start] == 0 &&
    forall u, k :: u in g && 0 <= k < |g[u]| ==> u in p && g[u][k].0 in p && p[g[u][k].0] <= p[u] + g[u][k].1
  }

  /** A potential is a lower bound on the weight of every walk from `start`. */
  lemma {:induction false} PotentialBound<N>(g: Graph<N>, start: N, p: map<N, int>, walk: seq<Hop<N>>)
    requires Potential(g, start, p) && IsWalk(g, start, walk)
    ensures End(g, start, walk) in p && Weight(g, walk) >= p[End(g, start, walk)]
  {
    if walk != [] {
      var prefix := walk[..|walk| - 1];
      PotentialBound(g, start, p, prefix);
      var h := walk[|walk| - 1];
      assert h.from == End(g, start, prefix) && ValidHop(g, h);
    }
  }

  /** In the sample graph no walk from node 1 ends at node 0: no edge enters 0. */
  lemma SampleNeverReachesZero(walk: seq<Hop<int>>)
    requires IsWalk(SampleGraph(), 1, walk)
    ensures End(SampleGraph(), 1, walk) != 0
  {
    var g := SampleGraph();
    EndIsStartOrTarget(g, 1, walk);
    assert forall u, k :: u in g && 0 <= k < |g[u]| ==> g[u][k].0 != 0;
  }

  /** Shortest distances from node 1 in the sample graph leave node 0 at infinity. */
  lemma SampleZeroUnreached(distances: map<int, Dist>)
    requires ShortestDistances(SampleGraph(), 1, distances) && 0 in distances
    ensures distances[0] == Inf
  {
    var g := SampleGraph();
    forall walk | IsWalk(g, 1, walk) ensures End(g, 1, walk) != 0 {
      SampleNeverReachesZero(walk);
    }
    InfIffUnreachable(g, 1, distances, 0);
  }

  /** The walk 1 -> 2 -> 3 -> 4 of the sample graph weighs 1 + 2 + 1. */
  lemma SampleWalkToFour()
    ensures IsWalk(SampleGraph(), 1, [Hop(1, 0), Hop(2, 0), Hop(3, 0)])
    ensures End(SampleGraph(), 1, [Hop(1, 0), Hop(2, 0), Hop(3, 0)]) == 4
    ensures Weight(SampleGraph(), [Hop(1, 0), Hop(2, 0), Hop(3, 0)]) == 4
  {
    var g := SampleGraph();
    Extend(g, 1, [], 1, 0);
    assert [] + [Hop(1, 0)] == [Hop(1, 0)];
    Extend(g, 1, [Hop(1, 0)], 2, 0);
    assert [Hop(1, 0)] + [Hop(2, 0)] == [Hop(1, 0), Hop(2, 0)];
    Extend(g, 1, [Hop(1, 0), Hop(2, 0)], 3, 0);
    assert [Hop(1, 0), Hop(2, 0)] + [Hop(3, 0)] == [Hop(1, 0), Hop(2, 0), Hop(3, 0)];
  }

  /** Shortest distances from node 1 in the sample graph put node 4 at 4. */
  lemma SampleFourAtFour(distances: map<int, Dist>)
    requires ShortestDistances(SampleGraph(), 1, distances)
    ensures 4 in distances && distances[4] == Fin(4)
  {
    var g := SampleGraph();
    SampleWalkToFour();
    var via := [Hop(1, 0), Hop(2, 0), Hop(3, 0)];
    assert IsWalk(g, 1, via);
    assert End(g, 1, via) in distances && Below(distances[End(g, 1, via)], Weight(g, via));
    var walk :| IsWalk(g, 1, walk) && End(g, 1, walk) == 4 && Weight(g, walk) == distances[4].value;
    SamplePotential();
    PotentialBound(g, 1, SampleFloor(), walk);
    assert distances[4].value >= 4;
  }

  /** Lower bounds on the distances from node 1 in the sample graph. */
  function SampleFloor(): map<int, int> {
    map[1 := 0, 2 := 1, 3 := 3, 4 := 4]
  }

  lemma SamplePotential()
    ensures Potential(SampleGraph(), 1, SampleFloor())
  {
    var g: Graph<int>, p: map<int, int> := SampleGraph(), SampleFloor();
    forall u, k | u in g && 0 <= k < |g[u]|
      ensures u in p && g[u][k].0 in p && p[g[u][k].0] <= p[u] + g[u][k].1
    {
      assert u == 1 || u == 2 || u == 3 || u == 4;
      assert k == 0 || k == 1;
    }
  }

  /**
   * `dijkstra_bugs(graph, 1)` on the script's graph: the flag says every
   * node was visited, yet node 0, which no edge enters, keeps distance
   * infinity and is never visited; node 4 is at 4.
   */
  method SampleRun() returns (distances: map<int, Dist>, allNodesVisited: bool)
    ensures allNodesVisited
    ensures 0 in distances && distances[0] == Inf
    ensures 4 in distances && distances[4] == Fin(4)
  {
    var g := SampleGraph();
    assert Closed(g, Range(20) + {1});
    assert NonNegative(g);
    distances, allNodesVisited := DijkstraBugs(g, 1);
    SampleZeroUnreached(distances);
    SampleFourAtFour(distances);
  }
}

=== FILE: dijkstra_core.dfy ===
/**
 * What the Dijkstra scripts in dijkstra/ share: graphs as adjacency maps,
 * distances with an infinite value, walks, and the invariants of the
 * heap-driven loop, with one lemma per step of that loop.
 *
 * A graph maps each node to its list of `(neighbour, weight)` pairs. A
 * distance map `dist` has a key for every node of its domain `D`; `Inf` plays
 * the part of `float('inf')`.
 */
module DijkstraCore {

  datatype Dist = Inf | Fin(value: int)

  type Graph<N> = map<N, seq<(N, int)>>

  /** `d < x`, with every number below infinity. */
  predicate Improves(d: int, x: Dist) {
    x.Inf? || d < x.value
  }

  /** `x <= d`: `x` is a number no larger than `d`. */
  predicate Below(x: Dist, d: int) {
    x.Fin? && x.value <= d
  }

  /** `x <= y`, with infinity above every number. */
  predicate NoWorse(x: Dist, y: Dist) {
    y.Inf? || (x.Fin? && x.value <= y.value)
  }

  /** Every neighbour named by the graph is a node of the graph and of the domain `D`. */
  predicate Closed<N>(g: Graph<N>, D: set<N>) {
    forall u, k :: u in g && 0 <= k < |g[u]| ==> g[u][k].0 in g && g[u][k].0 in D
  }

  predicate NonNegative<N>(g: Graph<N>) {
    forall u, k :: u in g && 0 <= k < |g[u]| ==> g[u][k].1 >= 0
  }

  // ---------------------------------------------------------------- walks

  /** One step along a walk: the `index`-th edge out of `from`. */
  datatype Hop<N> = Hop(from: N, index: nat)

  predicate ValidHop<N>(g: Graph<N>, h: Hop<N>) {
    h.from in g && h.index < |g[h.from]|
  }

  function Target<N>(g: Graph<N>, h: Hop<N>): N {
    if ValidHop(g, h) then g[h.from][h.index].0 else h.from
  }

  function HopWeight<N>(g: Graph<N>, h: Hop<N>): int {
    if ValidHop(g, h) then g[h.from][h.index].1 else 0
  }

  /** Where a walk from `start` ends. */
  function End<N>(g: Graph<N>, start: N, walk: seq<Hop<N>>): N {
    if walk == [] then start else Target(g, walk[|walk| - 1])
  }

  /** Each hop leaves from where the previous one arrived, and follows an edge of `g`. */
  predicate IsWalk<N>(g: Graph<N>, start: N, walk: seq<Hop<N>>) {
    walk == [] ||
    (IsWalk(g, start, walk[..|walk| - 1]) && ValidHop(g, walk[|walk| - 1]) &&
     walk[|walk| - 1].from == End(g, start, walk[..|walk| - 1]))
  }

  /** The sum of the weights along a walk. */
  function Weight<N>(g: Graph<N>, walk: seq<Hop<N>>): int {
    if walk == [] then 0 else Weight(g, walk[..|walk| - 1]) + HopWeight(g, walk[|walk| - 1])
  }

  /** Following one more edge out of a walk's end gives a walk, ending at the edge's target, one weight heavier. */
  lemma Extend<N>(g: Graph<N>, start: N, walk: seq<Hop<N>>, u: N, k: nat)
    requires IsWalk(g, start, walk) && End(g, start, walk) == u && u in g && k < |g[u]|
    ensures IsWalk(g, start, walk + [Hop(u, k)])
    ensures End(g, start, walk + [Hop(u, k)]) == g[u][k].0
    ensures Weight(g, walk + [Hop(u, k)]) == Weight(g, walk) + g[u][k].1
  {
    assert (walk + [Hop(u, k)])[..|walk|] == walk;
  }

  /** Every finite distance is the weight of a walk from `start` to that node, recorded in `paths`. */
  ghost predicate Witnessed<N>(g: Graph<N>, start: N, dist: map<N, Dist>, paths: map<N, seq<Hop<N>>>) {
    forall v :: v in dist && dist[v].Fin? ==>
      v in paths && IsWalk(g, start, paths[v]) && End(g, start, paths[v]) == v && Weight(g, paths[v]) == dist[v].value
  }

  /**
   * The first `k` edges out of `u` are relaxed: each leads to a node whose
   * distance is at most `dist[u]` plus the edge's weight.
   */
  predicate Relaxed<N>(g: Graph<N>, dist: map<N, Dist>, u: N, k: int) {
    u in g && u in dist && dist[u].Fin? && 0 <= k <= |g[u]| &&
    forall j :: 0 <= j < k ==> g[u][j].0 in dist && Below(dist[g[u][j].0], dist[u].value + g[u][j].1)
  }

  /** Every node of `S` has all its edges relaxed. */
  predicate Settled<N>(g: Graph<N>, dist: map<N, Dist>, S: set<N>) {
    forall u :: u in S ==> u in g && Relaxed(g, dist, u, |g[u]|)
  }

  /**
   * What the loops deliver: `start` at 0, and no edge out of a reached node
   * can shorten the distance of its target.
   */
  predicate Fixpoint<N>(g: Graph<N>, start: N, dist: map<N, Dist>) {
    start in dist && dist[start] == Fin(0) &&
    forall u :: u in dist && dist[u].Fin? ==> u in g && Relaxed(g, dist, u, |g[u]|)
  }

  /**
   * `dist` holds the shortest distances from `start`: no walk from `start` is
   * lighter than the distance of where it ends (so a node any walk reaches
   * has a finite distance), and every finite distance is the weight of a walk.
   */
  ghost predicate ShortestDistances<N(!new)>(g: Graph<N>, start: N, dist: map<N, Dist>) {
    (forall walk :: IsWalk(g, start, walk) ==>
       End(g, start, walk) in dist && Below(dist[End(g, start, walk)], Weight(g, walk))) &&
    (forall v :: v in dist && dist[v].Fin? ==>
       exists walk :: IsWalk(g, start, walk) && End(g, start, walk) == v && Weight(g, walk) == dist[v].value)
  }

  /** A fixpoint bounds every walk: by induction on the walk, one edge at a time. */
  lemma {:induction false} FixpointBoundsWalks<N>(g: Graph<N>, start: N, dist: map<N, Dist>, walk: seq<Hop<N>>)
    requires Fixpoint(g, start, dist) && IsWalk(g, start, walk)
    ensures End(g, start, walk) in dist && Below(dist[End(g, start, walk)], Weight(g, walk))
  {
    if walk != [] {
      var prefix := walk[..|walk| - 1];
      var h := walk[|walk| - 1];
      FixpointBoundsWalks(g, start, dist, prefix);
      var u := End(g, start, prefix);
      assert h.from == u && Relaxed(g, dist, u, |g[u]|);
      assert g[u][h.index].0 in dist && Below(dist[g[u][h.index].0], dist[u].value + g[u][h.index].1);
    }
  }

  /** A fixpoint whose finite distances all have walks is exactly the shortest distances. */
  lemma FixpointIsShortest<N(!new)>(g: Graph<N>, start: N, dist: map<N, Dist>, paths: map<N, seq<Hop<N>>>)
    requires Fixpoint(g, start, dist) && Witnessed(g, start, dist, paths)
    ensures ShortestDistances(g, start, dist)
  {
    forall walk | IsWalk(g, start, walk)
      ensures End(g, start, walk) in dist && Below(dist[End(g, start, walk)], Weight(g, walk))
    {
      FixpointBoundsWalks(g, start, dist, walk);
    }
    forall v | v in dist && dist[v].Fin?
      ensures exists walk :: IsWalk(g, start, walk) && End(g, start, walk) == v && Weight(g, walk) == dist[v].value
    {
      var walk := paths[v];
      assert IsWalk(g, start, walk) && End(g, start, walk) == v && Weight(g, walk) == dist[v].value;
    }
  }

  /** Shortest distances are unique: two maps over the same nodes that both hold them are equal. */
  lemma ShortestUnique<N(!new)>(g: Graph<N>, start: N, d1: map<N, Dist>, d2: map<N, Dist>)
    requires d1.Keys == d2.Keys
    requires ShortestDistances(g, start, d1) && ShortestDistances(g, start, d2)
    ensures d1 == d2
  {
    forall v | v in d1 ensures d1[v] == d2[v] {
      if d1[v].Fin? {
        var walk :| IsWalk(g, start, walk) && End(g, start, walk) == v && Weight(g, walk) == d1[v].value;
        assert Below(d2[v], d1[v].value);
      }
      if d2[v].Fin? {
        var walk :| IsWalk(g, start, walk) && End(g, start, walk) == v && Weight(g, walk) == d2[v].value;
        assert Below(d1[v], d2[v].value);
      }
    }
  }

  /** With shortest distances, a node is at infinity exactly when no walk from `start` reaches it. */
  lemma InfIffUnreachable<N(!new)>(g: Graph<N>, start: N, dist: map<N, Dist>, v: N)
    requires ShortestDistances(g, start, dist) && v in dist
    ensures dist[v].Inf? <==> forall walk :: IsWalk(g, start, walk) ==> End(g, start, walk) != v
  {
    if dist[v].Fin? {
      var walk :| IsWalk(g, start, walk) && End(g, start, walk) == v && Weight(g, walk) == dist[v].value;
    }
  }

  // ---------------------------------------------------------- the heap

  /** How many heap entries belong to nodes of `S`. */
  function CountIn<N>(heap: seq<(int, N)>, S: set<N>): nat {
    if heap == [] then 0 else CountIn(heap[..|heap| - 1], S) + (if heap[|heap| - 1].1 in S then 1 else 0)
  }

  lemma {:induction false} CountInConcat<N>(a: seq<(int, N)>, b: seq<(int, N)>, S: set<N>)
    ensures CountIn(a + b, S) == CountIn(a, S) + CountIn(b, S)
  {
    if b == [] {
      assert a + b == a;
    } else {
      assert (a + b)[..|a + b| - 1] == a + b[..|b| - 1];
      CountInConcat(a, b[..|b| - 1], S);
    }
  }

  /** Pushing an entry adds its node's share of the count. */
  lemma CountInPush<N>(heap: seq<(int, N)>, e: (int, N), S: set<N>)
    ensures CountIn(heap + [e], S) == CountIn(heap, S) + (if e.1 in S then 1 else 0)
  {
    assert (heap + [e])[..|heap|] == heap;
  }

  /** Taking entry `i` out removes its node's share of the count. */
  lemma CountInRemove<N>(heap: seq<(int, N)>, i: int, S: set<N>)
    requires 0 <= i < |heap|
    ensures CountIn(heap[..i] + heap[i + 1..], S) == CountIn(heap, S) - (if heap[i].1 in S then 1 else 0)
  {
    assert heap == heap[..i] + [heap[i]] + heap[i + 1..];
    CountInConcat(heap[..i] + [heap[i]], heap[i + 1..], S);
    CountInConcat(heap[..i], [heap[i]], S);
    CountInConcat(heap[..i], heap[i + 1..], S);
    assert [heap[i]][..0] == [];
  }

  /** Adding a node that is already there changes nothing. */
  lemma AddPresent<N>(S: set<N>, u: N)
    requires u in S
    ensures S + {u} == S
  {
  }

  /** Visiting one more node of `D` leaves one fewer to visit. */
  lemma OneMoreVisited<N>(D: set<N>, visited: set<N>, u: N)
    requires u in D && u !in visited
    ensures |D - (visited + {u})| < |D - visited|
  {
    assert D - visited == (D - (visited + {u})) + {u};
  }

  /**
   * `heapq.heappop` returns a least entry; ties are broken by position here,
   * where `heapq` compares the nodes next.
   */
  method MinIndex<N>(heap: seq<(int, N)>) returns (i: nat)
    requires heap != []
    ensures i < |heap| && forall j :: 0 <= j < |heap| ==> heap[i].0 <= heap[j].0
  {
    i := 0;
    for j := 1 to |heap|
      invariant i < j && forall m :: 0 <= m < j ==> heap[i].0 <= heap[m].0
    {
      if heap[j].0 < heap[i].0 {
        i := j;
      }
    }
  }

  // ------------------------------------------------ the loop's invariants

  /** The shape every variant keeps, whatever the weights. */
  predicate Shape<N>(g: Graph<N>, D: set<N>, start: N, dist: map<N, Dist>, visited: set<N>, heap: seq<(int, N)>) {
    dist.Keys == D && start in D && start in g && Closed(g, D) &&
    visited <= D && (forall v :: v in visited ==> v in g) &&
    (forall e :: e in heap ==> e.1 in D && e.1 in g)
  }

  /** Every entry lies at or above the last popped distance `floor`. */
  predicate HeapAbove<N(==)>(heap: seq<(int, N)>, floor: int) {
    forall e :: e in heap ==> e.0 >= floor
  }

  /** Every entry is an upper bound on its node's current distance. */
  predicate HeapBounds<N>(dist: map<N, Dist>, heap: seq<(int, N)>) {
    forall e :: e in heap ==> e.1 in dist && Below(dist[e.1], e.0)
  }

  /** Visited nodes have distances no larger than `floor`. */
  predicate VisitedBelow<N>(dist: map<N, Dist>, visited: set<N>, floor: int) {
    forall v :: v in visited ==> v in dist && Below(dist[v], floor)
  }

  /** Every reached but unvisited node waits in the heap with its current distance. */
  predicate Queued<N>(dist: map<N, Dist>, visited: set<N>, heap: seq<(int, N)>) {
    forall v :: v in dist && v !in visited && dist[v].Fin? ==> (dist[v].value, v) in heap
  }

  /** The outer loop's invariant under non-negative weights. */
  ghost predicate Progress<N>(g: Graph<N>, start: N, dist: map<N, Dist>, visited: set<N>, heap: seq<(int, N)>,
                              floor: int, paths: map<N, seq<Hop<N>>>) {
    floor >= 0 && HeapAbove(heap, floor) && HeapBounds(dist, heap) && VisitedBelow(dist, visited, floor) &&
    Queued(dist, visited, heap) && Settled(g, dist, visited) &&
    start in dist && dist[start] == Fin(0) && Witnessed(g, start, dist, paths)
  }

  /**
   * The inner loop's invariant while the edges out of `u`, popped at
   * distance `d`, are relaxed: the first `k` of them are done. Either `u` is
   * on its first visit and `d` is its distance, or it was settled before.
   */
  ghost predicate Relaxing<N>(g: Graph<N>, start: N, u: N, d: int, k: int, dist: map<N, Dist>, visited: set<N>,
                              heap: seq<(int, N)>, paths: map<N, seq<Hop<N>>>) {
    d >= 0 && u in visited && HeapAbove(heap, d) && HeapBounds(dist, heap) && VisitedBelow(dist, visited, d) &&
    Queued(dist, visited, heap) && Settled(g, dist, visited - {u}) && Relaxed(g, dist, u, k) &&
    (dist[u] == Fin(d) || Relaxed(g, dist, u, |g[u]|)) &&
    start in dist && dist[start] == Fin(0) && Witnessed(g, start, dist, paths)
  }

  /** Before the loop: only `start` is reached, at 0, and the heap holds `(0, start)`. */
  lemma Initial<N>(g: Graph<N>, D: set<N>, start: N, dist: map<N, Dist>)
    requires start in D && start in g && Closed(g, D) && NonNegative(g)
    requires dist.Keys == D && dist[start] == Fin(0) && forall v :: v in D && v != start ==> dist[v] == Inf
    ensures Shape(g, D, start, dist, {}, [(0, start)])
    ensures Progress(g, start, dist, {}, [(0, start)], 0, map[start := []])
  {
    assert IsWalk(g, start, []);
  }

  /** Taking entry `i` out of the heap keeps every other entry and adds none. */
  lemma RemoveAt<N>(heap: seq<(int, N)>, i: int)
    requires 0 <= i < |heap|
    ensures forall e :: e in heap[..i] + heap[i + 1..] ==> e in heap
    ensures forall e :: e in heap && e != heap[i] ==> e in heap[..i] + heap[i + 1..]
  {
    var rest := heap[..i] + heap[i + 1..];
    forall e | e in heap && e != heap[i] ensures e in rest {
      var j :| 0 <= j < |heap| && heap[j] == e;
      if j < i {
        assert rest[j] == e;
      } else {
        assert rest[j - 1] == e;
      }
    }
    forall e | e in rest ensures e in heap {
      var j :| 0 <= j < |rest| && rest[j] == e;
      if j < i {
        assert heap[j] == e;
      } else {
        assert heap[j + 1] == e;
      }
    }
  }

  /** The rest of the heap after popping entry `i` keeps the invariant's heap facts. */
  lemma PopRest<N>(D: set<N>, g: Graph<N>, dist: map<N, Dist>, visited: set<N>, heap: seq<(int, N)>, i: int)
    requires 0 <= i < |heap| && forall j :: 0 <= j < |heap| ==> heap[i].0 <= heap[j].0
    requires forall e :: e in heap ==> e.1 in D && e.1 in g
    requires HeapBounds(dist, heap) && Queued(dist, visited, heap)
    ensures forall e :: e in heap[..i] + heap[i + 1..] ==> e.1 in D && e.1 in g
    ensures HeapAbove(heap[..i] + heap[i + 1..], heap[i].0) && HeapBounds(dist, heap[..i] + heap[i + 1..])
    ensures Queued(dist, visited + {heap[i].1}, heap[..i] + heap[i + 1..])
    ensures HeapAbove(heap, heap[i].0)
  {
    RemoveAt(heap, i);
    forall e | e in heap ensures e.0 >= heap[i].0 {
      var j :| 0 <= j < |heap| && heap[j] == e;
    }
  }

  /** Popping entry `i` keeps the shape, with its node now visited. */
  lemma ShapePop<N>(g: Graph<N>, D: set<N>, start: N, dist: map<N, Dist>, visited: set<N>, heap: seq<(int, N)>, i: int)
    requires Shape(g, D, start, dist, visited, heap) && 0 <= i < |heap|
    ensures Shape(g, D, start, dist, visited + {heap[i].1}, heap[..i] + heap[i + 1..])
    ensures heap[i].1 in visited ==> Shape(g, D, start, dist, visited, heap[..i] + heap[i + 1..])
  {
    RemoveAt(heap, i);
    assert heap[i] in heap;
  }

  /**
   * Popping a least entry `(d, u)`: on a first visit `d` is exactly `u`'s
   * distance, because `u` waits in the heap with it and no entry is below its
   * node's distance.
   */
  lemma Pop<N>(g: Graph<N>, D: set<N>, start: N, dist: map<N, Dist>, visited: set<N>, heap: seq<(int, N)>,
               floor: int, paths: map<N, seq<Hop<N>>>, i: int)
    requires Shape(g, D, start, dist, visited, heap) && Progress(g, start, dist, visited, heap, floor, paths)
    requires 0 <= i < |heap| && forall j :: 0 <= j < |heap| ==> heap[i].0 <= heap[j].0
    ensures Relaxing(g, start, heap[i].1, heap[i].0, 0, dist, visited + {heap[i].1}, heap[..i] + heap[i + 1..], paths)
  {
    var d, u := heap[i].0, heap[i].1;
    PopRest(D, g, dist, visited, heap, i);
    assert heap[i] in heap;
    assert Below(dist[u], d);
    if u !in visited {
      assert (dist[u].value, u) in heap;
    }
    assert Settled(g, dist, visited + {u} - {u});
  }

  /** A popped node that was visited already is skipped, and the invariant holds for the rest of the heap. */
  lemma Skip<N>(g: Graph<N>, D: set<N>, start: N, dist: map<N, Dist>, visited: set<N>, heap: seq<(int, N)>,
                floor: int, paths: map<N, seq<Hop<N>>>, i: int)
    requires Shape(g, D, start, dist, visited, heap) && Progress(g, start, dist, visited, heap, floor, paths)
    requires 0 <= i < |heap| && heap[i].1 in visited
    ensures Progress(g, start, dist, visited, heap[..i] + heap[i + 1..], floor, paths)
  {
    RemoveAt(heap, i);
  }

  /** Lowering the distance of a node outside `S` keeps `S` settled. */
  lemma RelaxKeepsSettled<N>(g: Graph<N>, dist: map<N, Dist>, S: set<N>, nb: N, x: int)
    requires Settled(g, dist, S) && nb !in S && nb in dist && Improves(x, dist[nb])
    ensures Settled(g, dist[nb := Fin(x)], S)
  {
    var dist' := dist[nb := Fin(x)];
    forall u | u in S ensures u in g && Relaxed(g, dist', u, |g[u]|) {
      assert Relaxed(g, dist, u, |g[u]|);
      forall j | 0 <= j < |g[u]| ensures g[u][j].0 in dist' && Below(dist'[g[u][j].0], dist'[u].value + g[u][j].1) {
        assert Below(dist[g[u][j].0], dist[u].value + g[u][j].1);
      }
    }
  }

  /** A new finite distance with a walk of that weight keeps every finite distance witnessed. */
  lemma RelaxKeepsWitnessed<N>(g: Graph<N>, start: N, dist: map<N, Dist>, paths: map<N, seq<Hop<N>>>,
                               nb: N, x: int, walk: seq<Hop<N>>)
    requires Witnessed(g, start, dist, paths) && nb in dist
    requires IsWalk(g, start, walk) && End(g, start, walk) == nb && Weight(g, walk) == x
    ensures Witnessed(g, start, dist[nb := Fin(x)], paths[nb := walk])
  {
  }

  /** Lowering an unvisited node's distance and pushing its new entry keeps the heap facts. */
  lemma RelaxKeepsHeap<N>(dist: map<N, Dist>, visited: set<N>, heap: seq<(int, N)>, d: int, nb: N, x: int)
    requires HeapAbove(heap, d) && HeapBounds(dist, heap) && Queued(dist, visited, heap)
    requires nb in dist && nb !in visited && Improves(x, dist[nb]) && x >= d
    ensures HeapAbove(heap + [(x, nb)], d) && HeapBounds(dist[nb := Fin(x)], heap + [(x, nb)])
    ensures Queued(dist[nb := Fin(x)], visited, heap + [(x, nb)])
  {
  }

  /**
   * Relaxing an edge `(nb, w)` out of `u` that improves `nb`, which is then
   * pushed: its new distance has a walk through `u`.
   */
  lemma RelaxImproves<N>(g: Graph<N>, start: N, u: N, d: int, k: int, dist: map<N, Dist>, visited: set<N>,
                         heap: seq<(int, N)>, paths: map<N, seq<Hop<N>>>)
    requires Relaxing(g, start, u, d, k, dist, visited, heap, paths) && k < |g[u]| && g[u][k].1 >= 0
    requires g[u][k].0 in dist && g[u][k].0 !in visited && g[u][k].0 != start && dist[u] == Fin(d)
    requires Improves(d + g[u][k].1, dist[g[u][k].0])
    ensures Relaxing(g, start, u, d, k + 1, dist[g[u][k].0 := Fin(d + g[u][k].1)], visited,
                     heap + [(d + g[u][k].1, g[u][k].0)], paths[g[u][k].0 := paths[u] + [Hop(u, k)]])
  {
    var nb, w := g[u][k].0, g[u][k].1;
    Extend(g, start, paths[u], u, k);
    RelaxKeepsWitnessed(g, start, dist, paths, nb, d + w, paths[u] + [Hop(u, k)]);
    RelaxKeepsSettled(g, dist, visited - {u}, nb, d + w);
    RelaxKeepsHeap(dist, visited, heap, d, nb, d + w);
    RelaxedAfterImprove(g, dist, u, k, d + w);
    RelaxKeepsVisited(dist, visited, d, nb, d + w);
  }

  /** One relaxation, whether it improves and pushes or not, keeps the shape. */
  lemma ShapeAfterRelax<N>(g: Graph<N>, D: set<N>, start: N, dist: map<N, Dist>, visited: set<N>, heap: seq<(int, N)>,
                           nb: N, x: int, dist': map<N, Dist>, heap': seq<(int, N)>)
    requires Shape(g, D, start, dist, visited, heap) && nb in D && nb in g
    requires dist' == dist || dist' == dist[nb := Fin(x)]
    requires heap' == heap || heap' == heap + [(x, nb)]
    ensures Shape(g, D, start, dist', visited, heap')
  {
  }

  /**
   * One relaxation of edge `k` out of `u` keeps the inner invariant: an
   * improvement happens only on `u`'s first visit and for an unvisited
   * neighbour, which is then pushed, with a walk through `u`.
   */
  lemma RelaxStep<N>(g: Graph<N>, start: N, u: N, d: int, k: int, dist: map<N, Dist>, visited: set<N>,
                     heap: seq<(int, N)>, paths: map<N, seq<Hop<N>>>,
                     dist': map<N, Dist>, heap': seq<(int, N)>, paths': map<N, seq<Hop<N>>>)
    requires NonNegative(g) && Relaxing(g, start, u, d, k, dist, visited, heap, paths) && k < |g[u]|
    requires g[u][k].0 in dist
    requires Improves(d + g[u][k].1, dist[g[u][k].0]) ==>
               dist' == dist[g[u][k].0 := Fin(d + g[u][k].1)] &&
               (g[u][k].0 !in visited ==> heap' == heap + [(d + g[u][k].1, g[u][k].0)]) &&
               (u in paths ==> paths' == paths[g[u][k].0 := paths[u] + [Hop(u, k)]])
    requires !Improves(d + g[u][k].1, dist[g[u][k].0]) ==> dist' == dist && heap' == heap && paths' == paths
    ensures Relaxing(g, start, u, d, k + 1, dist', visited, heap', paths')
  {
    if Improves(d + g[u][k].1, dist[g[u][k].0]) {
      FirstVisitImproves(g, start, u, d, k, dist, visited, heap, paths);
      RelaxImproves(g, start, u, d, k, dist, visited, heap, paths);
    } else {
      RelaxNoChange(g, start, u, d, k, dist, visited, heap, paths);
    }
  }

  /** Lowering an unvisited node's distance leaves the visited ones below `floor`. */
  lemma RelaxKeepsVisited<N>(dist: map<N, Dist>, visited: set<N>, floor: int, nb: N, x: int)
    requires VisitedBelow(dist, visited, floor) && nb !in visited
    ensures VisitedBelow(dist[nb := Fin(x)], visited, floor)
  {
  }

  /** Only a first visit improves anything, and never a visited neighbour. */
  lemma FirstVisitImproves<N>(g: Graph<N>, start: N, u: N, d: int, k: int, dist: map<N, Dist>, visited: set<N>,
                              heap: seq<(int, N)>, paths: map<N, seq<Hop<N>>>)
    requires NonNegative(g) && Relaxing(g, start, u, d, k, dist, visited, heap, paths) && k < |g[u]|
    requires g[u][k].0 in dist && Improves(d + g[u][k].1, dist[g[u][k].0])
    ensures g[u][k].0 !in visited && g[u][k].0 != start && dist[u] == Fin(d)
  {
  }

  /** Lowering the target of edge `k` to at most `dist[u]` plus its weight relaxes that edge too. */
  lemma RelaxedAfterImprove<N>(g: Graph<N>, dist: map<N, Dist>, u: N, k: int, x: int)
    requires Relaxed(g, dist, u, k) && k < |g[u]| && g[u][k].0 != u && g[u][k].0 in dist
    requires Improves(x, dist[g[u][k].0]) && x <= dist[u].value + g[u][k].1
    ensures Relaxed(g, dist[g[u][k].0 := Fin(x)], u, k + 1)
  {
    var dist' := dist[g[u][k].0 := Fin(x)];
    forall j | 0 <= j < k + 1 ensures g[u][j].0 in dist' && Below(dist'[g[u][j].0], dist'[u].value + g[u][j].1) {
      if j < k {
        assert Below(dist[g[u][j].0], dist[u].value + g[u][j].1);
      }
    }
  }

  /** Relaxing an edge that improves nothing changes nothing and extends the relaxed prefix. */
  lemma RelaxNoChange<N>(g: Graph<N>, start: N, u: N, d: int, k: int, dist: map<N, Dist>, visited: set<N>,
                         heap: seq<(int, N)>, paths: map<N, seq<Hop<N>>>)
    requires Relaxing(g, start, u, d, k, dist, visited, heap, paths) && k < |g[u]| && g[u][k].0 in dist
    requires !Improves(d + g[u][k].1, dist[g[u][k].0])
    ensures Relaxing(g, start, u, d, k + 1, dist, visited, heap, paths)
  {
    if dist[u] != Fin(d) {
      assert Relaxed(g, dist, u, |g[u]|);
    }
  }

  /** When every edge out of `u` is relaxed, `u` is settled and the outer invariant holds at floor `d`. */
  lemma Finish<N>(g: Graph<N>, start: N, u: N, d: int, dist: map<N, Dist>, visited: set<N>,
                  heap: seq<(int, N)>, paths: map<N, seq<Hop<N>>>)
    requires u in g && Relaxing(g, start, u, d, |g[u]|, dist, visited, heap, paths)
    ensures Progress(g, start, dist, visited, heap, d, paths)
  {
  }

  /** An empty heap leaves nothing reached but unvisited, so the distances are a fixpoint and shortest. */
  lemma Done<N(!new)>(g: Graph<N>, D: set<N>, start: N, dist: map<N, Dist>, visited: set<N>, floor: int,
                      paths: map<N, seq<Hop<N>>>)
    requires Shape(g, D, start, dist, visited, []) && Progress(g, start, dist, visited, [], floor, paths)
    ensures Fixpoint(g, start, dist) && ShortestDistances(g, start, dist)
  {
    assert Fixpoint(g, start, dist);
    FixpointIsShortest(g, start, dist, paths);
  }

  // ------------------------------------------------------ one relaxation

  /**
   * The body of the loop over the neighbours of `u`, popped at distance `d`:
   * `distance = d + weight`, and when `distance < distances[neighbor]` the
   * neighbour's distance drops to it and the entry is pushed (when
   * `guardPush` holds, only if the neighbour is unvisited). No distance ever
   * grows, and with non-negative weights the inner invariant advances by one
   * edge.
   */
  method RelaxNeighbour<N>(graph: Graph<N>, ghost D: set<N>, ghost start: N, u: N, d: int, k: int,
                           dist: map<N, Dist>, visited: set<N>, heap: seq<(int, N)>,
                           ghost paths: map<N, seq<Hop<N>>>, guardPush: bool)
    returns (dist': map<N, Dist>, heap': seq<(int, N)>, ghost paths': map<N, seq<Hop<N>>>, improved: bool)
    requires u in graph && 0 <= k < |graph[u]| && Shape(graph, D, start, dist, visited, heap)
    ensures improved == Improves(d + graph[u][k].1, dist[graph[u][k].0])
    ensures Shape(graph, D, start, dist', visited, heap')
    ensures dist'.Keys == dist.Keys && forall v :: v in dist ==> NoWorse(dist'[v], dist[v])
    ensures Improves(d + graph[u][k].1, dist[graph[u][k].0]) ==>
              dist' == dist[graph[u][k].0 := Fin(d + graph[u][k].1)] &&
              heap' == if !guardPush || graph[u][k].0 !in visited then heap + [(d + graph[u][k].1, graph[u][k].0)] else heap
    ensures !Improves(d + graph[u][k].1, dist[graph[u][k].0]) ==> dist' == dist && heap' == heap
    ensures heap' == heap ||
            (heap' == heap + [(d + graph[u][k].1, graph[u][k].0)] && (guardPush ==> graph[u][k].0 !in visited))
    ensures NonNegative(graph) && Relaxing(graph, start, u, d, k, dist, visited, heap, paths) ==>
              Relaxing(graph, start, u, d, k + 1, dist', visited, heap', paths')
  {
    var neighbor, weight := graph[u][k].0, graph[u][k].1;
    var distance := d + weight;
    dist', heap', paths' := dist, heap, paths;
    improved := Improves(distance, dist[neighbor]);
    if improved {
      dist' := dist[neighbor := Fin(distance)];
      if u in paths {
        paths' := paths[neighbor := paths[u] + [Hop(u, k)]];
      }
      if !guardPush || neighbor !in visited {
        heap' := heap + [(distance, neighbor)];
      }
    }
    ShapeAfterRelax(graph, D, start, dist, visited, heap, neighbor, distance, dist', heap');
    if NonNegative(graph) && Relaxing(graph, start, u, d, k, dist, visited, heap, paths) {
      RelaxStep(graph, start, u, d, k, dist, visited, heap, paths, dist', heap', paths');
    }
  }
}

=== FILE: dijkstra_vs.dfy ===
/**
 * dijkstra/dijkstra_vs.py: two versions of Dijkstra's loop that differ in how
 * they avoid re-expanding a node. `dijkstra_v1` skips a popped node that was
 * visited already; `dijkstra_v2` expands every popped node but never pushes a
 * visited one. With non-negative weights both return the shortest distances,
 * hence the same map.
 */
module DijkstraVs {
  import opened DijkstraCore

  /**
   * `dijkstra_v1`. Every node starts at infinity and `start` at 0. The loop
   * ends whatever the weights; with non-negative weights the distances are
   * the shortest ones.
   */
  method DijkstraV1<N(!new)>(graph: Graph<N>, start: N) returns (distances: map<N, Dist>)
    requires start in graph && Closed(graph, graph.Keys)
    ensures distances.Keys == graph.Keys
    ensures NonNegative(graph) ==> Fixpoint(graph, start, distances) && ShortestDistances(graph, start, distances)
  {
    ghost var D := graph.Keys;
    distances := map v | v in graph :: Inf;
    distances := distances[start := Fin(0)];
    var visited: set<N> := {};
    var heap: seq<(int, N)> := [(0, start)];
    ghost var floor := 0;
    ghost var paths: map<N, seq<Hop<N>>> := map[start := []];
    if NonNegative(graph) {
      Initial(graph, D, start, distances);
    }
    while heap != []
      invariant Shape(graph, D, start, distances, visited, heap)
      invariant NonNegative(graph) ==> Progress(graph, start, distances, visited, heap, floor, paths)
      decreases |D - visited|, CountIn(heap, visited)
    {
      var i := MinIndex(heap);
      var currentDistance, currentNode := heap[i].0, heap[i].1;
      ShapePop(graph, D, start, distances, visited, heap, i);
      CountInRemove(heap, i, visited);
      if currentNode in visited {
        if NonNegative(graph) {
          Skip(graph, D, start, distances, visited, heap, floor, paths, i);
        }
        heap := heap[..i] + heap[i + 1..];
        continue;
      }
      if NonNegative(graph) {
        Pop(graph, D, start, distances, visited, heap, floor, paths, i);
      }
      OneMoreVisited(D, visited, currentNode);
      heap := heap[..i] + heap[i + 1..];
      visited := visited + {currentNode};
      for k := 0 to |graph[currentNode]|
        invariant Shape(graph, D, start, distances, visited, heap)
        invariant NonNegative(graph) ==>
                    Relaxing(graph, start, currentNode, currentDistance, k, distances, visited, heap, paths)
      {
        var improved;
        distances, heap, paths, improved :=
          RelaxNeighbour(graph, D, start, currentNode, currentDistance, k, distances, visited, heap, paths, false);
      }
      if NonNegative(graph) {
        Finish(graph, start, currentNode, currentDistance, distances, visited, heap, paths);
      }
      floor := currentDistance;
    }
    if NonNegative(graph) {
      Done(graph, D, start, distances, visited, floor, paths);
    }
  }

  /**
   * `dijkstra_v2`. The loop ends whatever the weights, because a visited node
   * is never pushed again; with non-negative weights the distances are the
   * shortest ones.
   */
  method DijkstraV2<N(!new)>(graph: Graph<N>, start: N) returns (distances: map<N, Dist>)
    requires start in graph && Closed(graph, graph.Keys)
    ensures distances.Keys == graph.Keys
    ensures NonNegative(graph) ==> Fixpoint(graph, start, distances) && ShortestDistances(graph, start, distances)
  {
    ghost var D := graph.Keys;
    distances := map v | v in graph :: Inf;
    distances := distances[start := Fin(0)];
    var visited: set<N> := {};
    var heap: seq<(int, N)> := [(0, start)];
    ghost var floor := 0;
    ghost var paths: map<N, seq<Hop<N>>> := map[start := []];
    if NonNegative(graph) {
      Initial(graph, D, start, distances);
    }
    while heap != []
      invariant Shape(graph, D, start, distances, visited, heap)
      invariant NonNegative(graph) ==> Progress(graph, start, distances, visited, heap, floor, paths)
      decreases |D - visited|, CountIn(heap, visited)
    {
      var i := MinIndex(heap);
      var currentDistance, currentNode := heap[i].0, heap[i].1;
      ghost var before := visited;
      ghost var rest := heap[..i] + heap[i + 1..];
      ShapePop(graph, D, start, distances, visited, heap, i);
      CountInRemove(heap, i, visited);
      if NonNegative(graph) {
        Pop(graph, D, start, distances, visited, heap, floor, paths, i);
      }
      if currentNode !in visited {
        OneMoreVisited(D, visited, currentNode);
      } else {
        AddPresent(visited, currentNode);
      }
      heap := heap[..i] + heap[i + 1..];
      visited := visited + {currentNode};
      for k := 0 to |graph[currentNode]|
        invariant Shape(graph, D, start, distances, visited, heap)
        invariant NonNegative(graph) ==>
                    Relaxing(graph, start, currentNode, currentDistance, k, distances, visited, heap, paths)
        invariant CountIn(heap, before) == CountIn(rest, before)
      {
        ghost var heap0 := heap;
        var improved;
        distances, heap, paths, improved :=
          RelaxNeighbour(graph, D, start, currentNode, currentDistance, k, distances, visited, heap, paths, true);
        if heap != heap0 {
          CountInPush(heap0, (currentDistance + graph[currentNode][k].1, graph[currentNode][k].0), before);
        }
      }
      if NonNegative(graph) {
        Finish(graph, start, currentNode, currentDistance, distances, visited, heap, paths);
      }
      floor := currentDistance;
    }
    if NonNegative(graph) {
      Done(graph, D, start, distances, visited, floor, paths);
    }
  }

  /** With non-negative weights the two versions return the same distance map. */
  method BothVersionsAgree<N(!new)>(graph: Graph<N>, start: N) returns (d1: map<N, Dist>, d2: map<N, Dist>)
    requires start in graph && Closed(graph, graph.Keys)
    ensures NonNegative(graph) ==> d1 == d2
  {
    d1 := DijkstraV1(graph, start);
    d2 := DijkstraV2(graph, start);
    if NonNegative(graph) {
      ShortestUnique(graph, start, d1, d2);
    }
  }
}

=== FILE: doubly_linked_list.dfy ===
/**
 * doubly_linked_list/doubly_coursera.py: a doubly linked list of nodes
 * appended at the tail, with manual linking of two nodes and a forward
 * traversal that stops when it comes back to the head.
 */
module DoublyLinkedLists {

  /** `Node`: a value with links to the previous and the next node, both `None` at first. */
  class Node<T> {
    var data: T
    var prev: Node?<T>
    var next: Node?<T>

    constructor (data: T)
      ensures this.data == data && prev == null && next == null
    {
      this.data := data;
      prev := null;
      next := null;
    }
  }

  /**
   * `DoublyLinkedListFixed`. `nodes` is the chain from `head` to `tail`
   * in order, each node once; the links of the chain go both ways, the tail
   * links on to nothing or back to the head, and nothing is said of the
   * head's `prev`.
   */
  class DoublyLinkedList<T> {
    var head: Node?<T>
    var tail: Node?<T>
    ghost var nodes: seq<Node<T>>

    ghost predicate Valid()
      reads this, nodes
    {
      (forall i, j :: 0 <= i < j < |nodes| ==> nodes[i] != nodes[j]) &&
      (nodes == [] ==> head == null && tail == null) &&
      (nodes != [] ==>
         head == nodes[0] && tail == nodes[|nodes| - 1] &&
         (tail.next == null || tail.next == head) &&
         forall i :: 0 <= i < |nodes| - 1 ==> nodes[i].next == nodes[i + 1] && nodes[i + 1].prev == nodes[i])
    }

    /** An empty list: no head and no tail. */
    constructor ()
      ensures Valid() && nodes == [] && head == null && tail == null
    {
      head := null;
      tail := null;
      nodes := [];
    }

    /**
     * `add_node`: a new node holding `data` becomes the tail; on an empty
     * list it is the head too, otherwise the old tail and the new node link
     * to each other and the head stays. No node of the list changes its value.
     */
    method AddNode(data: T) returns (n: Node<T>)
      requires Valid()
      modifies this, tail
      ensures Valid() && fresh(n)
      ensures n.data == data && n.next == null
      ensures nodes == old(nodes) + [n] && tail == n
      ensures old(head) == null ==> head == n && n.prev == null
      ensures old(head) != null ==> head == old(head) && old(tail).next == n && n.prev == old(tail)
      ensures forall m :: m in old(nodes) ==> m.data == old(m.data)
    {
      n := new Node(data);
      if head == null {
        Start(n);
      } else {
        Append(n);
      }
    }

    /** The first node of an empty list is its head and its tail. */
    method Start(n: Node<T>)
      requires Valid() && head == null && n.next == null && n.prev == null
      modifies this
      ensures Valid() && nodes == [n] && head == n && tail == n
    {
      head, tail := n, n;
      nodes := [n];
    }

    /** A node not in the list, linked after the tail, becomes the tail. */
    method Append(n: Node<T>)
      requires Valid() && head != null && n.next == null && n !in nodes
      modifies this, tail, n
      ensures Valid() && nodes == old(nodes) + [n] && head == old(head) && tail == n
      ensures old(tail).next == n && n.prev == old(tail) && n.next == null && n.data == old(n.data)
      ensures forall m :: m in old(nodes) ==> m.data == old(m.data)
    {
      ghost var chain := nodes;
      tail.next := n;
      n.prev := tail;
      tail := n;
      nodes := chain + [n];
      forall i, j | 0 <= i < j < |nodes| ensures nodes[i] != nodes[j] {
        if j == |chain| {
          assert nodes[i] in chain;
        }
      }
      forall i | 0 <= i < |nodes| - 1 ensures nodes[i].next == nodes[i + 1] && nodes[i + 1].prev == nodes[i] {
        if i < |chain| - 1 {
          assert nodes[i] == chain[i] != chain[|chain| - 1];
          assert nodes[i + 1] == chain[i + 1] != n;
        }
      }
    }

    /**
     * `link_nodes`: `node1.next` becomes `node2` and `node2.prev` becomes
     * `node1`; no other link, no value, and neither head nor tail changes.
     * Closing the chain into a ring, or relinking two neighbours of the
     * chain, keeps the list valid.
     */
    method LinkNodes(node1: Node<T>, node2: Node<T>)
      modifies node1, node2
      ensures node1.next == node2 && node2.prev == node1
      ensures node1 != node2 ==> node1.prev == old(node1.prev) && node2.next == old(node2.next)
      ensures node1.data == old(node1.data) && node2.data == old(node2.data)
      ensures old(Valid()) && nodes != [] && node1 == tail && node2 == head ==> Valid()
      ensures old(Valid()) && (exists i :: 0 <= i < |nodes| - 1 && node1 == nodes[i] && node2 == nodes[i + 1]) ==> Valid()
    {
      node1.next := node2;
      node2.prev := node1;
    }

    /**
     * `traverse`: the nodes from the head along `next`, stopping at the end
     * of the chain or on coming back to the head, so each node of the chain
     * exactly once and in order, whether or not the tail links back.
     */
    method Traverse() returns (visited: seq<Node<T>>)
      requires Valid()
      ensures visited == nodes
    {
      visited := [];
      var current := head;
      ghost var i := 0;
      while current != null
        invariant 0 <= i <= |nodes| && visited == nodes[..i]
        invariant current != null ==> i < |nodes| && current == nodes[i]
        invariant current == null ==> i == |nodes|
        decreases |nodes| - i
      {
        visited := visited + [current];
        current := current.next;
        i := i + 1;
        if i < |nodes| {
          assert current == nodes[i] && nodes[0] != nodes[i];
        }
        if current == head {
          break;
        }
      }
      assert visited == nodes[..i];
    }
  }

  /**
   * The script: 10, 20 and 30 appended to an empty list traverse as 10, 20,
   * 30. Then the ring the class is written for: after linking the tail back
   * to the head the traversal still returns each of the three nodes once.
   */
  method SampleRun() returns (before: seq<int>, after: seq<int>)
    ensures before == [10, 20, 30] && after == [10, 20, 30]
  {
    var dll := new DoublyLinkedList<int>();
    var n1 := dll.AddNode(10);
    var n2 := dll.AddNode(20);
    var n3 := dll.AddNode(30);
    var visited := dll.Traverse();
    before := [visited[0].data, visited[1].data, visited[2].data];
    dll.LinkNodes(n3, n1);
    visited := dll.Traverse();
    after := [visited[0].data, visited[1].data, visited[2].data];
  }

  /** The node `k` steps from `n` along `next`; the walk stays at `null` once it reaches it. */
  ghost function Walk<T>(n: Node?<T>, k: nat): (r: Node?<T>)
    reads *
    ensures n == null ==> r == null
    ensures k == 1 && n != null ==> r == n.next
  {
    if k == 0 || n == null then n else Walk(n.next, k - 1)
  }

  /** Two nodes linked to each other: the walk from the first alternates between them forever. */
  lemma {:induction false} Alternates<T>(a: Node<T>, b: Node<T>, k: nat)
    requires a.next == b && b.next == a
    ensures Walk(a, k) == if k % 2 == 0 then a else b
  {
    if k >= 2 {
      Alternates(a, b, k - 2);
      assert Walk(a, k) == Walk(b, k - 1) == Walk(a, k - 2);
    } else if k == 1 {
      assert Walk(a, 1) == Walk(b, 0);
    }
  }

  /**
   * `link_nodes(n3, n2)` on the list 10, 20, 30 closes a cycle that does not
   * pass through the head: every node the walk from the head reaches after
   * the first step is the second or the third node, never `None` and never
   * the head, so the loop of `traverse`, which stops only on `None` or on
   * coming back to the head, never ends.
   */
  method SampleInnerCycle() returns (dll: DoublyLinkedList<int>)
    ensures dll.head != null
    ensures forall k: nat | k >= 1 :: Walk(dll.head, k) != null && Walk(dll.head, k) != dll.head
  {
    dll := new DoublyLinkedList<int>();
    var n1 := dll.AddNode(10);
    var n2 := dll.AddNode(20);
    var n3 := dll.AddNode(30);
    dll.LinkNodes(n3, n2);
    assert n1.next == n2 && n2.next == n3 && n3.next == n2;
    forall k: nat | k >= 1
      ensures Walk(dll.head, k) != null && Walk(dll.head, k) != dll.head
    {
      Alternates(n2, n3, k - 1);
      assert Walk(n1, k) == Walk(n2, k - 1);
    }
  }

  /**
   * `link_nodes(n1, n3)` on the list 10, 20, 30 bypasses the second node:
   * the walk from the head reaches the third node and then `None`, so
   * `traverse` returns only the first and the third node.
   */
  method SampleBypass() returns (dll: DoublyLinkedList<int>, n1: Node<int>, n3: Node<int>)
    ensures dll.head == n1 && n1.data == 10 && n3.data == 30
    ensures Walk(n1, 1) == n3 && Walk(n1, 2) == null
  {
    dll := new DoublyLinkedList<int>();
    n1 := dll.AddNode(10);
    var n2 := dll.AddNode(20);
    n3 := dll.AddNode(30);
    dll.LinkNodes(n1, n3);
    assert Walk(n1, 2) == Walk(n3, 1);
  }
}

=== FILE: greet.dfy ===
/**
 * flask/flask_training.py: the checks and replies of the `greet` route for
 * `/api/greet/<name>`, without Flask's routing and error handlers.
 */
module Greeting {

  datatype RequestMethod = GET | POST

  /** The JSON body of a reply: a `message` or an `error`. */
  datatype Body = Message(message: string) | Error(error: string)

  datatype Response = Response(status: int, body: Body)

  const MaxNameLength := 100

  /** `any(c in name for c in ['<', '>', '{', '}', ';'])`. */
  predicate HasForbidden(name: string) {
    exists k :: 0 <= k < |name| && name[k] in {'<', '>', '{', '}', ';'}
  }

  /** The message of a successful reply. */
  function Reply(name: string, m: RequestMethod): string {
    match m
    case POST => "This is POST by " + name + "."
    case GET => "Hello, " + name + "!"
  }

  /**
   * `greet(name)`: a name longer than 100 characters gives 400 'Name too
   * long' whatever else it contains; otherwise a name with one of `< > { } ;`
   * gives 400 'Invalid characters in name'; any other name gives 200 and the
   * POST or the GET message.
   */
  function Greet(name: string, m: RequestMethod): (r: Response)
    ensures |name| > MaxNameLength ==> r == Response(400, Error("Name too long"))
    ensures |name| <= MaxNameLength && HasForbidden(name) ==> r == Response(400, Error("Invalid characters in name"))
    ensures r.status == 200 <==> |name| <= MaxNameLength && !HasForbidden(name)
    ensures r.status == 200 ==> r.body == Message(Reply(name, m))
  {
    if |name| > MaxNameLength then Response(400, Error("Name too long"))
    else if HasForbidden(name) then Response(400, Error("Invalid characters in name"))
    else Response(200, Message(Reply(name, m)))
  }

  /** The name inside a reply message: what lies between the fixed text before and after it. */
  function NameOf(message: string, m: RequestMethod): string {
    match m
    case POST => if |message| >= 17 then message[16..|message| - 1] else ""
    case GET => if |message| >= 8 then message[7..|message| - 1] else ""
  }

  /** The name greeted is the name given: a successful reply can be read back. */
  lemma GreetNameRoundTrip(name: string, m: RequestMethod)
    requires Greet(name, m).status == 200
    ensures NameOf(Greet(name, m).body.message, m) == name
  {
    var msg := Reply(name, m);
    match m
    case POST =>
      assert |"This is POST by "| == 16;
      assert msg[16..|msg| - 1] == name;
    case GET =>
      assert |"Hello, "| == 7;
      assert msg[7..|msg| - 1] == name;
  }

  /** GET 'DJ' gives 'Hello, DJ!', POST 'DJ' gives 'This is POST by DJ.'. */
  lemma SampleReplies()
    ensures Greet("DJ", GET) == Response(200, Message("Hello, DJ!"))
    ensures Greet("DJ", POST) == Response(200, Message("This is POST by DJ."))
  {
    assert !HasForbidden("DJ");
  }
}

=== FILE: instrumented_cache.dfy ===
/**
 * db3/cache_utils.py: `InstrumentedCache`, a cache that counts the lookups
 * that find their key (hits) and those that do not (misses). The TTL cache
 * underneath is a finite map from keys to values.
 */
module InstrumentedCaches {
  import opened Wrappers

  /** The `KeyError` a lookup of an absent key raises. */
  datatype KeyError = KeyError

  /** What `stats` returns; `hitRate` is a percentage. */
  datatype CacheStats = CacheStats(hits: nat, misses: nat, hitRate: real)

  /**
   * `(hits / total) * 100`, or 0 when there have been no lookups: a
   * percentage that is 100 exactly when every lookup hit and 0 exactly when
   * none did (or there were none).
   */
  function HitRate(hits: nat, misses: nat): (r: real)
    ensures 0.0 <= r <= 100.0
    ensures r == 100.0 <==> hits > 0 && misses == 0
    ensures r == 0.0 <==> hits == 0
  {
    if hits + misses > 0 then (hits as real / (hits + misses) as real) * 100.0 else 0.0
  }

  class InstrumentedCache<K(==), V> {
    var entries: map<K, V>
    var hits: nat
    var misses: nat

    /** A new cache: no entries, and no hits or misses. */
    constructor ()
      ensures entries == map[] && hits == 0 && misses == 0
    {
      entries := map[];
      hits := 0;
      misses := 0;
    }

    /** Storing an entry, as the underlying cache does. */
    method Put(key: K, value: V)
      modifies this
      ensures entries == old(entries)[key := value]
      ensures hits == old(hits) && misses == old(misses)
    {
      entries := entries[key := value];
    }

    /**
     * `__getitem__`: a present key gives its value and one more hit; an
     * absent key gives one more miss and the `KeyError` raised again. The
     * entries do not change.
     */
    method Get(key: K) returns (r: Result<V, KeyError>)
      modifies this
      ensures entries == old(entries)
      ensures key in entries ==> r == Ok(entries[key]) && hits == old(hits) + 1 && misses == old(misses)
      ensures key !in entries ==> r == Err(KeyError) && hits == old(hits) && misses == old(misses) + 1
    {
      if key in entries {
        r := Ok(entries[key]);
        hits := hits + 1;
      } else {
        misses := misses + 1;
        r := Err(KeyError);
      }
    }

    /** `stats`: the two counters and the hit rate they give. */
    function Stats(): (s: CacheStats)
      reads this
      ensures s.hits == hits && s.misses == misses
      ensures 0.0 <= s.hitRate <= 100.0 && (s.hitRate == 0.0 <==> hits == 0)
    {
      CacheStats(hits, misses, HitRate(hits, misses))
    }

    /** `reset_stats`: both counters back to 0, the entries kept. */
    method ResetStats()
      modifies this
      ensures hits == 0 && misses == 0 && entries == old(entries)
    {
      hits := 0;
      misses := 0;
    }
  }

  /**
   * A hit and a miss on a cache holding one entry: the hit returns the
   * value, the miss raises, and the rate is 50 until the counters are reset.
   */
  method SampleRun() returns (first: Result<string, KeyError>, second: Result<string, KeyError>, before: CacheStats, after: CacheStats)
    ensures first == Ok("value") && second == Err(KeyError)
    ensures before == CacheStats(1, 1, 50.0) && after == CacheStats(0, 0, 0.0)
  {
    var cache := new InstrumentedCache<string, string>();
    cache.Put("key", "value");
    first := cache.Get("key");
    second := cache.Get("other");
    before := cache.Stats();
    cache.ResetStats();
    after := cache.Stats();
  }
}

=== FILE: json_data.dfy ===
/**
 * The part of a JSON document the task-list loaders inspect after parsing:
 * whether it is a list, and whether every element of it is a string.
 */
module JsonData {
  import opened Wrappers

  /** A parsed JSON value; numbers, objects, booleans and null are all `Other`. */
  datatype Json = Str(s: string) | Array(items: seq<Json>) | Other

  /** What reading and parsing the task file produced. */
  datatype FileRead = Parsed(value: Json) | DecodeFailure | OsFailure

  /**
   * The check `isinstance(v, list) and all(isinstance(t, str) for t in v)`:
   * `Some` with the strings in order exactly when it passes.
   */
  function StringItems(v: Json): (r: Option<seq<string>>)
    ensures r.Some? <==> v.Array? && forall k :: 0 <= k < |v.items| ==> v.items[k].Str?
    ensures r.Some? ==> |r.value| == |v.items| &&
                        forall k :: 0 <= k < |v.items| ==> v.items[k] == Str(r.value[k])
  {
    match v
    case Array(items) => AllStrings(items)
    case _ => None
  }

  function AllStrings(items: seq<Json>): (r: Option<seq<string>>)
    ensures r.Some? <==> forall k :: 0 <= k < |items| ==> items[k].Str?
    ensures r.Some? ==> |r.value| == |items| &&
                        forall k :: 0 <= k < |items| ==> items[k] == Str(r.value[k])
  {
    if items == [] then Some([])
    else
      match (items[0], AllStrings(items[1..]))
      case (Str(s), Some(rest)) => Some([s] + rest)
      case (_, _) => None
  }
}

=== FILE: lists.dfy ===
/** Python list operations the models share: `count`, `index`, `remove` and `reverse`. */
module Lists {

  /** `s.count(x)`. */
  function Count<T(==)>(s: seq<T>, x: T): nat
  {
    if s == [] then 0 else (if s[0] == x then 1 else 0) + Count(s[1..], x)
  }

  lemma {:induction false} CountAppend<T>(s: seq<T>, t: seq<T>, x: T)
    ensures Count(s + t, x) == Count(s, x) + Count(t, x)
  {
    if s != [] {
      assert s + t != [] && (s + t)[0] == s[0];
      assert (s + t)[1..] == s[1..] + t;
      CountAppend(s[1..], t, x);
    } else {
      assert s + t == t;
    }
  }

  /** `x in s` holds exactly when `s.count(x) > 0`. */
  lemma {:induction false} CountPositive<T>(s: seq<T>, x: T)
    ensures Count(s, x) > 0 <==> x in s
  {
    if s != [] {
      CountPositive(s[1..], x);
      assert x in s <==> s[0] == x || x in s[1..];
    }
  }

  /** The position of the first occurrence of `x`, as `s.index(x)`. */
  function IndexOf<T(==)>(s: seq<T>, x: T): (i: nat)
    requires x in s
    ensures i < |s| && s[i] == x && x !in s[..i]
  {
    if s[0] == x then 0 else 1 + IndexOf(s[1..], x)
  }

  /**
   * `s.remove(x)`: drops the first occurrence of `x` and nothing else, so the
   * count of `x` falls by one and every other count is unchanged.
   */
  function RemoveFirst<T(==,!new)>(s: seq<T>, x: T): (r: seq<T>)
    requires x in s
    ensures |r| == |s| - 1
    ensures r == s[..IndexOf(s, x)] + s[IndexOf(s, x) + 1..]
    ensures Count(r, x) == Count(s, x) - 1
    ensures forall y :: y != x ==> Count(r, y) == Count(s, y)
  {
    var i := IndexOf(s, x);
    var r := s[..i] + s[i + 1..];
    assert s == s[..i] + ([s[i]] + s[i + 1..]);
    CountAppend(s[..i], [s[i]] + s[i + 1..], x);
    CountAppend([s[i]], s[i + 1..], x);
    CountAppend(s[..i], s[i + 1..], x);
    forall y | y != x ensures Count(r, y) == Count(s, y) {
      CountAppend(s[..i], [s[i]] + s[i + 1..], y);
      CountAppend([s[i]], s[i + 1..], y);
      CountAppend(s[..i], s[i + 1..], y);
    }
    r
  }

  /** `list.reverse()` and `reversed`: the last element first. */
  function Reverse<T>(s: seq<T>): (r: seq<T>)
    ensures |r| == |s|
    ensures forall k :: 0 <= k < |s| ==> r[k] == s[|s| - 1 - k]
  {
    if s == [] then [] else Reverse(s[1..]) + [s[0]]
  }

  /** Reversing twice gives the original back. */
  lemma {:induction false} ReverseReverse<T>(s: seq<T>)
    ensures Reverse(Reverse(s)) == s
  {
    assert forall k :: 0 <= k < |s| ==> Reverse(Reverse(s))[k] == s[k];
  }

  predicate InRange(x: int, n: int) {
    0 <= x < n
  }

  /** `range(n)`, as a set. */
  function Range(n: nat): (r: set<int>)
    ensures forall x :: x in r <==> InRange(x, n)
  {
    set x | 0 <= x < n && InRange(x, n)
  }

  /** `range(n)` has `n` elements. */
  lemma {:induction false} RangeSize(n: nat)
    ensures |Range(n)| == n
  {
    if n > 0 {
      RangeSize(n - 1);
      assert Range(n) == Range(n - 1) + {n - 1};
    }
  }

  /** A subset is no larger than its superset. */
  lemma SubsetSize<T>(a: set<T>, b: set<T>)
    requires a <= b
    ensures |a| <= |b|
  {
    assert b == (b - a) + a;
    assert |b| == |b - a| + |a|;
  }
}

=== FILE: magic_core.dfy ===
/**
 * What the magic summation scripts in magic_summation/ share. Each builds
 * the list 1..n, deletes positions drawn at random, replaces every element
 * but the last by the floor quotient of its right neighbour and itself, and
 * sums the result. The random draw is an input here: the index set, or the
 * order in which a script iterates over it.
 */
module MagicCore {
  import opened Wrappers
  import opened Lists

  /** The argument `n`: an `int`, or a `float`, which fails `isinstance(n, int)`. */
  datatype Arg = IntArg(value: int) | FloatArg(approx: real)

  /** What a script returns: an error message, or the summation. */
  datatype Outcome = Message(text: string) | Value(sum: int)

  const TooSmall := "n cannot be less than or equal to 2"
  const NotInteger := "n must be an integer"

  /** `n <= 2`, for an int or a float. */
  predicate AtMostTwo(n: Arg) {
    match n
    case IntArg(v) => v <= 2
    case FloatArg(r) => r <= 2.0
  }

  /** The original's validation: `n <= 2` is checked before `isinstance(n, int)`. */
  function CheckSizeFirst(n: Arg): (r: Option<string>)
    ensures r.None? <==> n.IntArg? && n.value > 2
  {
    if AtMostTwo(n) then Some(TooSmall)
    else if !n.IntArg? then Some(NotInteger)
    else None
  }

  /** The later versions' validation: `isinstance(n, int)` is checked before `n <= 2`. */
  function CheckIntegerFirst(n: Arg): (r: Option<string>)
    ensures r.None? <==> n.IntArg? && n.value > 2
  {
    if !n.IntArg? then Some(NotInteger)
    else if AtMostTwo(n) then Some(TooSmall)
    else None
  }

  /** On an `int` the two orders of validation agree. */
  lemma ChecksAgreeOnIntegers(n: Arg)
    requires n.IntArg?
    ensures CheckSizeFirst(n) == CheckIntegerFirst(n)
  {
  }

  /** On a `float` no larger than 2 they differ: the original complains about the size. */
  lemma ChecksDifferOnSmallFloats(n: Arg)
    requires n.FloatArg? && n.approx <= 2.0
    ensures CheckSizeFirst(n) == Some(TooSmall) && CheckIntegerFirst(n) == Some(NotInteger)
  {
  }

  // ------------------------------------------------------------ the list

  /** `list(range(1, n + 1))`. */
  function OneTo(n: nat): (r: seq<int>)
    ensures |r| == n && forall i :: 0 <= i < n ==> r[i] == i + 1
  {
    seq(n, i => i + 1)
  }

  /** Positive and strictly increasing, as 1..n and every list obtained from it by deletions. */
  predicate Ascending(s: seq<int>) {
    (forall i :: 0 <= i < |s| ==> s[i] >= 1) &&
    (forall i, j :: 0 <= i < j < |s| ==> s[i] < s[j])
  }

  /** No element repeats: the order in which a set is iterated. */
  predicate Distinct(s: seq<int>) {
    forall i, j :: 0 <= i < j < |s| ==> s[i] != s[j]
  }

  /** The elements of a sequence, as a set. */
  function Elements(s: seq<int>): (r: set<int>)
    ensures forall x :: x in r <==> x in s
  {
    set x | x in s
  }

  /** `del s[i]`. */
  function DeleteAt(s: seq<int>, i: int): seq<int>
    requires 0 <= i < |s|
  {
    s[..i] + s[i + 1..]
  }

  lemma DeleteAtAscending(s: seq<int>, i: int)
    requires Ascending(s) && 0 <= i < |s|
    ensures Ascending(DeleteAt(s, i)) && |DeleteAt(s, i)| == |s| - 1
    ensures forall x :: x in DeleteAt(s, i) ==> x in s
  {
    var r := DeleteAt(s, i);
    assert forall k :: 0 <= k < |r| ==> r[k] == if k < i then s[k] else s[k + 1];
  }

  // ------------------------------------------- deletion without shifting

  /**
   * `for idx in order: if 0 <= idx < len(s): del s[idx]`: each index is
   * applied to the list as the earlier deletions left it, and an index
   * beyond its end is skipped.
   */
  function DeleteEach(s: seq<int>, order: seq<int>): seq<int>
    decreases |order|
  {
    if order == [] then s
    else DeleteEach(if 0 <= order[0] < |s| then DeleteAt(s, order[0]) else s, order[1..])
  }

  /**
   * Deleting keeps the list positive and strictly increasing, keeps only
   * elements it had, and removes at most one element per index.
   */
  lemma {:induction false} DeleteEachShape(s: seq<int>, order: seq<int>)
    requires Ascending(s)
    ensures Ascending(DeleteEach(s, order))
    ensures |s| - |order| <= |DeleteEach(s, order)| <= |s|
    ensures forall x :: x in DeleteEach(s, order) ==> x in s
    decreases |order|
  {
    if order != [] {
      var next := if 0 <= order[0] < |s| then DeleteAt(s, order[0]) else s;
      if 0 <= order[0] < |s| {
        DeleteAtAscending(s, order[0]);
      }
      DeleteEachShape(next, order[1..]);
    }
  }

  /** The deletion loop of magic_summation.py and magic_summation_optimized.py. */
  method DeleteUnshifted(list: seq<int>, order: seq<int>) returns (result: seq<int>)
    ensures result == DeleteEach(list, order)
  {
    result := list;
    for k := 0 to |order|
      invariant DeleteEach(result, order[k..]) == DeleteEach(list, order)
    {
      assert order[k..][1..] == order[k + 1..];
      var idx := order[k];
      if 0 <= idx < |result| {
        result := result[..idx] + result[idx + 1..];
      }
    }
  }

  /**
   * Deleting positions one after the other is not deleting the positions of
   * the original list: from [1, 2, 3], the indices 0 then 1 remove 1 and 3.
   */
  lemma UnshiftedIsNotPositional()
    ensures DeleteEach([1, 2, 3], [0, 1]) == [2]
    ensures Survivors([1, 2, 3], {0, 1}) == [3]
  {
    assert DeleteAt([1, 2, 3], 0) == [2, 3];
    assert DeleteAt([2, 3], 1) == [2];
    assert [0, 1][1..] == [1];
    assert [1, 2, 3][..2] == [1, 2] && [1, 2][..1] == [1] && [1][..0] == [];
  }

  // ---------------------------------------------- deletion by position

  /** `[v for i, v in enumerate(s) if i not in indices]`. */
  function Survivors(s: seq<int>, indices: set<int>): seq<int> {
    if s == [] then []
    else Survivors(s[..|s| - 1], indices) + (if |s| - 1 in indices then [] else [s[|s| - 1]])
  }

  /** Deleting no position keeps the list. */
  lemma {:induction false} SurvivorsNone(s: seq<int>)
    ensures Survivors(s, {}) == s
  {
    if s != [] {
      SurvivorsNone(s[..|s| - 1]);
    }
  }

  /** Exactly the elements at positions outside `indices` survive. */
  lemma {:induction false} SurvivorsMembers(s: seq<int>, indices: set<int>)
    ensures forall x :: x in Survivors(s, indices) <==> exists i :: 0 <= i < |s| && i !in indices && s[i] == x
  {
    if s != [] {
      var init := s[..|s| - 1];
      SurvivorsMembers(init, indices);
      forall x ensures x in Survivors(s, indices) <==> exists i :: 0 <= i < |s| && i !in indices && s[i] == x {
        if x in Survivors(init, indices) {
          var i :| 0 <= i < |init| && i !in indices && init[i] == x;
          assert s[i] == x;
        }
        if exists i :: 0 <= i < |s| && i !in indices && s[i] == x {
          var i :| 0 <= i < |s| && i !in indices && s[i] == x;
          if i < |s| - 1 {
            assert init[i] == x;
          }
        }
      }
    }
  }

  /** The survivors keep their order: from a positive, strictly increasing list they are too. */
  lemma {:induction false} SurvivorsAscending(s: seq<int>, indices: set<int>)
    requires Ascending(s)
    ensures Ascending(Survivors(s, indices))
  {
    if s != [] {
      var init := s[..|s| - 1];
      var head := Survivors(init, indices);
      SurvivorsAscending(init, indices);
      SurvivorsMembers(init, indices);
      forall k | 0 <= k < |head| ensures head[k] < s[|s| - 1] {
        assert head[k] in head;
      }
    }
  }

  /** From 1..n the survivors are the values `k + 1` whose index `k` was not drawn. */
  lemma SurvivorsOfOneTo(n: nat, indices: set<int>)
    ensures Ascending(Survivors(OneTo(n), indices))
    ensures forall x :: x in Survivors(OneTo(n), indices) <==> 1 <= x <= n && x - 1 !in indices
  {
    SurvivorsMembers(OneTo(n), indices);
    SurvivorsAscending(OneTo(n), indices);
    forall x | 1 <= x <= n && x - 1 !in indices ensures x in Survivors(OneTo(n), indices) {
      assert OneTo(n)[x - 1] == x;
    }
  }

  /** One element survives per position outside `indices`. */
  lemma {:induction false} SurvivorsLength(s: seq<int>, indices: set<int>)
    ensures |Survivors(s, indices)| + |indices * Range(|s|)| == |s|
  {
    if s != [] {
      var m := |s| - 1;
      SurvivorsLength(s[..m], indices);
      assert |s[..m]| == m;
      if m in indices {
        assert indices * Range(|s|) == indices * Range(m) + {m};
      } else {
        assert indices * Range(|s|) == indices * Range(m);
      }
    }
  }

  /** Positions at or beyond `|s|` make no difference. */
  lemma {:induction false} SurvivorsWithin(s: seq<int>, a: set<int>, b: set<int>)
    requires forall i :: 0 <= i < |s| ==> (i in a <==> i in b)
    ensures Survivors(s, a) == Survivors(s, b)
  {
    if s != [] {
      SurvivorsWithin(s[..|s| - 1], a, b);
    }
  }

  /** When no position from `m` on is deleted, the tail from `m` survives whole. */
  lemma {:induction false} SurvivorsSplit(s: seq<int>, indices: set<int>, m: nat)
    requires m <= |s| && forall i :: i in indices ==> i < m
    ensures Survivors(s, indices) == Survivors(s[..m], indices) + s[m..]
    decreases |s|
  {
    if |s| == m {
      assert s[..m] == s;
    } else {
      var init := s[..|s| - 1];
      SurvivorsSplit(init, indices, m);
      assert init[..m] == s[..m];
      assert init[m..] + [s[|s| - 1]] == s[m..];
    }
  }

  /** The survivors below position `m` number `m - shift` when those from `m` on are all kept. */
  lemma HeadLength(s: seq<int>, done: set<int>, m: int, shift: int)
    requires 0 <= m <= |s| && forall i :: i in done ==> i < m
    requires |Survivors(s, done)| == |s| - shift
    ensures |Survivors(s[..m], done)| == m - shift
    ensures Survivors(s, done) == Survivors(s[..m], done) + s[m..]
  {
    var low := set i | i in done && 0 <= i;
    SurvivorsWithin(s, done, low);
    SurvivorsSplit(s, low, m);
    SurvivorsWithin(s[..m], done, low);
  }

  /** Deleting position `m` as well drops `s[m]` from that split. */
  lemma DropPosition(s: seq<int>, done: set<int>, m: int)
    requires 0 <= m < |s| && forall i :: i in done ==> i < m
    ensures Survivors(s, done + {m}) == Survivors(s[..m], done) + s[m + 1..]
  {
    var low := set i | i in done && 0 <= i;
    SurvivorsWithin(s, done + {m}, low + {m});
    SurvivorsSplit(s, low + {m}, m + 1);
    var t := s[..m + 1];
    assert t[..m] == s[..m];
    assert Survivors(t, low + {m}) == Survivors(s[..m], low + {m});
    SurvivorsWithin(s[..m], low + {m}, done);
  }

  /**
   * One turn of the shifted loop. When every index handled so far lies below
   * `idx` and `shift` counts the deleted elements, `idx - shift` is in range
   * exactly when `idx` is a position of the original list, and deleting it
   * there deletes that original position.
   */
  lemma ShiftedStep(s: seq<int>, done: set<int>, idx: int, shift: int)
    requires forall i :: i in done ==> i < idx
    requires 0 <= shift && |Survivors(s, done)| == |s| - shift
    ensures 0 <= idx - shift < |Survivors(s, done)| <==> 0 <= idx < |s|
    ensures 0 <= idx < |s| ==> DeleteAt(Survivors(s, done), idx - shift) == Survivors(s, done + {idx})
    ensures !(0 <= idx < |s|) ==> Survivors(s, done) == Survivors(s, done + {idx})
  {
    if 0 <= idx < |s| {
      HeadLength(s, done, idx, shift);
      DropPosition(s, done, idx);
      var head := Survivors(s[..idx], done);
      assert Survivors(s, done) == head + s[idx..];
      assert DeleteAt(head + s[idx..], idx - shift) == head + s[idx + 1..];
    } else {
      SurvivorsWithin(s, done, done + {idx});
    }
  }

  /** The least element of a non-empty list. */
  function Minimum(s: seq<int>): (m: int)
    requires s != []
    ensures m in s && forall x :: x in s ==> m <= x
  {
    if |s| == 1 then s[0]
    else
      var m := Minimum(s[1..]);
      assert forall x :: x in s ==> x == s[0] || x in s[1..];
      if s[0] <= m then s[0] else m
  }

  /** The list without any occurrence of `v`. */
  function Without(s: seq<int>, v: int): (r: seq<int>)
    ensures |r| <= |s| && (v in s ==> |r| < |s|)
    ensures forall x :: x in r <==> x in s && x != v
  {
    if s == [] then []
    else
      assert forall x :: x in s ==> x == s[0] || x in s[1..];
      (if s[0] == v then [] else [s[0]]) + Without(s[1..], v)
  }

  /** `sorted(set(draws))`: the distinct values drawn, in strictly increasing order. */
  function SortedElements(draws: seq<int>): (r: seq<int>)
    ensures forall x :: x in r <==> x in draws
    ensures forall i, j :: 0 <= i < j < |r| ==> r[i] < r[j]
    decreases |draws|
  {
    if draws == [] then []
    else
      var m := Minimum(draws);
      var rest := SortedElements(Without(draws, m));
      assert forall k :: 0 <= k < |rest| ==> rest[k] in rest;
      [m] + rest
  }

  /**
   * The deletion loop of magic_summation_3.py and magic_summation_test_2.py:
   * over the indices in increasing order, delete at `idx - shift` when that
   * is in range and count the deletion in `shift`. It deletes exactly the
   * listed positions of the original list.
   */
  method DeleteShifted(list: seq<int>, sorted: seq<int>) returns (result: seq<int>)
    requires forall i, j :: 0 <= i < j < |sorted| ==> sorted[i] < sorted[j]
    ensures result == Survivors(list, Elements(sorted))
  {
    result := list;
    var shift := 0;
    ghost var done: set<int> := {};
    SurvivorsNone(list);
    for k := 0 to |sorted|
      invariant forall x :: x in done <==> x in sorted[..k]
      invariant result == Survivors(list, done)
      invariant 0 <= shift && |result| == |list| - shift
    {
      var idx := sorted[k];
      assert forall x :: x in done ==> x < idx;
      ShiftedStep(list, done, idx, shift);
      var adjusted := idx - shift;
      if 0 <= adjusted < |result| {
        result := result[..adjusted] + result[adjusted + 1..];
        shift := shift + 1;
      }
      done := done + {idx};
      assert sorted[..k + 1] == sorted[..k] + [idx];
    }
    assert sorted[..|sorted|] == sorted;
    assert forall x :: x in done <==> x in Elements(sorted);
    assert done == Elements(sorted);
  }

  /** No repeats means one set element per list element. */
  lemma {:induction false} DistinctElements(s: seq<int>)
    requires Distinct(s)
    ensures |Elements(s)| == |s|
  {
    if s != [] {
      var init := s[..|s| - 1];
      DistinctElements(init);
      assert Elements(s) == Elements(init) + {s[|s| - 1]};
      assert s[|s| - 1] !in Elements(init);
    }
  }

  // ------------------------------------------------ what survives of 1..n

  /**
   * What is left of 1..n after deleting without shifting: positive, strictly
   * increasing, and at least one element shorter per index.
   */
  function Unshifted(n: nat, order: seq<int>): (r: seq<int>)
    ensures Ascending(r) && n - |order| <= |r| <= n
    ensures forall x :: x in r ==> 1 <= x <= n
  {
    DeleteEachShape(OneTo(n), order);
    DeleteEach(OneTo(n), order)
  }

  /**
   * What is left of 1..n after deleting the positions in `indices`: the
   * values `k + 1` for the positions `k` not deleted, in increasing order,
   * one per position of 0..n-1 outside `indices`.
   */
  function Positional(n: nat, indices: set<int>): (r: seq<int>)
    ensures Ascending(r) && |r| + |indices * Range(n)| == n
    ensures forall x :: x in r <==> 1 <= x <= n && x - 1 !in indices
  {
    SurvivorsOfOneTo(n, indices);
    SurvivorsLength(OneTo(n), indices);
    Survivors(OneTo(n), indices)
  }

  /** With fewer indices than elements, something survives. */
  lemma PositionalNonEmpty(n: nat, indices: set<int>)
    requires |indices| < n
    ensures Positional(n, indices) != []
  {
    SubsetSize(indices * Range(n), indices);
  }

  // ------------------------------------------------ transform and sum

  /**
   * `[s[i + 1] // s[i] if i < len(s) - 1 else s[i] for i in range(len(s))]`:
   * every element but the last becomes the floor quotient of its right
   * neighbour by itself, and the last is kept. Python's `//` floors; on a
   * positive divisor so does Dafny's `/`.
   */
  function Transformed(s: seq<int>): (r: seq<int>)
    requires forall i :: 0 <= i < |s| ==> s[i] > 0
    ensures |r| == |s|
  {
    seq(|s|, i requires 0 <= i < |s| => if i < |s| - 1 then s[i + 1] / s[i] else s[i])
  }

  /** `a // b` for `b > 0`: the largest `q` with `q * b <= a`. */
  lemma FloorQuotient(a: int, b: int)
    requires b > 0
    ensures (a / b) * b <= a < (a / b + 1) * b
  {
    var q := a / b;
    assert a == b * q + a % b;
    assert (q + 1) * b == q * b + b;
  }

  /**
   * What the transform computes: each element but the last is the floor
   * quotient of its right neighbour by it, and the last is kept.
   */
  lemma TransformedQuotients(s: seq<int>)
    requires forall i :: 0 <= i < |s| ==> s[i] > 0
    ensures forall i :: 0 <= i < |s| - 1 ==>
              Transformed(s)[i] * s[i] <= s[i + 1] < (Transformed(s)[i] + 1) * s[i]
    ensures s != [] ==> Transformed(s)[|s| - 1] == s[|s| - 1]
  {
    forall i | 0 <= i < |s| - 1
      ensures Transformed(s)[i] * s[i] <= s[i + 1] < (Transformed(s)[i] + 1) * s[i]
    {
      FloorQuotient(s[i + 1], s[i]);
    }
  }

  /** A quotient of a number by a positive one no larger than it is at least 1. */
  lemma QuotientAtLeastOne(a: int, b: int)
    requires 0 < b <= a
    ensures a / b >= 1
  {
    FloorQuotient(a, b);
  }

  /** `sum`. */
  function Sum(s: seq<int>): int {
    if s == [] then 0 else Sum(s[..|s| - 1]) + s[|s| - 1]
  }

  /** A sum of numbers that are each at least 1 is at least their count. */
  lemma {:induction false} SumAtLeastCount(s: seq<int>)
    requires forall i :: 0 <= i < |s| ==> s[i] >= 1
    ensures Sum(s) >= |s|
  {
    if s != [] {
      SumAtLeastCount(s[..|s| - 1]);
    }
  }

  /** The summation of a positive list: the sum of its transform. */
  function MagicValue(s: seq<int>): int
    requires forall i :: 0 <= i < |s| ==> s[i] > 0
  {
    Sum(Transformed(s))
  }

  /**
   * On a strictly increasing list every quotient is at least 1, so the
   * summation is at least the number of quotients plus the last element.
   */
  lemma MagicValueBound(s: seq<int>)
    requires Ascending(s) && s != []
    ensures MagicValue(s) >= |s| - 1 + s[|s| - 1]
  {
    var t := Transformed(s);
    forall i | 0 <= i < |s| - 1 ensures t[i] >= 1 {
      assert s[i] < s[i + 1];
      QuotientAtLeastOne(s[i + 1], s[i]);
    }
    SumAtLeastCount(t[..|s| - 1]);
  }

  /** `for i in range(len(s) - 1): s[i] = s[i + 1] // s[i]`, overwriting the list in place. */
  method TransformInPlace(list: seq<int>) returns (result: seq<int>)
    requires forall i :: 0 <= i < |list| ==> list[i] > 0
    ensures result == Transformed(list)
  {
    result := list;
    var i := 0;
    while i < |result| - 1
      invariant |result| == |list| && 0 <= i <= |list|
      invariant forall k :: 0 <= k < i ==> result[k] == Transformed(list)[k]
      invariant forall k :: i <= k < |list| ==> result[k] == list[k]
    {
      result := result[i := result[i + 1] / result[i]];
      i := i + 1;
    }
  }

  /**
   * The transform loop of magic_summation.py: over every position, with the
   * last one left alone by the guard `i < len(s) - 1`.
   */
  method TransformGuarded(list: seq<int>) returns (result: seq<int>)
    requires forall i :: 0 <= i < |list| ==> list[i] > 0
    ensures result == Transformed(list)
  {
    result := list;
    for i := 0 to |result|
      invariant |result| == |list|
      invariant forall k :: 0 <= k < i ==> result[k] == Transformed(list)[k]
      invariant forall k :: i <= k < |list| ==> result[k] == list[k]
    {
      if i < |result| - 1 {
        result := result[i := result[i + 1] / result[i]];
      }
    }
  }

  /** Adding up what a generator over the list yields, one `next` at a time. */
  method Accumulate(list: seq<int>) returns (total: int)
    ensures total == Sum(list)
  {
    total := 0;
    for k := 0 to |list|
      invariant total == Sum(list[..k])
    {
      assert list[..k + 1][..k] == list[..k];
      total := total + list[k];
    }
    assert list[..|list|] == list;
  }
}

=== FILE: magic_summation.dfy ===
/** magic_summation/magic_summation.py: the original script. */
module MagicSummation {
  import opened MagicCore

  /**
   * `magic_summation(n)`, with the random index set given as the order in
   * which the loop visits it. It tests `n <= 2` before `isinstance(n, int)`,
   * returns 0 when as many indices were drawn as the list has elements, and
   * otherwise deletes without shifting, transforms, and adds up what the
   * generator yields.
   */
  method MagicSummation(n: Arg, order: seq<int>) returns (r: Outcome)
    requires Distinct(order)
    ensures CheckSizeFirst(n).Some? ==> r == Message(CheckSizeFirst(n).value)
    ensures CheckSizeFirst(n).None? && |order| == n.value ==> r == Value(0)
    ensures CheckSizeFirst(n).None? && |order| != n.value ==> r == Value(MagicValue(Unshifted(n.value, order)))
  {
    if AtMostTwo(n) {
      return Message(TooSmall);
    } else if !n.IntArg? {
      return Message(NotInteger);
    }
    var list := OneTo(n.value);
    if |order| == |list| {
      return Value(0);
    }
    list := DeleteUnshifted(list, order);
    assert list == Unshifted(n.value, order);
    list := TransformGuarded(list);
    var total := Accumulate(list);
    r := Value(total);
  }
}

=== FILE: magic_summation_3.dfy ===
/** magic_summation/magic_summation_3.py: sorted deletion with a running shift. */
module MagicSummation3 {
  import opened MagicCore

  /**
   * `magic_summation(n)`, with the random draws as input. It tests
   * `isinstance(n, int)` first, returns 0 when the set of drawn indices is as
   * large as the list, and otherwise deletes the drawn positions of 1..n and
   * sums the transform of what is left.
   */
  method MagicSummation3(n: Arg, draws: seq<int>) returns (r: Outcome)
    ensures CheckIntegerFirst(n).Some? ==> r == Message(CheckIntegerFirst(n).value)
    ensures CheckIntegerFirst(n).None? && |Elements(draws)| == n.value ==> r == Value(0)
    ensures CheckIntegerFirst(n).None? && |Elements(draws)| != n.value ==>
              r == Value(MagicValue(Positional(n.value, Elements(draws))))
  {
    if !n.IntArg? {
      return Message(NotInteger);
    }
    if AtMostTwo(n) {
      return Message(TooSmall);
    }
    var list := OneTo(n.value);
    var indices := Elements(draws);
    if |indices| == |list| {
      return Value(0);
    }
    var sorted := SortedElements(draws);
    list := DeleteShifted(list, sorted);
    assert forall x :: x in Elements(sorted) <==> x in indices;
    assert Elements(sorted) == indices;
    assert list == Positional(n.value, indices);
    r := Value(Sum(Transformed(list)));
  }
}

=== FILE: magic_summation_optimized.dfy ===
/** magic_summation/magic_summation_optimized.py: deletion without shifting and an in-place transform. */
module MagicSummationOptimized {
  import opened MagicCore
  import MagicSummation

  /**
   * `magic_summation(n)`, with the random index set given as the order in
   * which the loop visits it. It tests `isinstance(n, int)` first, returns 0
   * when as many indices were drawn as the list has elements, and otherwise
   * deletes without shifting, transforms in place and sums.
   */
  method MagicSummationOptimized(n: Arg, order: seq<int>) returns (r: Outcome)
    requires Distinct(order)
    ensures CheckIntegerFirst(n).Some? ==> r == Message(CheckIntegerFirst(n).value)
    ensures CheckIntegerFirst(n).None? && |order| == n.value ==> r == Value(0)
    ensures CheckIntegerFirst(n).None? && |order| != n.value ==> r == Value(MagicValue(Unshifted(n.value, order)))
  {
    if !n.IntArg? {
      return Message(NotInteger);
    }
    if AtMostTwo(n) {
      return Message(TooSmall);
    }
    var list := OneTo(n.value);
    if |order| == |list| {
      return Value(0);
    }
    list := DeleteUnshifted(list, order);
    assert list == Unshifted(n.value, order);
    list := TransformInPlace(list);
    r := Value(Sum(list));
  }

  /**
   * On an `int` this version and the original return the same; on a `float`
   * no larger than 2 they return different messages.
   */
  method AgreesWithOriginal(n: Arg, order: seq<int>) returns (original: Outcome, optimized: Outcome)
    requires Distinct(order)
    ensures n.IntArg? ==> original == optimized
    ensures n.FloatArg? && n.approx <= 2.0 ==> original == Message(TooSmall) && optimized == Message(NotInteger)
  {
    original := MagicSummation.MagicSummation(n, order);
    optimized := MagicSummationOptimized(n, order);
  }
}

=== FILE: magic_summation_optimized_2.dfy ===
/** magic_summation/magic_summation_optimized_2.py: a filter comprehension and a generator sum. */
module MagicSummationOptimized2 {
  import opened MagicCore
  import opened Lists
  import MagicSummation3

  /**
   * `magic_summation(n)`, with the values `randint` drew as input: the
   * integer test first, 0 once the set of drawn indices is at least as large
   * as the list, and otherwise the summation of what survives at the
   * positions not drawn.
   */
  function MagicSummationOptimized2(n: Arg, draws: seq<int>): Outcome {
    if !n.IntArg? then Message(NotInteger)
    else if AtMostTwo(n) then Message(TooSmall)
    else if |Elements(draws)| >= n.value then Value(0)
    else Value(MagicValue(Positional(n.value, Elements(draws))))
  }

  /**
   * The messages follow the integer-first validation, and a summation that is
   * not 0 adds one quotient of at least 1 per survivor but the last, plus the
   * last survivor.
   */
  lemma Optimized2Outcome(n: Arg, draws: seq<int>)
    ensures MagicSummationOptimized2(n, draws).Message? <==> CheckIntegerFirst(n).Some?
    ensures CheckIntegerFirst(n).Some? ==> MagicSummationOptimized2(n, draws).text == CheckIntegerFirst(n).value
    ensures CheckIntegerFirst(n).None? && |Elements(draws)| < n.value ==>
              var left := Positional(n.value, Elements(draws));
              left != [] && MagicSummationOptimized2(n, draws).sum >= |left| - 1 + left[|left| - 1]
  {
    if CheckIntegerFirst(n).None? && |Elements(draws)| < n.value {
      var left := Positional(n.value, Elements(draws));
      PositionalNonEmpty(n.value, Elements(draws));
      MagicValueBound(left);
    }
  }

  /**
   * `randint(0, n)` draws from 0..n-1, so the set cannot outgrow the list, the
   * tests `>=` here and `==` in magic_summation_3.py agree, and both scripts
   * return the same for the same draws.
   */
  method AgreesWithVersion3(n: Arg, draws: seq<int>) returns (r3: Outcome)
    requires n.IntArg? ==> forall x :: x in draws ==> 0 <= x < n.value
    ensures r3 == MagicSummationOptimized2(n, draws)
  {
    r3 := MagicSummation3.MagicSummation3(n, draws);
    if n.IntArg? && n.value > 2 {
      SubsetSize(Elements(draws), Range(n.value));
      RangeSize(n.value);
    }
  }
}

=== FILE: magic_summation_optimized_3.dfy ===
/** magic_summation/magic_summation_optimized_3.py: indices drawn without replacement. */
module MagicSummationOptimized3 {
  import opened MagicCore
  import MagicSummationOptimized2

  /**
   * `magic_summation(n)`, with the array `choice` returned as input: the
   * integer test first, 0 once the array is at least as long as the list, and
   * otherwise the summation of what survives at the positions not in it.
   */
  function MagicSummationOptimized3(n: Arg, indices: seq<int>): Outcome {
    if !n.IntArg? then Message(NotInteger)
    else if AtMostTwo(n) then Message(TooSmall)
    else if |indices| >= n.value then Value(0)
    else Value(MagicValue(Positional(n.value, Elements(indices))))
  }

  /**
   * `choice(n, size, replace=False)` returns distinct indices, so its length
   * is the size of its set, and the result is the one of
   * magic_summation_optimized_2.py for the same values.
   */
  lemma SameAsOptimized2(n: Arg, indices: seq<int>)
    requires Distinct(indices)
    ensures MagicSummationOptimized3(n, indices) == MagicSummationOptimized2.MagicSummationOptimized2(n, indices)
  {
    DistinctElements(indices);
  }

  /** Without the distinctness that `replace=False` gives, the two can differ: [0, 0] out of 3. */
  lemma RepeatsMatter()
    ensures MagicSummationOptimized3(IntArg(3), [0, 0, 0]) == Value(0)
    ensures MagicSummationOptimized2.MagicSummationOptimized2(IntArg(3), [0, 0, 0]) != Value(0)
  {
    assert Elements([0, 0, 0]) == {0};
    var left := Positional(3, {0});
    assert 2 in left && 3 in left;
    MagicValueBound(left);
  }
}

=== FILE: magic_summation_test.dfy ===
/**
 * magic_summation/magic_summation_test.py: `magic_summation_original` is the
 * function of magic_summation.py and `magic_summation_optimized` the one of
 * magic_summation_optimized.py, statement for statement; the script times
 * the two against each other.
 */
module MagicSummationTest {
  import opened MagicCore
  import MagicSummation
  import MagicSummationOptimized

  /**
   * Both versions on the same input and the same visiting order of the drawn
   * set: on an `int` they return the same, and that is 0 or the summation of
   * a non-empty survivor list; on a `float` no larger than 2 the original
   * complains about the size and the optimized version about the type.
   */
  method CompareVersions(n: Arg, order: seq<int>) returns (original: Outcome, optimized: Outcome)
    requires Distinct(order)
    requires n.IntArg? ==> forall x :: x in order ==> 0 <= x < n.value
    ensures n.IntArg? ==> original == optimized
    ensures n.IntArg? && n.value > 2 ==>
              original == Value(0) || original == Value(MagicValue(Unshifted(n.value, order)))
    ensures n.IntArg? && n.value > 2 && |order| < n.value ==> Unshifted(n.value, order) != []
    ensures n.FloatArg? && n.approx <= 2.0 ==> original == Message(TooSmall) && optimized == Message(NotInteger)
  {
    original := MagicSummation.MagicSummation(n, order);
    optimized := MagicSummationOptimized.MagicSummationOptimized(n, order);
  }
}

=== FILE: magic_summation_test_2.dfy ===
/**
 * magic_summation/magic_summation_test_2.py: `magic_summation_original` is
 * the function of magic_summation_3.py; `magic_summation_optimized` deletes
 * the same way and then transforms in place.
 */
module MagicSummationTest2 {
  import opened MagicCore
  import MagicSummation3

  /**
   * `magic_summation_optimized`: the integer test first, 0 when the set of
   * drawn indices is as large as the list, and otherwise sorted deletion with
   * a running shift, an in-place transform and a sum.
   */
  method MagicSummationOptimized(n: Arg, draws: seq<int>) returns (r: Outcome)
    ensures CheckIntegerFirst(n).Some? ==> r == Message(CheckIntegerFirst(n).value)
    ensures CheckIntegerFirst(n).None? && |Elements(draws)| == n.value ==> r == Value(0)
    ensures CheckIntegerFirst(n).None? && |Elements(draws)| != n.value ==>
              r == Value(MagicValue(Positional(n.value, Elements(draws))))
  {
    if !n.IntArg? {
      return Message(NotInteger);
    }
    if AtMostTwo(n) {
      return Message(TooSmall);
    }
    var list := OneTo(n.value);
    var indices := Elements(draws);
    if |indices| == |list| {
      return Value(0);
    }
    var sorted := SortedElements(draws);
    list := DeleteShifted(list, sorted);
    assert forall x :: x in Elements(sorted) <==> x in indices;
    assert Elements(sorted) == indices;
    assert list == Positional(n.value, indices);
    list := TransformInPlace(list);
    r := Value(Sum(list));
  }

  /** The two versions return the same for every input and every draw. */
  method CompareVersions(n: Arg, draws: seq<int>) returns (original: Outcome, optimized: Outcome)
    ensures original == optimized
    ensures original.Message? <==> CheckIntegerFirst(n).Some?
  {
    original := MagicSummation3.MagicSummation3(n, draws);
    optimized := MagicSummationOptimized(n, draws);
  }
}

=== FILE: palindrome.dfy ===
/**
 * p2/palindrome.py: a two-index palindrome check that skips every
 * character that is not a letter and compares letters case-insensitively.
 */
module Palindrome {
  import opened Text
  import opened Wrappers

  /** The argument of `is_palindrome`: a `str`, `None`, an `int`, or any other object. */
  datatype Argument = StrArg(text: string) | NoneArg | IntArg(value: int) | OtherArg

  /** A raised `TypeError` with its message. */
  datatype TypeError = TypeError(message: string)

  /** What one character contributes: itself lowercased if it is a letter, else nothing. */
  function Keep(c: char): string {
    if IsAlpha(c) then [Lower(c)] else []
  }

  /** The letters of `s`, lowercased, in order: what the check compares. */
  function Letters(s: string): (r: string)
    ensures |r| <= |s|
  {
    if s == [] then [] else Keep(s[0]) + Letters(s[1..])
  }

  /** The outer characters agree, pair by pair, working inwards. */
  predicate IsPal(s: string) {
    |s| <= 1 || (s[0] == s[|s| - 1] && IsPal(s[1..|s| - 1]))
  }

  /** `IsPal` means reading the same forwards and backwards. */
  lemma {:induction false} IsPalMeansMirror(s: string)
    ensures IsPal(s) <==> forall k :: 0 <= k < |s| ==> s[k] == s[|s| - 1 - k]
  {
    if |s| > 1 {
      var x := s[1..|s| - 1];
      IsPalMeansMirror(x);
      if IsPal(s) {
        forall k | 0 <= k < |s| ensures s[k] == s[|s| - 1 - k] {
          if 0 < k < |s| - 1 {
            assert s[k] == x[k - 1] && s[|s| - 1 - k] == x[|x| - 1 - (k - 1)];
          }
        }
      }
      if forall k :: 0 <= k < |s| ==> s[k] == s[|s| - 1 - k] {
        forall k | 0 <= k < |x| ensures x[k] == x[|x| - 1 - k] {
          assert s[k + 1] == s[|s| - 1 - (k + 1)];
        }
      }
    }
  }

  lemma {:induction false} LettersConcat(a: string, b: string)
    ensures Letters(a + b) == Letters(a) + Letters(b)
  {
    if a == [] {
      assert a + b == b;
    } else {
      var rest := a[1..] + b;
      assert (a + b)[0] == a[0] && (a + b)[1..] == rest;
      assert Letters(a + b) == Keep(a[0]) + Letters(rest);
      LettersConcat(a[1..], b);
      assert Letters(rest) == Letters(a[1..]) + Letters(b);
    }
  }

  lemma LettersOne(c: char)
    ensures Letters([c]) == Keep(c)
  {
    assert [c][1..] == [];
  }

  /** Peeling the first character of a window off its letters. */
  lemma TrimFirst(s: string, lo: int, hi: int)
    requires 0 <= lo < hi <= |s|
    ensures Letters(s[lo..hi]) == Keep(s[lo]) + Letters(s[lo + 1..hi])
  {
    assert s[lo..hi][0] == s[lo] && s[lo..hi][1..] == s[lo + 1..hi];
  }

  /** Peeling the last character of a window off its letters. */
  lemma TrimLast(s: string, lo: int, hi: int)
    requires 0 <= lo < hi <= |s|
    ensures Letters(s[lo..hi]) == Letters(s[lo..hi - 1]) + Keep(s[hi - 1])
  {
    assert s[lo..hi] == s[lo..hi - 1] + [s[hi - 1]];
    LettersConcat(s[lo..hi - 1], [s[hi - 1]]);
    LettersOne(s[hi - 1]);
  }

  /** A word wrapped in two letters is a palindrome iff the letters match and the word is one. */
  lemma PalWrap(a: char, x: string, b: char)
    ensures IsPal([a] + (x + [b])) <==> a == b && IsPal(x)
  {
    var w := [a] + (x + [b]);
    assert w[1..|w| - 1] == x;
  }

  /**
   * The loop's invariant: the letters outside `s[left..right]` have already
   * been matched, so the whole text is a palindrome exactly when the window is.
   */
  ghost predicate Window(s: string, left: int, right: int)
    requires 0 <= left <= right + 1 <= |s|
  {
    IsPal(Letters(s)) <==> IsPal(Letters(s[left..right + 1]))
  }

  lemma SkipLeft(s: string, left: int, right: int)
    requires 0 <= left < right < |s| && Window(s, left, right) && !IsAlpha(s[left])
    ensures Window(s, left + 1, right)
  {
    TrimFirst(s, left, right + 1);
    var rest := Letters(s[left + 1..right + 1]);
    assert Keep(s[left]) == [] && [] + rest == rest;
  }

  lemma SkipRight(s: string, left: int, right: int)
    requires 0 <= left < right < |s| && Window(s, left, right) && !IsAlpha(s[right])
    ensures Window(s, left, right - 1)
  {
    TrimLast(s, left, right + 1);
    var rest := Letters(s[left..right]);
    assert Keep(s[right]) == [] && rest + [] == rest;
  }

  /** A window between two letters: their lowercase forms wrap the letters inside. */
  lemma Wrapped(s: string, left: int, right: int)
    requires 0 <= left < right < |s| && IsAlpha(s[left]) && IsAlpha(s[right])
    ensures Letters(s[left..right + 1]) == [Lower(s[left])] + (Letters(s[left + 1..right]) + [Lower(s[right])])
  {
    var m := s[left + 1..right];
    assert s[left..right + 1] == [s[left]] + (m + [s[right]]);
    LettersConcat([s[left]], m + [s[right]]);
    LettersConcat(m, [s[right]]);
    LettersOne(s[left]);
    LettersOne(s[right]);
  }

  /** Two letters at the window's ends: a mismatch decides "no", a match narrows the window. */
  lemma MatchEnds(s: string, left: int, right: int)
    requires 0 <= left < right < |s| && Window(s, left, right) && IsAlpha(s[left]) && IsAlpha(s[right])
    ensures Lower(s[left]) != Lower(s[right]) ==> !IsPal(Letters(s))
    ensures Lower(s[left]) == Lower(s[right]) ==> Window(s, left + 1, right - 1)
  {
    Wrapped(s, left, right);
    PalWrap(Lower(s[left]), Letters(s[left + 1..right]), Lower(s[right]));
  }

  /** A window of at most one character is a palindrome. */
  lemma SmallWindow(s: string, left: int, right: int)
    requires 0 <= left <= right + 1 <= |s| && right <= left && Window(s, left, right)
    ensures IsPal(Letters(s))
  {
    assert |Letters(s[left..right + 1])| <= 1;
  }

  /**
   * `is_palindrome`: anything but a `str` raises `TypeError`; a string is
   * answered by whether its lowercased letters read the same both ways.
   */
  method IsPalindrome(sentence: Argument) returns (r: Result<bool, TypeError>)
    ensures r.Ok? <==> sentence.StrArg?
    ensures sentence.StrArg? ==> r == Ok(IsPal(Letters(sentence.text)))
    ensures !sentence.StrArg? ==> r == Err(TypeError("Input must be a string"))
  {
    if !sentence.StrArg? {
      return Err(TypeError("Input must be a string"));
    }
    var b := Scan(sentence.text);
    r := Ok(b);
  }

  /** `None` and `12321` are refused with `TypeError`, and a plain string is answered. */
  method SampleTypeErrors() returns (none: Result<bool, TypeError>, number: Result<bool, TypeError>, text: Result<bool, TypeError>)
    ensures none.Err? && number.Err? && text == Ok(false)
  {
    none := IsPalindrome(NoneArg);
    number := IsPalindrome(IntArg(12321));
    text := IsPalindrome(StrArg("ab"));
    assert Letters("ab") == "ab" by {
      assert "ab"[1..] == "b" && "b"[1..] == [];
    }
  }

  /** The first inner loop: `left` moves right past non-letters, never beyond `right`. */
  method SkipNonLettersLeft(sentence: string, left0: int, right: int) returns (left: int)
    requires 0 <= left0 <= right < |sentence| && Window(sentence, left0, right)
    ensures left0 <= left <= right && Window(sentence, left, right)
    ensures left < right ==> IsAlpha(sentence[left])
  {
    left := left0;
    while left < right && !IsAlpha(sentence[left])
      invariant left0 <= left <= right && Window(sentence, left, right)
    {
      SkipLeft(sentence, left, right);
      left := left + 1;
    }
  }

  /** The second inner loop: `right` moves left past non-letters, never below `left`. */
  method SkipNonLettersRight(sentence: string, left: int, right0: int) returns (right: int)
    requires 0 <= left <= right0 < |sentence| && Window(sentence, left, right0)
    ensures left <= right <= right0 && Window(sentence, left, right)
    ensures left < right ==> IsAlpha(sentence[right])
  {
    right := right0;
    while left < right && !IsAlpha(sentence[right])
      invariant left <= right <= right0 && Window(sentence, left, right)
    {
      SkipRight(sentence, left, right);
      right := right - 1;
    }
  }

  /**
   * The loop of `is_palindrome`: `left` and `right` move inwards past
   * non-letters and the letters they stop on must agree ignoring case. The
   * answer is whether the lowercased letters read the same both ways.
   */
  method Scan(sentence: string) returns (b: bool)
    ensures b == IsPal(Letters(sentence))
  {
    var left, right := 0, |sentence| - 1;
    assert sentence[0..|sentence|] == sentence;
    while left < right
      invariant 0 <= left && right < |sentence| && left <= right + 2
      invariant left <= right + 1 ==> Window(sentence, left, right)
      invariant left == right + 2 ==> IsPal(Letters(sentence))
      decreases right - left
    {
      left := SkipNonLettersLeft(sentence, left, right);
      right := SkipNonLettersRight(sentence, left, right);
      if left < right {
        MatchEnds(sentence, left, right);
      } else {
        SmallWindow(sentence, left, right);
      }
      if Lower(sentence[left]) != Lower(sentence[right]) {
        return false;
      }
      left := left + 1;
      right := right - 1;
    }
    if left <= right + 1 {
      SmallWindow(sentence, left, right);
    }
    b := true;
  }

  /** Text without letters (such as `123@#321` or `!!!`) counts as a palindrome. */
  lemma {:induction false} NoLettersIsPalindrome(s: string)
    requires forall k :: 0 <= k < |s| ==> !IsAlpha(s[k])
    ensures Letters(s) == [] && IsPal(Letters(s))
  {
    if s != [] {
      NoLettersIsPalindrome(s[1..]);
    }
  }

  /** Case does not matter: lowercasing the input first gives the same letters. */
  lemma {:induction false} LettersIgnoreCase(s: string)
    ensures Letters(LowerString(s)) == Letters(s)
  {
    if s != [] {
      assert LowerString(s)[1..] == LowerString(s[1..]);
      LettersIgnoreCase(s[1..]);
    }
  }
}

=== FILE: primes.dfy ===
/**
 * cprofile.py: primality by trial division with the 6k +/- 1 wheel, and the
 * sum of the primes in a list.
 */
module Primes {

  /** The reference definition: at least 2 and no divisor strictly between 1 and itself. */
  predicate IsPrime(n: int) {
    n >= 2 && forall d :: 2 <= d < n ==> n % d != 0
  }

  /** A multiple of `f` leaves no remainder. */
  lemma MultipleMod(f: int, m: int)
    requires f > 0
    ensures (f * m) % f == 0
  {
    var q := (f * m) / f;
    var t := m - q;
    assert f * m == f * q + (f * m) % f;
    assert (f * m) % f == t * f;
    if t >= 1 {
      MulMono(1, t, f);
      assert false;
    }
    if t <= -1 {
      MulMono(t, -1, f);
      assert false;
    }
  }

  /** A divisor of a divisor is a divisor. */
  lemma DivisorOfDivisor(n: int, d: int, f: int)
    requires n > 0 && d > 0 && f > 0 && n % d == 0 && d % f == 0
    ensures n % f == 0
  {
    var q := n / d;
    var p := d / f;
    assert n == d * q + n % d;
    assert d == f * p + d % f;
    assert n == (f * p) * q;
    assert (f * p) * q == f * (p * q);
    MultipleMod(f, p * q);
  }

  /** Multiplying by a non-negative number keeps the order. */
  lemma MulMono(a: int, b: int, c: int)
    requires a <= b && c >= 0
    ensures a * c <= b * c
  {
  }

  /** A divisor of `n` at least `i`, when `i * i > n`, has a cofactor below `i` that also divides `n`. */
  lemma SmallCofactor(n: int, d: int, i: int)
    requires 2 <= d < n && n % d == 0 && 0 < i <= d && i * i > n
    ensures 2 <= n / d < i && n % (n / d) == 0
  {
    var q := n / d;
    assert n == d * q + n % d;
    if q >= i {
      MulMono(i, d, q);
      MulMono(i, q, i);
      assert false;
    }
    if q <= 0 {
      MulMono(q, 0, d);
      assert false;
    }
    MultipleMod(q, d);
  }

  /** With no divisor below `i` and `i * i > n`, there is no divisor at all. */
  lemma NoSmallDivisorMeansPrime(n: int, i: int)
    requires n >= 2 && i > 0 && i * i > n
    requires forall d :: 2 <= d < i ==> n % d != 0
    ensures IsPrime(n)
  {
    forall d | 2 <= d < n ensures n % d != 0 {
      if d >= i && n % d == 0 {
        SmallCofactor(n, d, i);
      }
    }
  }

  /** Before the wheel starts at 5, only 2 and 3 have been ruled out, and 4 goes with 2. */
  lemma WheelStart(n: int)
    requires n > 3 && n % 2 != 0 && n % 3 != 0
    ensures forall d :: 2 <= d < 5 ==> n % d != 0
  {
    if n % 4 == 0 {
      DivisorOfDivisor(n, 4, 2);
    }
  }

  /**
   * One turn of the wheel: when neither `i` nor `i + 2` divides `n`, nothing
   * below `i + 6` does, since the other candidates are multiples of 2 or 3.
   */
  lemma WheelStep(n: int, i: int)
    requires n > 3 && n % 2 != 0 && n % 3 != 0 && i >= 5 && i % 6 == 5
    requires forall d :: 2 <= d < i ==> n % d != 0
    requires n % i != 0 && n % (i + 2) != 0
    ensures forall d :: 2 <= d < i + 6 ==> n % d != 0
  {
    var k := i / 6;
    assert i == 6 * k + 5;
    if n % (i + 1) == 0 {
      MultipleMod(2, 3 * k + 3);
      DivisorOfDivisor(n, i + 1, 2);
    }
    if n % (i + 3) == 0 {
      MultipleMod(2, 3 * k + 4);
      DivisorOfDivisor(n, i + 3, 2);
    }
    if n % (i + 4) == 0 {
      MultipleMod(3, 2 * k + 3);
      DivisorOfDivisor(n, i + 4, 3);
    }
    if n % (i + 5) == 0 {
      MultipleMod(2, 3 * k + 5);
      DivisorOfDivisor(n, i + 5, 2);
    }
  }

  /** Stepping by 6 keeps the residue modulo 6. */
  lemma StepSix(i: int)
    ensures (i + 6) % 6 == i % 6
  {
  }

  /** A proper divisor rules primality out. */
  lemma ProperDivisorNotPrime(n: int, d: int)
    requires 2 <= d < n && n % d == 0
    ensures !IsPrime(n)
  {
  }

  /** A wheel candidate `i` with `i * i <= n` leaves both `i` and `i + 2` below `n`. */
  lemma CandidatesBelow(n: int, i: int)
    requires i >= 5 && i * i <= n
    ensures i + 2 < n
  {
    MulMono(5, i, i);
  }

  /**
   * `is_prime_optimized`: rejects n <= 1, accepts 2 and 3, rejects other
   * multiples of 2 and 3, then tries the divisors i and i + 2 for
   * i = 5, 11, 17, ... while i * i <= n. The answer is exactly primality.
   */
  method IsPrimeOptimized(n: int) returns (b: bool)
    ensures b == IsPrime(n)
  {
    if n <= 1 {
      return false;
    }
    if n <= 3 {
      return true;
    }
    if n % 2 == 0 || n % 3 == 0 {
      MultiplesOfTwoOrThreeNotPrime(n);
      return false;
    }
    WheelStart(n);
    var i := 5;
    while i * i <= n
      invariant i >= 5 && i % 6 == 5
      invariant forall d :: 2 <= d < i ==> n % d != 0
      decreases n - i
    {
      CandidatesBelow(n, i);
      if n % i == 0 || n % (i + 2) == 0 {
        ProperDivisorNotPrime(n, if n % i == 0 then i else i + 2);
        return false;
      }
      WheelStep(n, i);
      StepSix(i);
      i := i + 6;
    }
    NoSmallDivisorMeansPrime(n, i);
    b := true;
  }

  /** Multiples of 2 or 3 above 3 are not prime. */
  lemma MultiplesOfTwoOrThreeNotPrime(n: int)
    requires n > 3 && (n % 2 == 0 || n % 3 == 0)
    ensures !IsPrime(n)
  {
    var d := if n % 2 == 0 then 2 else 3;
    assert 2 <= d < n && n % d == 0;
  }

  /** The sum of the prime elements, each counted as often as it occurs. */
  function SumPrimes(numbers: seq<int>): int {
    if numbers == [] then 0
    else SumPrimes(numbers[..|numbers| - 1]) + (if IsPrime(numbers[|numbers| - 1]) then numbers[|numbers| - 1] else 0)
  }

  /** The sum over a concatenation is the sum of the sums. */
  lemma {:induction false} SumPrimesConcat(a: seq<int>, b: seq<int>)
    ensures SumPrimes(a + b) == SumPrimes(a) + SumPrimes(b)
  {
    if b == [] {
      assert a + b == a;
    } else {
      assert (a + b)[..|a + b| - 1] == a + b[..|b| - 1];
      SumPrimesConcat(a, b[..|b| - 1]);
    }
  }

  /** `sum_of_primes_optimized`: adds up the elements that are prime, duplicates included. */
  method SumOfPrimesOptimized(numbers: seq<int>) returns (total: int)
    ensures total == SumPrimes(numbers)
  {
    total := 0;
    for k := 0 to |numbers|
      invariant total == SumPrimes(numbers[..k])
    {
      assert numbers[..k + 1][..k] == numbers[..k];
      var prime := IsPrimeOptimized(numbers[k]);
      if prime {
        total := total + numbers[k];
      }
    }
    assert numbers[..|numbers|] == numbers;
  }
}

=== FILE: registry.dfy ===
/**
 * The `_company_type_registry` dictionary of financial/company/types.py and
 * financial/company_class.py, with the `register` decorator and
 * `resolve_class` lookup both enumerations define over it.
 */
module Registries {
  import opened Wrappers

  /** The classes registered so far, one per member of an enumeration. */
  class Registry<M(==), C> {
    var entries: map<M, C>

    /** The dictionary as the module starts: empty. */
    constructor ()
      ensures entries == map[]
    {
      entries := map[];
    }

    /** `resolve_class`: `dict.get`, the class registered for the member, or `None`. */
    function ResolveClass(member: M): (r: Option<C>)
      reads this
      ensures r.Some? <==> member in entries
      ensures r.Some? ==> r.value == entries[member]
    {
      if member in entries then Some(entries[member]) else None
    }

    /**
     * `register(member)` applied to a class: the class is recorded for the
     * member, replacing one registered earlier, every other entry stays, and the decorator returns the class unchanged.
     */
    method Register(member: M, companyClass: C) returns (r: C)
      modifies this
      ensures r == companyClass
      ensures entries == old(entries)[member := companyClass]
      ensures ResolveClass(member) == Some(companyClass)
    {
      entries := entries[member := companyClass];
      r := companyClass;
    }
  }
}

=== FILE: singleton_config.dfy ===
/**
 * singleton/singleton_config/singleton_class.py: a class with one shared
 * instance whose `configuration` dictionary collects the keyword arguments
 * of every construction.
 */
module SingletonConfig {

  /** The one object `Singleton(...)` returns; `hasConfiguration` is `hasattr(self, 'configuration')`. */
  class Instance<V> {
    var configuration: map<string, V>
    var hasConfiguration: bool

    /** `super().__new__(cls)`: an object without a `configuration` yet. */
    constructor ()
      ensures !hasConfiguration
    {
      configuration := map[];
      hasConfiguration := false;
    }
  }

  /** The keyword arguments of several constructions merged in order, later values winning. */
  function Merged<V>(calls: seq<map<string, V>>): map<string, V> {
    if calls == [] then map[] else Merged(calls[..|calls| - 1]) + calls[|calls| - 1]
  }

  /**
   * A key of the merged configuration is one some construction passed, and
   * it holds the value of the last construction that passed it.
   */
  lemma {:induction false} MergedLastWins<V>(calls: seq<map<string, V>>, key: string)
    ensures key in Merged(calls) <==> exists i :: 0 <= i < |calls| && key in calls[i]
    ensures forall i ::
              (0 <= i < |calls| && key in calls[i] && forall j :: i < j < |calls| ==> key !in calls[j]) ==>
                Merged(calls)[key] == calls[i][key]
  {
    if calls != [] {
      var init := calls[..|calls| - 1];
      MergedLastWins(init, key);
      assert forall i :: 0 <= i < |init| ==> init[i] == calls[i];
    }
  }

  /** The class object `Singleton` and its `_instance` attribute. */
  class Singleton<V> {
    var instance: Instance?<V>

    /** Once created, the instance has its configuration. */
    ghost predicate Valid()
      reads this, instance
    {
      instance != null ==> instance.hasConfiguration
    }

    /** The class as defined: no instance yet. */
    constructor ()
      ensures Valid() && instance == null
    {
      instance := null;
    }

    /**
     * `Singleton(**kwargs)`: `__new__` creates the instance the first time
     * and returns the same one afterwards; `__init__` gives it an empty
     * configuration only the first time and then merges `kwargs` into it,
     * the new values winning.
     */
    method Construct(kwargs: map<string, V>) returns (obj: Instance<V>)
      requires Valid()
      modifies this, instance
      ensures Valid() && instance == obj
      ensures old(instance) == null ==> fresh(obj) && obj.configuration == kwargs
      ensures old(instance) != null ==> obj == old(instance) && obj.configuration == old(instance.configuration) + kwargs
    {
      if instance == null {
        instance := new Instance();
      }
      obj := instance;
      if !obj.hasConfiguration {
        obj.configuration := map[];
        obj.hasConfiguration := true;
      }
      obj.configuration := obj.configuration + kwargs;
    }

    /**
     * A run of constructions on a fresh class: all return one object, whose
     * configuration is the merge of every call's keyword arguments.
     */
    method ConstructAll(calls: seq<map<string, V>>) returns (obj: Instance<V>)
      requires Valid() && instance == null && calls != []
      modifies this
      ensures Valid() && fresh(obj) && instance == obj
      ensures obj.configuration == Merged(calls)
    {
      obj := Construct(calls[0]);
      assert calls[..1] == [calls[0]] && Merged([calls[0]]) == Merged([]) + calls[0];
      for k := 1 to |calls|
        invariant Valid() && instance == obj && fresh(obj)
        invariant obj.configuration == Merged(calls[..k])
      {
        var same := Construct(calls[k]);
        assert calls[..k + 1][..k] == calls[..k];
      }
      assert calls[..|calls|] == calls;
    }
  }

  /**
   * The script: `Singleton(dj=42, daniel=42)` then `Singleton(dj=14)` give
   * the same object, configured with dj 14 and daniel 42.
   */
  method SampleRun() returns (a: Instance<int>, b: Instance<int>)
    ensures a == b && a.configuration == map["dj" := 14, "daniel" := 42]
  {
    var cls := new Singleton<int>();
    a := cls.Construct(map["dj" := 42, "daniel" := 42]);
    b := cls.Construct(map["dj" := 14]);
    assert a.configuration == map["dj" := 42, "daniel" := 42] + map["dj" := 14];
  }
}

=== FILE: sqlite_log.dfy ===
/**
 * The SQLite calls the connection managers of financial/db_singleton.py and
 * financial/db/connection.py make, as a log of events: the database itself
 * is not modelled, and a connection is an opaque handle that records which
 * `sqlite3.connect` call opened it.
 */
module SqliteLog {

  /** `sqlite3.connect(path)`, and `commit` or `close` on the connection opened by the `serial`-th event. */
  datatype Event = Open(path: string) | Commit(serial: nat) | Close(serial: nat)

  /** A connection handle: the position of its `Open` event in the log, and its path. */
  datatype Connection = Connection(serial: nat, path: string)

  /**
   * The connection the log's next event would open: appending `Open(path)`
   * puts that event at the position the handle names, and the handle is
   * none of those the log has already opened.
   */
  function NextConnection(log: seq<Event>, path: string): (c: Connection)
    ensures var next := log + [Open(path)]; c.serial < |next| && next[c.serial] == Open(c.path)
    ensures forall k :: 0 <= k < |log| && log[k].Open? ==> c != Connection(k, log[k].path)
  {
    Connection(|log|, path)
  }
}

=== FILE: stack_journey.dfy ===
/**
 * stack/stack_journey.py: a list-backed stack whose `pop` and `peek` answer
 * `None` on an empty stack, and two loops that use it: string reversal and a
 * check that parentheses are balanced.
 */
module StackJourney {
  import opened Wrappers
  import opened Lists

  class Stack<T> {
    /** `self.items`, bottom first. */
    var items: seq<T>

    constructor ()
      ensures items == []
    {
      items := [];
    }

    /** `push`: appends to the top. */
    method Push(x: T)
      modifies this
      ensures items == old(items) + [x]
    {
      items := items + [x];
    }

    /** `pop`: removes and returns the top item, or returns `None` and changes nothing. */
    method Pop() returns (r: Option<T>)
      modifies this
      ensures old(items) == [] ==> r == None && items == []
      ensures old(items) != [] ==> r == Some(old(items)[|old(items)| - 1]) && items == old(items)[..|old(items)| - 1]
    {
      if items == [] {
        return None;
      }
      r := Some(items[|items| - 1]);
      items := items[..|items| - 1];
    }

    /** `peek`: the top item without removing it, or `None`. */
    function Peek(): (r: Option<T>)
      reads this
      ensures r.None? <==> items == []
      ensures r.Some? ==> r.value == items[|items| - 1]
    {
      if items == [] then None else Some(items[|items| - 1])
    }

    /** `is_empty`. */
    function IsEmpty(): (b: bool)
      reads this
      ensures b <==> Size() == 0
    {
      |items| == 0
    }

    /** `size`. */
    function Size(): nat
      reads this
    {
      |items|
    }
  }

  /** Pushing and then popping gives back the pushed item and the stack as it was. */
  method PushPopRestores<T>(s: Stack<T>, x: T) returns (r: Option<T>)
    modifies s
    ensures r == Some(x) && s.items == old(s.items)
  {
    s.Push(x);
    r := s.Pop();
    assert (old(s.items) + [x])[..|old(s.items)|] == old(s.items);
  }

  /**
   * `reverse_string`: pushes every character, then pops until the stack is
   * empty; the popped characters spell the input backwards.
   */
  method ReverseString(s: string) returns (r: string)
    ensures r == Reverse(s)
  {
    var stack := new Stack<char>();
    for i := 0 to |s|
      invariant stack.items == s[..i]
    {
      stack.Push(s[i]);
    }
    assert s[..|s|] == s;
    r := [];
    while !stack.IsEmpty()
      invariant |r| + |stack.items| == |s|
      invariant stack.items == s[..|stack.items|]
      invariant forall k :: 0 <= k < |r| ==> r[k] == s[|s| - 1 - k]
      decreases |stack.items|
    {
      var c := stack.Pop();
      r := r + [c.value];
    }
  }

  /** How a character moves the nesting depth: `(` opens, `)` closes, anything else is ignored. */
  function Step(c: char): int {
    if c == '(' then 1 else if c == ')' then -1 else 0
  }

  /** The running depth after reading all of `s`: opened minus closed parentheses. */
  function Depth(s: string): int {
    if s == [] then 0 else Depth(s[..|s| - 1]) + Step(s[|s| - 1])
  }

  /** The depth of a concatenation is the sum of the depths. */
  lemma {:induction false} DepthConcat(a: string, b: string)
    ensures Depth(a + b) == Depth(a) + Depth(b)
  {
    if b == [] {
      assert a + b == a;
    } else {
      assert (a + b)[..|a + b| - 1] == a + b[..|b| - 1];
      DepthConcat(a, b[..|b| - 1]);
    }
  }

  /** Balanced: the running depth never drops below zero and ends at zero. */
  predicate Balanced(s: string) {
    (forall k :: 0 <= k <= |s| ==> Depth(s[..k]) >= 0) && Depth(s) == 0
  }

  /**
   * `is_balanced`: pushes on `(`, pops on `)`, and fails as soon as a `)`
   * finds the stack empty; the stack's size is the running depth.
   */
  method IsBalanced(expression: string) returns (b: bool)
    ensures b == Balanced(expression)
  {
    var stack := new Stack<char>();
    for i := 0 to |expression|
      invariant stack.Size() == Depth(expression[..i])
      invariant forall k :: 0 <= k <= i ==> Depth(expression[..k]) >= 0
    {
      assert expression[..i + 1][..i] == expression[..i];
      var c := expression[i];
      if c == '(' {
        stack.Push(c);
      } else if c == ')' {
        if stack.IsEmpty() {
          assert Depth(expression[..i + 1]) < 0;
          return false;
        }
        var _ := stack.Pop();
      }
    }
    assert expression[..|expression|] == expression;
    b := stack.IsEmpty();
  }

  /** Two balanced expressions written one after the other are balanced. */
  lemma BalancedConcat(a: string, b: string)
    requires Balanced(a) && Balanced(b)
    ensures Balanced(a + b)
  {
    DepthConcat(a, b);
    forall k | 0 <= k <= |a + b| ensures Depth((a + b)[..k]) >= 0 {
      if k <= |a| {
        assert (a + b)[..k] == a[..k];
      } else {
        assert (a + b)[..k] == a + b[..k - |a|];
        DepthConcat(a, b[..k - |a|]);
      }
    }
  }

  /** A `)` with nothing open makes any expression it starts unbalanced. */
  lemma ClosingFirstUnbalanced(s: string)
    ensures !Balanced(")" + s)
  {
    assert (")" + s)[..1] == ")";
    assert Depth(")") == -1;
  }
}

=== FILE: stack_optimized.dfy ===
/**
 * stack/stack_optimized.py: the stack whose `pop` and `peek` raise
 * `IndexError` on an empty stack, and whose `__str__` shows the items as a
 * Python list.
 */
module StackOptimized {
  import opened Wrappers

  /** The exception raised on an empty stack, with its message. */
  datatype IndexError = IndexError(message: string)

  class StackFixed<T> {
    /** `self.items`, bottom first. */
    var items: seq<T>

    constructor ()
      ensures items == []
    {
      items := [];
    }

    /** `push`. */
    method Push(x: T)
      modifies this
      ensures items == old(items) + [x]
    {
      items := items + [x];
    }

    /** `pop`: the top item, removed; on an empty stack `IndexError('cannot pop from empty stack')`. */
    method Pop() returns (r: Result<T, IndexError>)
      modifies this
      ensures old(items) == [] ==> r == Err(IndexError("cannot pop from empty stack")) && items == []
      ensures old(items) != [] ==>
                r == Ok(old(items)[|old(items)| - 1]) && items == old(items)[..|old(items)| - 1]
    {
      if items == [] {
        return Err(IndexError("cannot pop from empty stack"));
      }
      r := Ok(items[|items| - 1]);
      items := items[..|items| - 1];
    }

    /** `peek`: the top item; on an empty stack `IndexError('cannot peek from empty stack')`. */
    function Peek(): (r: Result<T, IndexError>)
      reads this
      ensures items == [] <==> r == Err(IndexError("cannot peek from empty stack"))
      ensures r.Ok? ==> r.value == items[|items| - 1]
    {
      if items == [] then Err(IndexError("cannot peek from empty stack")) else Ok(items[|items| - 1])
    }

    /** `is_empty`. */
    function IsEmpty(): (b: bool)
      reads this
      ensures b <==> Size() == 0
    {
      |items| == 0
    }

    /** `size`. */
    function Size(): nat
      reads this
    {
      |items|
    }

    /** `__str__`, i.e. `str(self.items)`, given how one item is shown. */
    function Str(show: T -> string): string
      reads this
    {
      ListStr(items, show)
    }
  }

  /** The items, each shown and separated by ", ". */
  function Joined<T>(items: seq<T>, show: T -> string): string {
    if items == [] then ""
    else if |items| == 1 then show(items[0])
    else Joined(items[..|items| - 1], show) + ", " + show(items[|items| - 1])
  }

  /**
   * Python's `str` of a list: brackets around the joined items, `[]` for
   * the empty list; with `ListStrPush` this fixes the rendering of every list.
   */
  function ListStr<T>(items: seq<T>, show: T -> string): (r: string)
    ensures |r| >= 2 && r[0] == '[' && r[|r| - 1] == ']'
    ensures items == [] ==> r == "[]"
  {
    "[" + Joined(items, show) + "]"
  }

  /**
   * Pushing one item adds its rendering just before the closing bracket,
   * after a ", " when the stack was not empty.
   */
  lemma ListStrPush<T>(items: seq<T>, x: T, show: T -> string)
    ensures ListStr(items + [x], show) ==
            ListStr(items, show)[..|ListStr(items, show)| - 1]
            + (if items == [] then "" else ", ") + show(x) + "]"
  {
    var s := items + [x];
    assert s[..|s| - 1] == items;
    var prefix := "[" + Joined(items, show);
    assert ListStr(items, show) == prefix + "]";
    assert ListStr(items, show)[..|ListStr(items, show)| - 1] == prefix;
  }

  /**
   * `str(n)` of a non-negative `int`: decimal digits only, at least one, and
   * no leading zero except for `0` itself.
   */
  function DecimalStr(n: nat): (r: string)
    ensures |r| >= 1
    ensures forall k :: 0 <= k < |r| ==> '0' <= r[k] <= '9'
    ensures r[0] == '0' <==> n == 0
  {
    if n < 10 then [('0' as int + n) as char] else DecimalStr(n / 10) + [('0' as int + n % 10) as char]
  }

  /** The number a string of decimal digits denotes, as `int(s)` reads it. */
  function DigitsValue(s: string): int {
    if s == [] then 0 else DigitsValue(s[..|s| - 1]) * 10 + (s[|s| - 1] as int - '0' as int)
  }

  /** Reading back what `str` prints gives the number again. */
  lemma {:induction false} DecimalStrRoundTrip(n: nat)
    ensures DigitsValue(DecimalStr(n)) == n
  {
    if n >= 10 {
      DecimalStrRoundTrip(n / 10);
      var r := DecimalStr(n);
      assert r[..|r| - 1] == DecimalStr(n / 10);
    }
  }

  /** Items pop in the reverse of their push order. */
  method PopsReverseOrder<T>(a: T, b: T, c: T) returns (first: Result<T, IndexError>, second: Result<T, IndexError>, third: Result<T, IndexError>, fourth: Result<T, IndexError>)
    ensures first == Ok(c) && second == Ok(b) && third == Ok(a)
    ensures fourth == Err(IndexError("cannot pop from empty stack"))
  {
    var s := new StackFixed<T>();
    s.Push(a);
    s.Push(b);
    s.Push(c);
    first := s.Pop();
    second := s.Pop();
    third := s.Pop();
    fourth := s.Pop();
  }

  /** After pushing 1, 2, 3 the stack prints as `[1, 2, 3]`. */
  method PushThenStr() returns (shown: string, size: nat)
    ensures shown == "[1, 2, 3]" && size == 3
  {
    var s := new StackFixed<nat>();
    s.Push(1);
    s.Push(2);
    s.Push(3);
    shown := s.Str(DecimalStr);
    size := s.Size();
    assert s.items == [1, 2, 3];
    assert [1, 2, 3][..2] == [1, 2];
    assert [1, 2][..1] == [1];
  }
}

=== FILE: task_list_db.dfy ===
/**
 * task_list_db/task_list_db.py: a SQLite-backed task list with a UNIQUE
 * `task` column that raises `TaskError` subclasses, opening a fresh
 * connection for every operation.
 */
module TaskListDb {
  import opened Wrappers
  import opened Text
  import opened TaskTable

  /**
   * The exceptions an operation can end with: the three `TaskError`
   * subclasses, and sqlite's `IntegrityError`, which `add_unique_task` lets
   * escape when the text is stored as a completed row.
   */
  datatype Failure =
    | EmptyTaskError(message: string)
    | TaskAlreadyExistsError(message: string)
    | TaskNotFoundError(message: string)
    | IntegrityError(message: string)

  const UniqueViolation: string := "UNIQUE constraint failed: tasks.task"

  class TaskList {
    var rows: seq<Row>
    var nextId: nat
    const maxLength: nat

    ghost predicate Valid()
      reads this
    {
      IdsOrdered(rows, nextId) && UniqueTexts(rows)
    }

    /** Opens the database file, whose `tasks` table already holds `rows`. */
    constructor (rows: seq<Row>, nextId: nat, maxLength: nat)
      requires IdsOrdered(rows, nextId) && UniqueTexts(rows)
      ensures Valid()
      ensures this.rows == rows && this.nextId == nextId && this.maxLength == maxLength
    {
      this.rows := rows;
      this.nextId := nextId;
      this.maxLength := maxLength;
    }

    /** `list_tasks`: the pending texts. */
    function ListTasks(): seq<string>
      reads this
    {
      TextsWith(rows, false)
    }

    /**
     * `add_task`: inserts a pending row for a new text; for a stored text the
     * UNIQUE violation is swallowed and nothing changes. Both report success,
     * and afterwards exactly one row carries the text.
     */
    method AddTask(task: string) returns (r: Result<string, Failure>)
      requires Valid()
      modifies this
      ensures Valid()
      ensures var t := Normalize(task, maxLength);
              if t == [] then
                r == Err(EmptyTaskError("Cannot add an empty task.")) && rows == old(rows) && nextId == old(nextId)
              else
                && r == Ok("Task " + t + " added.")
                && (Find(old(rows), t).None? ==>
                      rows == old(rows) + [Row(old(nextId), t, false)] && nextId == old(nextId) + 1)
                && (Find(old(rows), t).Some? ==> rows == old(rows) && nextId == old(nextId))
                && Find(rows, t).Some?
                && forall k :: 0 <= k < |rows| && k != Find(rows, t).value ==> rows[k].text != t
    {
      var t := Normalize(task, maxLength);
      if t == [] {
        return Err(EmptyTaskError("Cannot add an empty task."));
      }
      if Find(rows, t).None? {
        rows := rows + [Row(nextId, t, false)];
        nextId := nextId + 1;
        assert rows[|rows| - 1].text == t;
      }
      FindIsOnly(rows, t);
      r := Ok("Task " + t + " added.");
    }

    /**
     * `add_unique_task`: refuses a text that is stored as pending with
     * `TaskAlreadyExistsError`; a text stored only as completed makes the
     * INSERT fail with the uncaught `IntegrityError`; otherwise inserts it.
     */
    method AddUniqueTask(task: string) returns (r: Result<string, Failure>)
      requires Valid()
      modifies this
      ensures Valid()
      ensures var t := Normalize(task, maxLength);
              if t == [] then
                r == Err(EmptyTaskError("Cannot add an empty task.")) && rows == old(rows) && nextId == old(nextId)
              else if FirstPending(old(rows), t).Some? then
                r == Err(TaskAlreadyExistsError("Task already exists.")) && rows == old(rows) && nextId == old(nextId)
              else if Find(old(rows), t).Some? then
                r == Err(IntegrityError(UniqueViolation)) && rows == old(rows) && nextId == old(nextId)
              else
                && r == Ok("Task " + t + " added.")
                && rows == old(rows) + [Row(old(nextId), t, false)]
                && nextId == old(nextId) + 1
                && ListTasks() == old(ListTasks()) + [t]
    {
      var t := Normalize(task, maxLength);
      if t == [] {
        return Err(EmptyTaskError("Cannot add an empty task."));
      }
      if FirstPending(rows, t).Some? {
        return Err(TaskAlreadyExistsError("Task already exists."));
      }
      if Find(rows, t).Some? {
        return Err(IntegrityError(UniqueViolation));
      }
      AppendListing(rows, Row(nextId, t, false));
      rows := rows + [Row(nextId, t, false)];
      nextId := nextId + 1;
      r := Ok("Task " + t + " added.");
    }

    /**
     * `remove_task`: normalises its argument and deletes the row with that
     * text, whatever its status; when no row was deleted it raises
     * `TaskNotFoundError`.
     */
    method RemoveTask(task: string) returns (r: Result<string, Failure>)
      requires Valid()
      modifies this
      ensures Valid() && nextId == old(nextId)
      ensures var t := Normalize(task, maxLength);
              if Find(old(rows), t).None? then
                r == Err(TaskNotFoundError("Task not found.")) && rows == old(rows)
              else
                var i := Find(old(rows), t).value;
                && r == Ok("Task " + t + " removed.")
                && rows == old(rows)[..i] + old(rows)[i + 1..]
                && forall k :: 0 <= k < |rows| ==> rows[k].text != t
    {
      var t := Normalize(task, maxLength);
      var found := Find(rows, t);
      if found.None? {
        return Err(TaskNotFoundError("Task not found."));
      }
      var i := found.value;
      FindIsOnly(rows, t);
      DeleteKeepsIds(rows, nextId, i);
      DeleteKeepsUnique(rows, i);
      ghost var before := rows;
      rows := rows[..i] + rows[i + 1..];
      assert forall k :: 0 <= k < |rows| ==> rows[k] == before[if k < i then k else k + 1];
      r := Ok("Task " + t + " removed.");
    }

    /** `clear_tasks`: deletes every row. */
    method ClearTasks()
      requires Valid()
      modifies this
      ensures Valid() && nextId == old(nextId)
      ensures rows == [] && ListTasks() == []
    {
      rows := [];
    }
  }

  /** Adding a text twice still reports success and stores it once. */
  method AddTwiceStoresOnce(text: string) returns (second: Result<string, Failure>, listed: seq<string>)
    requires Normalize(text, 100) != []
    ensures second == Ok("Task " + Normalize(text, 100) + " added.")
    ensures listed == [Normalize(text, 100)]
  {
    var list := new TaskList([], 1, 100);
    var _ := list.AddTask(text);
    second := list.AddTask(text);
    listed := list.ListTasks();
    assert list.rows == [Row(1, Normalize(text, 100), false)];
    assert list.rows[..0] == [];
  }

  /** A text stored as completed cannot be re-added through `add_unique_task`: the INSERT fails. */
  method UniqueAddOfCompletedFails(text: string) returns (r: Result<string, Failure>)
    requires Normalize(text, 100) != []
    ensures r == Err(IntegrityError(UniqueViolation))
  {
    var list := new TaskList([Row(1, Normalize(text, 100), true)], 2, 100);
    r := list.AddUniqueTask(text);
  }
}

=== FILE: task_list_duplicates.dfy ===
/**
 * task_list_db/task_list_db_duplicates.py: a SQLite-backed task list that
 * allows the same text many times. Completing and removing act on the oldest
 * pending row with the given text; operations report their outcome as a
 * message instead of raising.
 */
module TaskListDuplicates {
  import opened Wrappers
  import opened Text
  import opened TaskTable

  class TaskList {
    var rows: seq<Row>
    var nextId: nat
    const maxLength: nat

    ghost predicate Valid()
      reads this
    {
      IdsOrdered(rows, nextId)
    }

    /** Opens the database file, whose `tasks` table already holds `rows`. */
    constructor (rows: seq<Row>, nextId: nat, maxLength: nat)
      requires IdsOrdered(rows, nextId)
      ensures Valid()
      ensures this.rows == rows && this.nextId == nextId && this.maxLength == maxLength
    {
      this.rows := rows;
      this.nextId := nextId;
      this.maxLength := maxLength;
    }

    /** `list_pending_tasks`. */
    function ListPending(): seq<string>
      reads this
    {
      TextsWith(rows, false)
    }

    /** `list_completed_tasks` (in id order, see README). */
    function ListCompleted(): seq<string>
      reads this
    {
      TextsWith(rows, true)
    }

    /** `list_all_tasks`. */
    function ListAll(): seq<string>
      reads this
    {
      Texts(rows)
    }

    /**
     * `add_task`: an empty normalised text is refused with a message;
     * otherwise a fresh pending row is inserted, even if the text is present.
     */
    method AddTask(task: string) returns (msg: string)
      requires Valid()
      modifies this
      ensures Valid()
      ensures var t := Normalize(task, maxLength);
              if t == [] then
                msg == "Cannot add an empty task." && rows == old(rows) && nextId == old(nextId)
              else
                && msg == "Task \"" + t + "\" added."
                && rows == old(rows) + [Row(old(nextId), t, false)]
                && nextId == old(nextId) + 1
                && ListPending() == old(ListPending()) + [t]
                && ListCompleted() == old(ListCompleted())
    {
      var t := Normalize(task, maxLength);
      if t == [] {
        return "Cannot add an empty task.";
      }
      AppendListing(rows, Row(nextId, t, false));
      rows := rows + [Row(nextId, t, false)];
      nextId := nextId + 1;
      msg := "Task \"" + t + "\" added.";
    }

    /**
     * `remove_task`: the argument is not normalised. The oldest pending row
     * with exactly that text is deleted; completed rows are never removed.
     */
    method RemoveTask(task: string) returns (msg: string)
      requires Valid()
      modifies this
      ensures Valid() && nextId == old(nextId)
      ensures FirstPending(old(rows), task).Some? ==>
                var i := FirstPending(old(rows), task).value;
                && msg == "Task \"" + task + "\" removed."
                && rows == old(rows)[..i] + old(rows)[i + 1..]
                && multiset(ListPending()) == old(multiset(ListPending())) - multiset{task}
                && multiset(ListCompleted()) == old(multiset(ListCompleted()))
      ensures FirstPending(old(rows), task).None? ==>
                msg == "No pending task found to remove." && rows == old(rows)
    {
      var found := FirstPending(rows, task);
      if found.None? {
        return "No pending task found to remove.";
      }
      var i := found.value;
      DeleteListing(rows, i);
      DeleteKeepsIds(rows, nextId, i);
      rows := rows[..i] + rows[i + 1..];
      msg := "Task \"" + task + "\" removed.";
    }

    /**
     * `complete_task`: marks the oldest pending row with the normalised text
     * as completed, and no other row; one copy of the text moves from the
     * pending listing to the completed one.
     */
    method CompleteTask(task: string) returns (msg: string)
      requires Valid()
      modifies this
      ensures Valid() && nextId == old(nextId)
      ensures var t := Normalize(task, maxLength);
              if t == [] then
                msg == "Cannot complete an empty task." && rows == old(rows)
              else if FirstPending(old(rows), t).None? then
                msg == "No pending task found to complete." && rows == old(rows)
              else
                var i := FirstPending(old(rows), t).value;
                && msg == "Task \"" + t + "\" marked as completed."
                && rows == old(rows)[i := old(rows)[i].(completed := true)]
                && multiset(ListPending()) == old(multiset(ListPending())) - multiset{t}
                && multiset(ListCompleted()) == old(multiset(ListCompleted())) + multiset{t}
    {
      var t := Normalize(task, maxLength);
      if t == [] {
        return "Cannot complete an empty task.";
      }
      var found := FirstPending(rows, t);
      if found.None? {
        return "No pending task found to complete.";
      }
      var i := found.value;
      SetStatusListing(rows, i, true);
      SetStatusKeepsTable(rows, nextId, i, true);
      rows := rows[i := rows[i].(completed := true)];
      msg := "Task \"" + t + "\" marked as completed.";
    }

    /** `clear_tasks`: deletes every row, so every listing is empty. */
    method ClearTasks()
      requires Valid()
      modifies this
      ensures Valid() && nextId == old(nextId)
      ensures rows == [] && ListPending() == [] && ListCompleted() == [] && ListAll() == []
    {
      rows := [];
    }
  }

  /** Adding the same text twice to an empty table lists it twice as pending. */
  method AddTwiceListsTwice(text: string) returns (pending: seq<string>)
    requires Normalize(text, 100) != []
    ensures multiset(pending)[Normalize(text, 100)] == 2
  {
    var list := new TaskList([], 1, 100);
    var _ := list.AddTask(text);
    var _ := list.AddTask(text);
    pending := list.ListPending();
  }

  /** A pending task that is completed leaves the pending listing and appears in the completed one. */
  method CompleteMovesTask(text: string) returns (msg: string, pending: seq<string>, completed: seq<string>)
    requires Normalize(text, 100) != []
    ensures msg == "Task \"" + Normalize(text, 100) + "\" marked as completed."
    ensures Normalize(text, 100) in completed && Normalize(text, 100) !in pending
  {
    var list := new TaskList([], 1, 100);
    var _ := list.AddTask(text);
    msg := list.CompleteTask(text);
    pending := list.ListPending();
    completed := list.ListCompleted();
    assert multiset(completed)[Normalize(text, 100)] == 1;
  }
}

=== FILE: task_list_optimized.dfy ===
/**
 * task_list_db/task_list_db_optimized.py: a SQLite-backed task list whose
 * `task` column is UNIQUE. Adding a stored text re-activates its row instead
 * of duplicating it, and completing is an upsert.
 */
module TaskListOptimized {
  import opened Wrappers
  import opened Text
  import opened TaskTable

  class TaskList {
    var rows: seq<Row>
    var nextId: nat
    const maxLength: nat

    /** The table's schema constraints: AUTOINCREMENT ids and one row per text. */
    ghost predicate Valid()
      reads this
    {
      IdsOrdered(rows, nextId) && UniqueTexts(rows)
    }

    /** Opens the database file, whose `tasks` table already holds `rows`. */
    constructor (rows: seq<Row>, nextId: nat, maxLength: nat)
      requires IdsOrdered(rows, nextId) && UniqueTexts(rows)
      ensures Valid()
      ensures this.rows == rows && this.nextId == nextId && this.maxLength == maxLength
    {
      this.rows := rows;
      this.nextId := nextId;
      this.maxLength := maxLength;
    }

    /** `list_pending_tasks`, i.e. `_list_tasks_by_status(0)`. */
    function ListPending(): seq<string>
      reads this
    {
      TextsWith(rows, false)
    }

    /** `list_completed_tasks`, i.e. `_list_tasks_by_status(1)`. */
    function ListCompleted(): seq<string>
      reads this
    {
      TextsWith(rows, true)
    }

    /** `list_all_tasks`. */
    function ListAll(): seq<string>
      reads this
    {
      Texts(rows)
    }

    /**
     * `add_task`: a new text gets a fresh pending row; a stored text (the
     * INSERT hits the UNIQUE constraint) has its one row set back to pending
     * and no row is added. Either way the text ends up pending and not completed.
     */
    method AddTask(task: string) returns (msg: string)
      requires Valid()
      modifies this
      ensures Valid()
      ensures var t := Normalize(task, maxLength);
              if t == [] then
                msg == "Cannot add an empty task." && rows == old(rows) && nextId == old(nextId)
              else if Find(old(rows), t).None? then
                && msg == "Task \"" + t + "\" added."
                && rows == old(rows) + [Row(old(nextId), t, false)]
                && nextId == old(nextId) + 1
              else
                var i := Find(old(rows), t).value;
                && msg == "Task \"" + t + "\" re-activated."
                && rows == old(rows)[i := old(rows)[i].(completed := false)]
                && nextId == old(nextId)
      ensures Normalize(task, maxLength) != [] ==>
                Normalize(task, maxLength) in ListPending() && Normalize(task, maxLength) !in ListCompleted()
    {
      var t := Normalize(task, maxLength);
      if t == [] {
        return "Cannot add an empty task.";
      }
      var found := Find(rows, t);
      if found.None? {
        rows := rows + [Row(nextId, t, false)];
        nextId := nextId + 1;
        msg := "Task \"" + t + "\" added.";
        UniqueRowListed(rows, |rows| - 1);
      } else {
        var i := found.value;
        SetStatusKeepsTable(rows, nextId, i, false);
        rows := rows[i := rows[i].(completed := false)];
        msg := "Task \"" + t + "\" re-activated.";
        UniqueRowListed(rows, i);
      }
    }

    /**
     * `remove_task`: deletes the row with exactly the given text (not
     * normalised), pending or completed; afterwards no row carries that text.
     */
    method RemoveTask(task: string) returns (msg: string)
      requires Valid()
      modifies this
      ensures Valid() && nextId == old(nextId)
      ensures Find(old(rows), task).Some? ==>
                var i := Find(old(rows), task).value;
                && msg == "Task \"" + task + "\" removed."
                && rows == old(rows)[..i] + old(rows)[i + 1..]
      ensures Find(old(rows), task).None? ==> msg == "Task not found." && rows == old(rows)
      ensures forall k :: 0 <= k < |rows| ==> rows[k].text != task
    {
      var found := Find(rows, task);
      if found.None? {
        return "Task not found.";
      }
      var i := found.value;
      FindIsOnly(rows, task);
      DeleteKeepsIds(rows, nextId, i);
      DeleteKeepsUnique(rows, i);
      ghost var before := rows;
      rows := rows[..i] + rows[i + 1..];
      assert forall k :: 0 <= k < |rows| ==> rows[k] == before[if k < i then k else k + 1];
      msg := "Task \"" + task + "\" removed.";
    }

    /**
     * `complete_task`: INSERT ... ON CONFLICT DO UPDATE SET completed = 1.
     * The text ends up with exactly one row, completed; a text that was
     * already completed leaves the table as it was.
     */
    method CompleteTask(task: string) returns (msg: string)
      requires Valid()
      modifies this
      ensures Valid()
      ensures var t := Normalize(task, maxLength);
              if t == [] then
                msg == "Cannot complete an empty task." && rows == old(rows) && nextId == old(nextId)
              else if Find(old(rows), t).None? then
                && msg == "Task \"" + t + "\" marked as completed."
                && rows == old(rows) + [Row(old(nextId), t, true)]
                && nextId == old(nextId) + 1
              else
                var i := Find(old(rows), t).value;
                && msg == "Task \"" + t + "\" marked as completed."
                && rows == old(rows)[i := old(rows)[i].(completed := true)]
                && nextId == old(nextId)
      ensures var t := Normalize(task, maxLength);
              t != [] && Find(old(rows), t).Some? && old(rows)[Find(old(rows), t).value].completed ==>
                rows == old(rows)
      ensures Normalize(task, maxLength) != [] ==>
                && Normalize(task, maxLength) in ListCompleted() && Normalize(task, maxLength) !in ListPending()
                && Find(rows, Normalize(task, maxLength)).Some?
                && rows[Find(rows, Normalize(task, maxLength)).value].completed
    {
      var t := Normalize(task, maxLength);
      if t == [] {
        return "Cannot complete an empty task.";
      }
      var found := Find(rows, t);
      if found.None? {
        rows := rows + [Row(nextId, t, true)];
        nextId := nextId + 1;
        UniqueRowListed(rows, |rows| - 1);
        FindIsOnly(rows, t);
      } else {
        var i := found.value;
        SetStatusKeepsTable(rows, nextId, i, true);
        rows := rows[i := rows[i].(completed := true)];
        UniqueRowListed(rows, i);
        FindIsOnly(rows, t);
      }
      msg := "Task \"" + t + "\" marked as completed.";
    }

    /** `clear_tasks`: deletes every row. */
    method ClearTasks()
      requires Valid()
      modifies this
      ensures Valid() && nextId == old(nextId)
      ensures rows == [] && ListPending() == [] && ListCompleted() == [] && ListAll() == []
    {
      rows := [];
    }
  }

  /** Completing the same text twice: the second call leaves the table as the first left it. */
  method CompleteTwiceSettles(existing: seq<Row>, nextId: nat, text: string)
    returns (afterFirst: seq<Row>, afterSecond: seq<Row>)
    requires IdsOrdered(existing, nextId) && UniqueTexts(existing)
    ensures afterSecond == afterFirst
  {
    var list := new TaskList(existing, nextId, 100);
    var _ := list.CompleteTask(text);
    afterFirst := list.rows;
    var _ := list.CompleteTask(text);
    afterSecond := list.rows;
  }

  /** Adding a text twice keeps a single row for it, pending. */
  method AddTwiceKeepsOneRow(text: string) returns (second: string, all: seq<string>)
    requires Normalize(text, 100) != []
    ensures second == "Task \"" + Normalize(text, 100) + "\" re-activated."
    ensures all == [Normalize(text, 100)]
  {
    var list := new TaskList([], 1, 100);
    var _ := list.AddTask(text);
    second := list.AddTask(text);
    all := list.ListAll();
  }
}

=== FILE: task_table.dfy ===
/**
 * The SQLite `tasks` table shared by the three database-backed task lists,
 * seen as the sequence of its rows in id order. Ids come from AUTOINCREMENT,
 * so they rise along the sequence; `ORDER BY created_at` is taken to be id
 * order (timestamps have one-second resolution, ties fall back to insertion).
 */
module TaskTable {
  import opened Wrappers

  /** One row: `id`, `task` and `completed` (0 or 1, here a boolean). */
  datatype Row = Row(id: nat, text: string, completed: bool)

  /** AUTOINCREMENT: ids rise along the table and stay below the next id to hand out. */
  predicate IdsOrdered(rows: seq<Row>, nextId: nat) {
    && (forall i, j :: 0 <= i < j < |rows| ==> rows[i].id < rows[j].id)
    && (forall i :: 0 <= i < |rows| ==> rows[i].id < nextId)
  }

  /** The `UNIQUE` constraint on the `task` column. */
  predicate UniqueTexts(rows: seq<Row>) {
    forall i, j :: 0 <= i < j < |rows| ==> rows[i].text != rows[j].text
  }

  /** `SELECT task FROM tasks`: every text, in table order. */
  function Texts(rows: seq<Row>): (r: seq<string>)
    ensures |r| == |rows|
    ensures forall k :: 0 <= k < |rows| ==> r[k] == rows[k].text
  {
    if rows == [] then [] else Texts(rows[..|rows| - 1]) + [rows[|rows| - 1].text]
  }

  /** `SELECT task FROM tasks WHERE completed = ?`: the texts with that status, in table order. */
  function TextsWith(rows: seq<Row>, completed: bool): (r: seq<string>)
    ensures |r| <= |rows|
  {
    if rows == [] then []
    else
      var last := rows[|rows| - 1];
      TextsWith(rows[..|rows| - 1], completed) + (if last.completed == completed then [last.text] else [])
  }

  /** A listing of a concatenation is the concatenation of the listings. */
  lemma {:induction false} TextsWithConcat(a: seq<Row>, b: seq<Row>, completed: bool)
    ensures TextsWith(a + b, completed) == TextsWith(a, completed) + TextsWith(b, completed)
  {
    if b == [] {
      assert a + b == a;
    } else {
      assert (a + b)[..|a + b| - 1] == a + b[..|b| - 1];
      TextsWithConcat(a, b[..|b| - 1], completed);
    }
  }

  /** A text is listed under a status exactly when some row holds it with that status. */
  lemma {:induction false} TextsWithMember(rows: seq<Row>, completed: bool, t: string)
    ensures t in TextsWith(rows, completed) <==>
            exists k :: 0 <= k < |rows| && rows[k].text == t && rows[k].completed == completed
  {
    if rows != [] {
      var init := rows[..|rows| - 1];
      TextsWithMember(init, completed, t);
      if exists k :: 0 <= k < |init| && init[k].text == t && init[k].completed == completed {
        var k :| 0 <= k < |init| && init[k].text == t && init[k].completed == completed;
        assert rows[k] == init[k];
      }
    }
  }

  /**
   * The pending and the completed listings split the full listing: every text
   * is in exactly one of them, as often as it occurs in the table.
   */
  lemma {:induction false} ListingsPartition(rows: seq<Row>)
    ensures multiset(TextsWith(rows, false)) + multiset(TextsWith(rows, true)) == multiset(Texts(rows))
  {
    if rows != [] {
      ListingsPartition(rows[..|rows| - 1]);
    }
  }

  /** Adding a row puts its text at the end of the listing for its status and leaves the other alone. */
  lemma AppendListing(rows: seq<Row>, row: Row)
    ensures TextsWith(rows + [row], row.completed) == TextsWith(rows, row.completed) + [row.text]
    ensures TextsWith(rows + [row], !row.completed) == TextsWith(rows, !row.completed)
  {
    assert (rows + [row])[..|rows|] == rows;
  }

  /** The listing of a one-row table. */
  lemma SingleListing(row: Row, completed: bool)
    ensures TextsWith([row], completed) == if row.completed == completed then [row.text] else []
  {
    assert [row][..0] == [];
  }

  /** A listing cut around position `i`: before it, the row itself, after it. */
  lemma SplitListing(rows: seq<Row>, i: nat, completed: bool)
    requires i < |rows|
    ensures TextsWith(rows, completed) ==
            TextsWith(rows[..i], completed) + TextsWith([rows[i]], completed) + TextsWith(rows[i + 1..], completed)
  {
    assert rows == rows[..i] + [rows[i]] + rows[i + 1..];
    TextsWithConcat(rows[..i] + [rows[i]], rows[i + 1..], completed);
    TextsWithConcat(rows[..i], [rows[i]], completed);
  }

  /** Replacing row `i` changes only that row's contribution to a listing. */
  lemma UpdateListing(rows: seq<Row>, i: nat, row: Row, completed: bool)
    requires i < |rows|
    ensures TextsWith(rows[i := row], completed) ==
            TextsWith(rows[..i], completed) + TextsWith([row], completed) + TextsWith(rows[i + 1..], completed)
  {
    var after := rows[i := row];
    assert after[..i] == rows[..i] && after[i + 1..] == rows[i + 1..] && after[i] == row;
    SplitListing(after, i, completed);
  }

  /** Replacing row `i` by `row` trades one copy of the old row's listed text for the new one's. */
  lemma {:induction false} ReplaceListing(rows: seq<Row>, i: nat, row: Row, completed: bool)
    requires i < |rows|
    ensures multiset(TextsWith(rows[i := row], completed)) + multiset(TextsWith([rows[i]], completed)) ==
            multiset(TextsWith(rows, completed)) + multiset(TextsWith([row], completed))
  {
    var x, y := TextsWith(rows[..i], completed), TextsWith(rows[i + 1..], completed);
    SplitListing(rows, i, completed);
    UpdateListing(rows, i, row, completed);
    assert multiset(TextsWith(rows, completed)) == multiset(x) + multiset(TextsWith([rows[i]], completed)) + multiset(y);
    assert multiset(TextsWith(rows[i := row], completed)) == multiset(x) + multiset(TextsWith([row], completed)) + multiset(y);
  }

  /** Flipping the status of one row moves one copy of its text from one listing to the other. */
  lemma SetStatusListing(rows: seq<Row>, i: nat, completed: bool)
    requires i < |rows| && rows[i].completed != completed
    ensures var after := rows[i := rows[i].(completed := completed)];
            && multiset(TextsWith(after, completed)) == multiset(TextsWith(rows, completed)) + multiset{rows[i].text}
            && multiset(TextsWith(after, !completed)) == multiset(TextsWith(rows, !completed)) - multiset{rows[i].text}
  {
    var row := rows[i].(completed := completed);
    var t := rows[i].text;
    ReplaceListing(rows, i, row, completed);
    SingleListing(rows[i], completed);
    SingleListing(row, completed);
    assert multiset(TextsWith(rows[i := row], completed)) == multiset(TextsWith(rows, completed)) + multiset{t};
    ReplaceListing(rows, i, row, !completed);
    SingleListing(rows[i], !completed);
    SingleListing(row, !completed);
    assert multiset(TextsWith(rows[i := row], !completed)) + multiset{t} == multiset(TextsWith(rows, !completed));
  }

  /** Deleting row `i` takes one copy of its listed text out of a listing. */
  lemma {:induction false} DeleteFromListing(rows: seq<Row>, i: nat, completed: bool)
    requires i < |rows|
    ensures multiset(TextsWith(rows[..i] + rows[i + 1..], completed)) + multiset(TextsWith([rows[i]], completed)) ==
            multiset(TextsWith(rows, completed))
  {
    SplitListing(rows, i, completed);
    TextsWithConcat(rows[..i], rows[i + 1..], completed);
  }

  /** Deleting one row removes one copy of its text from its own listing and leaves the other alone. */
  lemma DeleteListing(rows: seq<Row>, i: nat)
    requires i < |rows|
    ensures var after := rows[..i] + rows[i + 1..];
            && multiset(TextsWith(after, rows[i].completed)) == multiset(TextsWith(rows, rows[i].completed)) - multiset{rows[i].text}
            && multiset(TextsWith(after, !rows[i].completed)) == multiset(TextsWith(rows, !rows[i].completed))
  {
    DeleteFromListing(rows, i, rows[i].completed);
    DeleteFromListing(rows, i, !rows[i].completed);
    SingleListing(rows[i], rows[i].completed);
    SingleListing(rows[i], !rows[i].completed);
  }

  /**
   * `SELECT id FROM tasks WHERE task = ? AND completed = 0 ORDER BY created_at
   * LIMIT 1`: the position of the oldest pending row with that text, if any.
   */
  function FirstPending(rows: seq<Row>, t: string): (r: Option<nat>)
    ensures r.Some? ==> r.value < |rows| && rows[r.value].text == t && !rows[r.value].completed
    ensures r.Some? ==> forall k :: 0 <= k < r.value ==> !(rows[k].text == t && !rows[k].completed)
    ensures r.None? ==> forall k :: 0 <= k < |rows| ==> !(rows[k].text == t && !rows[k].completed)
  {
    if rows == [] then None
    else if rows[0].text == t && !rows[0].completed then Some(0)
    else
      match FirstPending(rows[1..], t)
      case None => None
      case Some(k) => Some(k + 1)
  }

  /** `SELECT ... FROM tasks WHERE task = ?` on a table whose texts are unique: the one matching row, if any. */
  function Find(rows: seq<Row>, t: string): (r: Option<nat>)
    ensures r.Some? ==> r.value < |rows| && rows[r.value].text == t
    ensures r.None? ==> forall k :: 0 <= k < |rows| ==> rows[k].text != t
  {
    if rows == [] then None
    else if rows[0].text == t then Some(0)
    else
      match Find(rows[1..], t)
      case None => None
      case Some(k) => Some(k + 1)
  }

  /** With unique texts, the row `Find` returns is the only one carrying that text. */
  lemma FindIsOnly(rows: seq<Row>, t: string)
    requires UniqueTexts(rows)
    ensures Find(rows, t).Some? ==>
              forall k :: 0 <= k < |rows| && k != Find(rows, t).value ==> rows[k].text != t
  {
  }

  /** With unique texts, the text of row `i` is listed under that row's status and only there. */
  lemma UniqueRowListed(rows: seq<Row>, i: nat)
    requires UniqueTexts(rows) && i < |rows|
    ensures rows[i].text in TextsWith(rows, rows[i].completed)
    ensures rows[i].text !in TextsWith(rows, !rows[i].completed)
  {
    TextsWithMember(rows, rows[i].completed, rows[i].text);
    TextsWithMember(rows, !rows[i].completed, rows[i].text);
  }

  /** Appending a row with a fresh id keeps the ids ordered. */
  lemma AppendKeepsIds(rows: seq<Row>, nextId: nat, text: string, completed: bool)
    requires IdsOrdered(rows, nextId)
    ensures IdsOrdered(rows + [Row(nextId, text, completed)], nextId + 1)
  {
  }

  /** Changing a row's status keeps the ids ordered and the texts unique. */
  lemma SetStatusKeepsTable(rows: seq<Row>, nextId: nat, i: nat, completed: bool)
    requires i < |rows|
    ensures IdsOrdered(rows, nextId) ==> IdsOrdered(rows[i := rows[i].(completed := completed)], nextId)
    ensures UniqueTexts(rows) ==> UniqueTexts(rows[i := rows[i].(completed := completed)])
  {
    var after := rows[i := rows[i].(completed := completed)];
    assert forall k :: 0 <= k < |rows| ==> after[k].id == rows[k].id && after[k].text == rows[k].text;
  }

  /** Deleting a row keeps the ids ordered. */
  lemma DeleteKeepsIds(rows: seq<Row>, nextId: nat, i: nat)
    requires IdsOrdered(rows, nextId) && i < |rows|
    ensures IdsOrdered(rows[..i] + rows[i + 1..], nextId)
  {
    var after := rows[..i] + rows[i + 1..];
    forall a, b | 0 <= a < b < |after| ensures after[a].id < after[b].id {
      var a' := if a < i then a else a + 1;
      var b' := if b < i then b else b + 1;
      assert after[a] == rows[a'] && after[b] == rows[b'];
    }
  }

  /** Deleting a row keeps the texts unique. */
  lemma DeleteKeepsUnique(rows: seq<Row>, i: nat)
    requires UniqueTexts(rows) && i < |rows|
    ensures UniqueTexts(rows[..i] + rows[i + 1..])
  {
    var after := rows[..i] + rows[i + 1..];
    forall a, b | 0 <= a < b < |after| ensures after[a].text != after[b].text {
      var a' := if a < i then a else a + 1;
      var b' := if b < i then b else b + 1;
      assert after[a] == rows[a'] && after[b] == rows[b'];
    }
  }
}

=== FILE: testing_task_list.dfy ===
/**
 * The in-memory task list of testing/task_list.py: tasks are normalised
 * (stripped, then cut to `max_length` characters) before they are stored, and
 * failures are raised as `TaskError` subclasses.
 */
module TestingTaskList {
  import opened Wrappers
  import opened Text
  import opened Lists
  import opened JsonData

  const DefaultMaxLength: nat := 100

  /** The exception classes; each carries the message the source raises with. */
  datatype TaskError =
    | EmptyTaskError(message: string)
    | TaskAlreadyExistsError(message: string)
    | TaskNotFoundError(message: string)
    | TaskError(message: string)

  /** What a stored task looks like: non-empty, within the bound, not starting with whitespace. */
  predicate IsNormalized(t: string, maxLength: nat) {
    t != [] && |t| <= maxLength && !IsSpace(t[0])
  }

  /**
   * The list `load_from_file` rebuilds: each loaded string normalised, the
   * ones that normalise to empty dropped, order kept.
   */
  function NormalizedEntries(items: seq<string>, maxLength: nat): (r: seq<string>)
    ensures |r| <= |items|
    ensures forall k :: 0 <= k < |r| ==> IsNormalized(r[k], maxLength)
  {
    if items == [] then []
    else
      var t := Normalize(items[|items| - 1], maxLength);
      var rest := NormalizedEntries(items[..|items| - 1], maxLength);
      assert t != [] ==> IsNormalized(t, maxLength);
      rest + (if t != [] then [t] else [])
  }

  /** When no entry normalises to empty, loading keeps one entry per item, in order. */
  lemma {:induction false} NormalizedEntriesKeepsAll(items: seq<string>, maxLength: nat)
    requires forall k :: 0 <= k < |items| ==> Normalize(items[k], maxLength) != []
    ensures var r := NormalizedEntries(items, maxLength);
            |r| == |items| && forall k :: 0 <= k < |items| ==> r[k] == Normalize(items[k], maxLength)
  {
    if items != [] {
      NormalizedEntriesKeepsAll(items[..|items| - 1], maxLength);
    }
  }

  /** Loading strings that are already normalised gives them back unchanged. */
  lemma {:induction false} LoadNormalizedIsIdentity(items: seq<string>, maxLength: nat)
    requires forall k :: 0 <= k < |items| ==> items[k] == Normalize(items[k], maxLength) && items[k] != []
    ensures NormalizedEntries(items, maxLength) == items
  {
    if items != [] {
      LoadNormalizedIsIdentity(items[..|items| - 1], maxLength);
      assert items == items[..|items| - 1] + [items[|items| - 1]];
    }
  }

  class TaskList {
    var tasks: seq<string>
    const maxLength: nat

    /** Every stored task is in normal form. */
    ghost predicate Valid()
      reads this
    {
      forall k :: 0 <= k < |tasks| ==> IsNormalized(tasks[k], maxLength)
    }

    constructor (maxLength: nat)
      ensures this.maxLength == maxLength && tasks == [] && Valid()
    {
      this.maxLength := maxLength;
      tasks := [];
    }

    /** `list_tasks`: a tuple copy of the stored tasks, every one in normal form. */
    function ListTasks(): (r: seq<string>)
      reads this
      requires Valid()
      ensures r == tasks
      ensures forall k :: 0 <= k < |r| ==> IsNormalized(r[k], maxLength)
    {
      tasks
    }

    /**
     * `add_task`: appends the normalised text, so its count rises by one, or
     * raises `EmptyTaskError` and changes nothing.
     */
    method AddTask(task: string) returns (r: Result<string, TaskError>)
      requires Valid()
      modifies this
      ensures Valid()
      ensures var t := Normalize(task, maxLength);
              if t == [] then
                r == Err(EmptyTaskError("Cannot add an empty task.")) && tasks == old(tasks)
              else
                && r == Ok("Task " + t + " added.")
                && tasks == old(tasks) + [t]
                && Count(tasks, t) == Count(old(tasks), t) + 1
    {
      var t := Normalize(task, maxLength);
      if t == [] {
        return Err(EmptyTaskError("Cannot add an empty task."));
      }
      CountAppend(tasks, [t], t);
      tasks := tasks + [t];
      r := Ok("Task " + t + " added.");
    }

    /**
     * `remove_task`: the argument is NOT normalised; the first exactly equal
     * entry goes, or `TaskNotFoundError` is raised and nothing changes.
     */
    method RemoveTask(task: string) returns (r: Result<string, TaskError>)
      requires Valid()
      modifies this
      ensures Valid()
      ensures task in old(tasks) ==>
                && r == Ok("Task " + task + " removed.")
                && tasks == RemoveFirst(old(tasks), task)
                && |tasks| == |old(tasks)| - 1
                && Count(tasks, task) == Count(old(tasks), task) - 1
      ensures task !in old(tasks) ==>
                r == Err(TaskNotFoundError("Task not found.")) && tasks == old(tasks)
    {
      if task in tasks {
        tasks := RemoveFirst(tasks, task);
        r := Ok("Task " + task + " removed.");
      } else {
        r := Err(TaskNotFoundError("Task not found."));
      }
    }

    /**
     * `add_unique_task`: like `add_task`, but raises `TaskAlreadyExistsError`
     * when the normalised text is already stored, so its count stays at most one.
     */
    method AddUniqueTask(task: string) returns (r: Result<string, TaskError>)
      requires Valid()
      modifies this
      ensures Valid()
      ensures var t := Normalize(task, maxLength);
              if t == [] then
                r == Err(EmptyTaskError("Cannot add an empty task.")) && tasks == old(tasks)
              else if t in old(tasks) then
                r == Err(TaskAlreadyExistsError("Task already exists.")) && tasks == old(tasks)
              else
                r == Ok("Task " + t + " added.") && tasks == old(tasks) + [t] && Count(tasks, t) == 1
    {
      var t := Normalize(task, maxLength);
      if t == [] {
        return Err(EmptyTaskError("Cannot add an empty task."));
      }
      if t in tasks {
        return Err(TaskAlreadyExistsError("Task already exists."));
      }
      CountPositive(tasks, t);
      CountAppend(tasks, [t], t);
      tasks := tasks + [t];
      r := Ok("Task " + t + " added.");
    }

    /** `clear_tasks`. */
    method ClearTasks()
      modifies this
      ensures Valid() && tasks == []
    {
      tasks := [];
    }

    /**
     * The post-parse half of `load_from_file`: read and decode failures and a
     * value that is not a list of strings raise `TaskError` and keep the old
     * list; otherwise the list is rebuilt from the normalised non-empty entries.
     */
    method LoadFromFile(read: FileRead) returns (r: Result<(), TaskError>)
      requires Valid()
      modifies this
      ensures Valid()
      ensures read.DecodeFailure? || read.OsFailure? ==> r.Err? && r.error.TaskError? && tasks == old(tasks)
      ensures read.Parsed? && StringItems(read.value).None? ==>
                r == Err(TaskError("Invalid task file format.")) && tasks == old(tasks)
      ensures read.Parsed? && StringItems(read.value).Some? ==>
                r == Ok(()) && tasks == NormalizedEntries(StringItems(read.value).value, maxLength)
    {
      if read.DecodeFailure? {
        return Err(TaskError("Failed to load tasks: invalid JSON format"));
      }
      if read.OsFailure? {
        return Err(TaskError("Failed to load tasks"));
      }
      var loaded := StringItems(read.value);
      if loaded.None? {
        return Err(TaskError("Invalid task file format."));
      }
      var items := loaded.value;
      tasks := [];
      var i := 0;
      while i < |items|
        invariant 0 <= i <= |items|
        invariant tasks == NormalizedEntries(items[..i], maxLength)
      {
        var normalized := Normalize(items[i], maxLength);
        assert items[..i + 1][..i] == items[..i];
        if normalized != [] {
          tasks := tasks + [normalized];
        }
        i := i + 1;
      }
      assert items[..i] == items;
      r := Ok(());
    }
  }

  /** A text longer than the bound is stored as exactly its first `maxLength` stripped characters. */
  method LongTaskTruncated(text: string) returns (r: Result<string, TaskError>, listed: seq<string>)
    requires |Strip(text)| > DefaultMaxLength
    ensures listed == [Strip(text)[..DefaultMaxLength]]
    ensures r == Ok("Task " + Strip(text)[..DefaultMaxLength] + " added.")
  {
    var list := new TaskList(DefaultMaxLength);
    NormalizeIsPrefix(text, DefaultMaxLength);
    r := list.AddTask(text);
    listed := list.ListTasks();
  }
}

=== FILE: testing_tasks.dfy ===
/**
 * The earlier in-memory task list of testing/tasks.py: tasks are only
 * stripped (never cut to a maximum length), duplicates are allowed through
 * `add_task`, and `load_from_file` stores the loaded strings verbatim.
 */
module TestingTasks {
  import opened Wrappers
  import opened Text
  import opened Lists
  import opened JsonData

  /** The exception classes; each carries the message the source raises with. */
  datatype TaskError =
    | EmptyTaskError(message: string)
    | TaskAlreadyExistsError(message: string)
    | TaskNotFoundError(message: string)
    | TaskError(message: string)

  class TaskList {
    var tasks: seq<string>

    constructor ()
      ensures tasks == []
    {
      tasks := [];
    }

    /** `list_tasks`: a tuple copy of the stored tasks, in insertion order. */
    function ListTasks(): (r: seq<string>)
      reads this
      ensures r == tasks
    {
      tasks
    }

    /**
     * `add_task`: appends the stripped text, never truncated, so a text added
     * twice is counted twice; whitespace-only input raises `EmptyTaskError`.
     */
    method AddTask(task: string) returns (r: Result<string, TaskError>)
      modifies this
      ensures var t := Strip(task);
              if t == [] then
                r == Err(EmptyTaskError("Cannot add an empty task.")) && tasks == old(tasks)
              else
                && r == Ok("Task " + t + " added.")
                && tasks == old(tasks) + [t]
                && Count(tasks, t) == Count(old(tasks), t) + 1
    {
      var t := Strip(task);
      if t == [] {
        return Err(EmptyTaskError("Cannot add an empty task."));
      }
      CountAppend(tasks, [t], t);
      tasks := tasks + [t];
      r := Ok("Task " + t + " added.");
    }

    /** `remove_task`: removes the first exact occurrence or raises `TaskNotFoundError`. */
    method RemoveTask(task: string) returns (r: Result<string, TaskError>)
      modifies this
      ensures task in old(tasks) ==>
                && r == Ok("Task " + task + " removed.")
                && tasks == RemoveFirst(old(tasks), task)
                && Count(tasks, task) == Count(old(tasks), task) - 1
      ensures task !in old(tasks) ==>
                r == Err(TaskNotFoundError("Task not found.")) && tasks == old(tasks)
    {
      if task in tasks {
        tasks := RemoveFirst(tasks, task);
        r := Ok("Task " + task + " removed.");
      } else {
        r := Err(TaskNotFoundError("Task not found."));
      }
    }

    /**
     * `add_unique_task`: raises `TaskAlreadyExistsError` for a stripped text
     * that is already present, leaving its count where it was.
     */
    method AddUniqueTask(task: string) returns (r: Result<string, TaskError>)
      modifies this
      ensures var t := Strip(task);
              if t == [] then
                r == Err(EmptyTaskError("Cannot add an empty task.")) && tasks == old(tasks)
              else if t in old(tasks) then
                r == Err(TaskAlreadyExistsError("Task already exists.")) && tasks == old(tasks)
              else
                r == Ok("Task " + t + " added.") && tasks == old(tasks) + [t] && Count(tasks, t) == 1
    {
      var t := Strip(task);
      if t == [] {
        return Err(EmptyTaskError("Cannot add an empty task."));
      }
      if t in tasks {
        return Err(TaskAlreadyExistsError("Task already exists."));
      }
      CountPositive(tasks, t);
      CountAppend(tasks, [t], t);
      tasks := tasks + [t];
      r := Ok("Task " + t + " added.");
    }

    /** `clear_tasks`. */
    method ClearTasks()
      modifies this
      ensures tasks == []
    {
      tasks := [];
    }

    /**
     * The post-parse half of `load_from_file`: a value that is not a list of
     * strings raises `TaskError` and keeps the old list; otherwise the loaded
     * strings become the list as they are, without stripping or dropping any.
     */
    method LoadFromFile(loaded: Json) returns (r: Result<(), TaskError>)
      modifies this
      ensures StringItems(loaded).None? ==>
                r == Err(TaskError("Invalid task file format.")) && tasks == old(tasks)
      ensures StringItems(loaded).Some? ==>
                r == Ok(()) && tasks == StringItems(loaded).value
    {
      var items := StringItems(loaded);
      if items.None? {
        return Err(TaskError("Invalid task file format."));
      }
      tasks := items.value;
      r := Ok(());
    }
  }

  /** A text added twice through `add_task` is listed twice. */
  method DuplicatesAllowed(text: string) returns (listed: seq<string>)
    requires Strip(text) != []
    ensures Count(listed, Strip(text)) == 2
  {
    var list := new TaskList();
    var _ := list.AddTask(text);
    var _ := list.AddTask(text);
    listed := list.ListTasks();
  }

  /** After `add_unique_task` succeeds once, repeating it raises and the count stays at one. */
  method UniqueAddKeepsOneCopy(text: string) returns (second: Result<string, TaskError>, listed: seq<string>)
    requires Strip(text) != []
    ensures second == Err(TaskAlreadyExistsError("Task already exists."))
    ensures Count(listed, Strip(text)) == 1
  {
    var list := new TaskList();
    var _ := list.AddUniqueTask(text);
    second := list.AddUniqueTask(text);
    listed := list.ListTasks();
  }
}

=== FILE: text.dfy ===
/**
 * Character and string helpers shared by the task lists, the palindrome check,
 * the word counter and the greeting route. Python's Unicode-aware `str.strip`,
 * `str.isalpha` and `str.lower` are modelled on ASCII characters only.
 */
module Text {

  /**
   * The ASCII characters `str.strip()` removes: space, tab, line feed,
   * vertical tab, form feed, carriage return and the four separators
   * `\x1c`..`\x1f`.
   */
  predicate IsSpace(c: char) {
    c == ' ' || '\t' <= c <= '\r' || '\U{1C}' <= c <= '\U{1F}'
  }

  /** `str.isalpha()` on one character (ASCII letters). */
  predicate IsAlpha(c: char) {
    'a' <= c <= 'z' || 'A' <= c <= 'Z'
  }

  /** `str.lower()` on one character (ASCII letters). */
  function Lower(c: char): (d: char)
    ensures IsAlpha(c) <==> IsAlpha(d)
    ensures !('A' <= d <= 'Z')
    ensures !('A' <= c <= 'Z') ==> d == c
  {
    if 'A' <= c <= 'Z' then (c as int + 32) as char else c
  }

  /** `str.lower()` on a whole string. */
  function LowerString(s: string): (r: string)
    ensures |r| == |s|
    ensures forall k :: 0 <= k < |s| ==> r[k] == Lower(s[k])
  {
    if s == [] then [] else [Lower(s[0])] + LowerString(s[1..])
  }

  /** `s` with its leading whitespace removed; it does not start with whitespace. */
  function StripLeft(s: string): (r: string)
    ensures |r| <= |s|
    ensures r != [] ==> !IsSpace(r[0])
  {
    if s != [] && IsSpace(s[0]) then StripLeft(s[1..]) else s
  }

  /** What `StripLeft` removed is a whitespace prefix; what is left is the rest of `s`. */
  lemma {:induction false} StripLeftShape(s: string)
    ensures var r := StripLeft(s);
            r == s[|s| - |r|..] && forall k :: 0 <= k < |s| - |r| ==> IsSpace(s[k])
  {
    if s != [] && IsSpace(s[0]) {
      StripLeftShape(s[1..]);
    }
  }

  /** `s` with its trailing whitespace removed; it does not end with whitespace. */
  function StripRight(s: string): (r: string)
    ensures |r| <= |s|
    ensures r != [] ==> !IsSpace(r[|r| - 1])
  {
    if s != [] && IsSpace(s[|s| - 1]) then StripRight(s[..|s| - 1]) else s
  }

  /** What `StripRight` removed is a whitespace suffix; what is left is the start of `s`. */
  lemma {:induction false} StripRightShape(s: string)
    ensures var r := StripRight(s);
            r == s[..|r|] && forall k :: |r| <= k < |s| ==> IsSpace(s[k])
  {
    if s != [] && IsSpace(s[|s| - 1]) {
      StripRightShape(s[..|s| - 1]);
    }
  }

  /**
   * `str.strip()`: the result neither starts nor ends with whitespace, and text
   * that has no surrounding whitespace is returned unchanged; `StripIsInfix`
   * says what it keeps of the input.
   */
  function Strip(s: string): (r: string)
    ensures |r| <= |s|
    ensures r != [] ==> !IsSpace(r[0]) && !IsSpace(r[|r| - 1])
    ensures (s == [] || (!IsSpace(s[0]) && !IsSpace(s[|s| - 1]))) ==> r == s
  {
    var l := StripLeft(s);
    StripLeftShape(s);
    StripRightShape(l);
    var r := StripRight(l);
    assert r != [] ==> r[0] == l[0];
    r
  }

  /**
   * What `str.strip()` keeps is a slice of the input, with only whitespace
   * before it and only whitespace after it.
   */
  lemma StripIsInfix(s: string)
    ensures exists i, j :: 0 <= i <= j <= |s| && Strip(s) == s[i..j] &&
              (forall k :: 0 <= k < i ==> IsSpace(s[k])) && (forall k :: j <= k < |s| ==> IsSpace(s[k]))
  {
    var l := StripLeft(s);
    StripLeftShape(s);
    var r := StripRight(l);
    StripRightShape(l);
    assert Strip(s) == r;
    var i := |s| - |l|;
    var j := i + |r|;
    assert l == s[i..] && r == l[..|r|];
    assert r == s[i..j];
    forall k | j <= k < |s|
      ensures IsSpace(s[k])
    {
      assert s[k] == l[k - i];
    }
  }

  /** Stripping yields empty text exactly for all-whitespace input. */
  lemma StripEmptyIff(s: string)
    ensures Strip(s) == [] <==> forall k :: 0 <= k < |s| ==> IsSpace(s[k])
  {
    var l := StripLeft(s);
    StripLeftShape(s);
    StripRightShape(l);
    assert l != [] ==> l[0] == s[|s| - |l|];
  }

  /** The slice `s[:maxLength]` for a non-negative bound. */
  function Truncate(s: string, maxLength: nat): (r: string)
    ensures |r| <= maxLength && |r| <= |s| && r == s[..|r|]
    ensures |s| <= maxLength ==> r == s
    ensures |s| > maxLength ==> |r| == maxLength
  {
    if |s| <= maxLength then s else s[..maxLength]
  }

  /**
   * `task.strip()[:max_length]`: at most `maxLength` characters, the whole
   * stripped text when it fits and exactly `maxLength` characters when it does
   * not, never starting with whitespace.
   */
  function Normalize(s: string, maxLength: nat): (r: string)
    ensures |r| <= maxLength
    ensures |Strip(s)| <= maxLength ==> r == Strip(s)
    ensures |Strip(s)| > maxLength ==> |r| == maxLength
    ensures r != [] ==> !IsSpace(r[0])
  {
    Truncate(Strip(s), maxLength)
  }

  /** The normalised text is a prefix of the stripped text. */
  lemma NormalizeIsPrefix(s: string, maxLength: nat)
    ensures var r := Normalize(s, maxLength);
            |r| <= |Strip(s)| && r == Strip(s)[..|r|]
  {
  }

  /** Normalisation yields empty text exactly for all-whitespace input (or a zero bound). */
  lemma NormalizeEmptyIff(s: string, maxLength: nat)
    ensures Normalize(s, maxLength) == [] <==> maxLength == 0 || forall k :: 0 <= k < |s| ==> IsSpace(s[k])
  {
    StripEmptyIff(s);
  }

  /**
   * Normalising twice is not the same as normalising once: cutting the
   * stripped text can expose a space at the new end, which the second strip
   * removes.
   */
  lemma NormalizeNotIdempotent()
    ensures Normalize("ab cd", 3) == "ab "
    ensures Normalize(Normalize("ab cd", 3), 3) == "ab"
  {
    var s := "ab cd";
    assert !IsSpace(s[0]) && !IsSpace(s[|s| - 1]);
    assert Strip(s) == s;
    var t := "ab ";
    assert Truncate(s, 3) == t;
    assert StripLeft(t) == t;
    assert t[..|t| - 1] == "ab";
    assert StripRight("ab") == "ab";
    assert StripRight(t) == "ab";
  }

  /** Text that fits within the bound is a fixed point of normalisation. */
  lemma NormalizeStable(s: string, maxLength: nat)
    requires |Strip(s)| <= maxLength
    ensures Normalize(Normalize(s, maxLength), maxLength) == Normalize(s, maxLength)
  {
  }
}

=== FILE: word_count.dfy ===
/**
 * counter/coursera_counter_25.py and counter/coursera_counter_3.py: count
 * the words of several web pages, merge the counts and rank the most common
 * words. What fetching a URL gives is an input, and so is the page's list of
 * words as the regular expression `\b\w+\b` finds it; both scripts share the
 * functions modelled here.
 */
module WordCount {
  import opened Lists
  import Text

  /** A `collections.Counter` of words; a missing word counts 0. */
  type Counter = map<string, int>

  /** `TOP_N_WORDS` and `DEFAULT_TOP_N_WORDS`. */
  const TopNWords := 152

  function Get(c: Counter, w: string): int {
    if w in c then c[w] else 0
  }

  /** What `urlopen` and `read` give for a URL: the page's words, or the error raised. */
  datatype Fetch = Page(words: seq<string>) | HttpError(code: int) | UrlError | Failure

  /** `url.startswith(('http://', 'https://'))`. */
  predicate HttpScheme(url: string) {
    "http://" <= url || "https://" <= url
  }

  /** `Counter(words)`: each word once as a key, with the number of its occurrences. */
  function CountWords(words: seq<string>): (r: Counter)
    ensures forall w :: w in r <==> w in words
    ensures forall w :: Get(r, w) == Count(words, w)
  {
    if words == [] then map[]
    else
      var rest := CountWords(words[1..]);
      assert forall w :: w in words <==> w == words[0] || w in words[1..];
      rest[words[0] := Get(rest, words[0]) + 1]
  }

  /** The words of `content.lower()`: for ASCII text, each word lowered. */
  function Lowered(words: seq<string>): (r: seq<string>)
    ensures |r| == |words| && forall i :: 0 <= i < |words| ==> r[i] == Text.LowerString(words[i])
  {
    seq(|words|, i requires 0 <= i < |words| => Text.LowerString(words[i]))
  }

  /**
   * `download_and_count`: a URL that is neither http nor https raises
   * `ValueError` before any request, and that and every other error is
   * caught and gives an empty Counter; a page read gives the count of its
   * lowered words.
   */
  function DownloadAndCount(url: string, fetch: Fetch): (r: Counter)
    ensures !HttpScheme(url) || !fetch.Page? ==> r == map[]
    ensures HttpScheme(url) && fetch.Page? ==>
              forall w :: Get(r, w) == Count(Lowered(fetch.words), w)
  {
    if !HttpScheme(url) then map[]
    else match fetch
      case Page(words) => CountWords(Lowered(words))
      case _ => map[]
  }

  /** 'Hello world! Hello universe!' counts 'hello' twice, 'world' and 'universe' once. */
  lemma HelloWorld()
    ensures DownloadAndCount("https://example.com", Page(["Hello", "world", "Hello", "universe"]))
            == map["hello" := 2, "world" := 1, "universe" := 1]
  {
    assert HttpScheme("https://example.com") by {
      assert "https://example.com"[..8] == "https://";
    }
    LoweredSample();
    CountSample();
  }

  lemma LoweredSample()
    ensures Lowered(["Hello", "world", "Hello", "universe"]) == ["hello", "world", "hello", "universe"]
  {
    LowerUnchanged("world");
    LowerUnchanged("universe");
    LowerHello();
    LoweredPattern("Hello", "world", "universe", "hello");
  }

  lemma LoweredPattern(a: string, b: string, c: string, lowerA: string)
    requires Text.LowerString(a) == lowerA && Text.LowerString(b) == b && Text.LowerString(c) == c
    ensures Lowered([a, b, a, c]) == [lowerA, b, lowerA, c]
  {
  }

  lemma LowerHello()
    ensures Text.LowerString("Hello") == "hello"
  {
    LowerUnchanged("ello");
    assert "Hello" == ['H'] + "ello";
  }

  lemma CountSample()
    ensures CountWords(["hello", "world", "hello", "universe"]) == map["hello" := 2, "world" := 1, "universe" := 1]
  {
    assert "hello"[0] != "world"[0] && "hello"[0] != "universe"[0] && "world"[0] != "universe"[0];
    CountPattern("hello", "world", "universe");
  }

  /** One word twice and two others once each. */
  lemma CountPattern(a: string, b: string, c: string)
    requires a != b && a != c && b != c
    ensures CountWords([a, b, a, c]) == map[a := 2, b := 1, c := 1]
  {
    var words := [a, b, a, c];
    assert words[3..] == [c];
    assert CountWords(words[3..]) == map[c := 1];
    assert words[2..] == [a, c];
    assert CountWords(words[2..]) == map[c := 1, a := 1];
    assert words[1..] == [b, a, c];
    assert CountWords(words[1..]) == map[c := 1, a := 1, b := 1];
  }

  /** A string without upper-case letters is its own lower-case form. */
  lemma LowerUnchanged(s: string)
    requires forall k :: 0 <= k < |s| ==> !('A' <= s[k] <= 'Z')
    ensures Text.LowerString(s) == s
  {
  }

  /** The total count of `w` over a list of Counters. */
  function Total(counters: seq<Counter>, w: string): int {
    if counters == [] then 0 else Total(counters[..|counters| - 1], w) + Get(counters[|counters| - 1], w)
  }

  /** `w` is a key of one of the Counters. */
  predicate Mentioned(counters: seq<Counter>, w: string) {
    exists i :: 0 <= i < |counters| && w in counters[i]
  }

  /** `total.update(c)`: the keys of both, and each count the sum of the two. */
  function Update(total: Counter, c: Counter): (r: Counter)
    ensures forall w :: w in r <==> w in total || w in c
    ensures forall w :: Get(r, w) == Get(total, w) + Get(c, w)
  {
    map w | w in total.Keys + c.Keys :: Get(total, w) + Get(c, w)
  }

  /**
   * `merge_counters`: each word counts the sum of its counts in all the
   * Counters, and the words are those of any of them; no Counters give an
   * empty one.
   */
  method MergeCounters(counters: seq<Counter>) returns (total: Counter)
    ensures forall w :: Get(total, w) == Total(counters, w)
    ensures forall w :: w in total <==> Mentioned(counters, w)
  {
    total := map[];
    for k := 0 to |counters|
      invariant forall w :: Get(total, w) == Total(counters[..k], w)
      invariant forall w :: w in total <==> Mentioned(counters[..k], w)
    {
      assert counters[..k + 1][..k] == counters[..k];
      total := Update(total, counters[k]);
    }
    assert counters[..|counters|] == counters;
  }

  /** `merge_counters([{'a': 2, 'b': 1}, {'a': 1, 'c': 5}])` is `{'a': 3, 'c': 5, 'b': 1}`. */
  method SampleMerge() returns (total: Counter)
    ensures total == map["a" := 3, "b" := 1, "c" := 5]
  {
    var c1: Counter := map["a" := 2, "b" := 1];
    var c2: Counter := map["a" := 1, "c" := 5];
    total := MergeCounters([c1, c2]);
    var expected: Counter := map["a" := 3, "b" := 1, "c" := 5];
    assert [c1, c2][..1] == [c1] && [c1][..0] == [];
    forall w ensures w in total <==> w in expected {
      if w in c1 {
        assert [c1, c2][0] == c1;
      } else if w in c2 {
        assert [c1, c2][1] == c2;
      }
    }
    assert total.Keys == expected.Keys;
    forall w | w in total ensures total[w] == expected[w] {
      assert Total([c1], w) == Get(c1, w);
      assert Get(total, w) == Total([c1, c2], w) == Get(c1, w) + Get(c2, w);
    }
  }

  /** The words of a ranking. */
  function Ranked<K(!new)>(top: seq<(K, int)>): (r: set<K>)
    ensures forall w :: w in r <==> exists i :: 0 <= i < |top| && top[i].0 == w
  {
    set i | 0 <= i < |top| :: top[i].0
  }

  /** A word of `keys` with no smaller count than any other there. */
  method MaxIn<K>(c: map<K, int>, keys: set<K>) returns (w: K)
    requires keys != {} && keys <= c.Keys
    ensures w in keys && forall v :: v in keys ==> c[v] <= c[w]
  {
    w :| w in keys;
    var rest := keys - {w};
    while rest != {}
      invariant rest <= keys && w in keys
      invariant forall v :: v in keys && v !in rest ==> c[v] <= c[w]
      decreases |rest|
    {
      var v :| v in rest;
      if c[v] > c[w] {
        w := v;
      }
      rest := rest - {v};
    }
  }

  /**
   * A ranking so far: each entry a word of `c` with its count, no word twice,
   * counts non-increasing, and no word not yet ranked counting more than a
   * ranked one; `rest` is what is not ranked yet.
   */
  ghost predicate Ranking<K(!new)>(c: map<K, int>, top: seq<(K, int)>, rest: set<K>) {
    rest == c.Keys - Ranked(top) &&
    (forall i :: 0 <= i < |top| ==> top[i].0 in c && top[i].1 == c[top[i].0]) &&
    (forall i, j :: 0 <= i < j < |top| ==> top[i].0 != top[j].0 && top[i].1 >= top[j].1) &&
    (forall i, w :: 0 <= i < |top| && w in rest ==> c[w] <= top[i].1)
  }

  /** Ranking next a largest word of those left keeps a ranking. */
  lemma RankNext<K(!new)>(c: map<K, int>, top: seq<(K, int)>, rest: set<K>, w: K)
    requires Ranking(c, top, rest) && w in rest
    requires forall v :: v in rest ==> c[v] <= c[w]
    ensures Ranking(c, top + [(w, c[w])], rest - {w})
  {
    var next := top + [(w, c[w])];
    forall x | x in Ranked(next) ensures x in Ranked(top) || x == w {
      var i :| 0 <= i < |next| && next[i].0 == x;
      if i < |top| {
        assert top[i].0 == x;
      }
    }
    forall x | x in Ranked(top) ensures x in Ranked(next) {
      var i :| 0 <= i < |top| && top[i].0 == x;
      assert next[i].0 == x;
    }
    assert next[|top|].0 == w;
    assert forall x :: x in Ranked(next) <==> x in Ranked(top) + {w};
    assert Ranked(next) == Ranked(top) + {w};
    forall i, j | 0 <= i < j < |next|
      ensures next[i].0 != next[j].0 && next[i].1 >= next[j].1
    {
      if j == |top| {
        assert next[i] == top[i] && top[i].0 in Ranked(top);
      } else {
        assert next[i] == top[i] && next[j] == top[j];
      }
    }
    forall i, v | 0 <= i < |next| && v in rest - {w}
      ensures c[v] <= next[i].1
    {
      if i < |top| {
        assert next[i] == top[i];
      }
    }
  }

  /**
   * `most_common(n)`: the `n` words with the largest counts, or every word
   * when there are fewer, each once with its count, in non-increasing order
   * of count; no word left out counts more than one that is in.
   */
  method MostCommon<K(!new)>(c: map<K, int>, n: nat) returns (top: seq<(K, int)>)
    ensures |top| == if n < |c| then n else |c|
    ensures Ranking(c, top, c.Keys - Ranked(top))
  {
    top := [];
    var rest := c.Keys;
    while |top| < n && rest != {}
      invariant Ranking(c, top, rest)
      invariant |top| <= n && |top| + |rest| == |c|
      decreases |rest|
    {
      var w := MaxIn(c, rest);
      RankNext(c, top, rest, w);
      top := top + [(w, c[w])];
      rest := rest - {w};
    }
  }

  /** `pool.map(download_fn, urls)`: one Counter per URL, in order. */
  function Downloads(pages: seq<(string, Fetch)>): (r: seq<Counter>)
    ensures |r| == |pages| && forall i :: 0 <= i < |pages| ==> r[i] == DownloadAndCount(pages[i].0, pages[i].1)
  {
    seq(|pages|, i requires 0 <= i < |pages| => DownloadAndCount(pages[i].0, pages[i].1))
  }

  /** The words that are keys of at least one of the Counters. */
  ghost function Words(counters: seq<Counter>): (r: set<string>)
    ensures forall w :: w in r <==> Mentioned(counters, w)
  {
    set i, w | 0 <= i < |counters| && w in counters[i] :: w
  }

  /**
   * `main` of counter/coursera_counter_3.py: count each page, merge, and
   * rank the `top_n` most common words by their total count, largest first:
   * none when `top_n` is not positive (`most_common` of a negative number is
   * empty), else `top_n` words, or every word mentioned when there are fewer, each once
   * with its total, and no word left out with a larger total than one ranked.
   */
  method CountTopWords(pages: seq<(string, Fetch)>, topN: int) returns (ranking: seq<(string, int)>)
    ensures var n := |Words(Downloads(pages))|; |ranking| == if topN <= 0 then 0 else if topN < n then topN else n
    ensures forall i :: 0 <= i < |ranking| ==>
              ranking[i].1 == Total(Downloads(pages), ranking[i].0) && Mentioned(Downloads(pages), ranking[i].0)
    ensures forall i, j :: 0 <= i < j < |ranking| ==> ranking[i].0 != ranking[j].0 && ranking[i].1 >= ranking[j].1
    ensures forall i, w :: 0 <= i < |ranking| && Mentioned(Downloads(pages), w) && w !in Ranked(ranking) ==>
              Total(Downloads(pages), w) <= ranking[i].1
  {
    var counters := Downloads(pages);
    var total := MergeCounters(counters);
    assert total.Keys == Words(counters);
    ranking := MostCommon(total, if topN < 0 then 0 else topN);
    forall i | 0 <= i < |ranking|
      ensures ranking[i].1 == Total(counters, ranking[i].0)
    {
      assert Get(total, ranking[i].0) == ranking[i].1;
    }
    forall i, w | 0 <= i < |ranking| && Mentioned(counters, w) && w !in Ranked(ranking)
      ensures Total(counters, w) <= ranking[i].1
    {
      assert w in total.Keys - Ranked(ranking);
    }
  }

  /**
   * `main` of counter/coursera_counter_25.py: the same ranking with
   * `top_n` fixed to `TOP_N_WORDS`.
   */
  method CountTopWordsDefault(pages: seq<(string, Fetch)>) returns (ranking: seq<(string, int)>)
    ensures var n := |Words(Downloads(pages))|; |ranking| == if TopNWords < n then TopNWords else n
    ensures forall i :: 0 <= i < |ranking| ==>
              ranking[i].1 == Total(Downloads(pages), ranking[i].0) && Mentioned(Downloads(pages), ranking[i].0)
    ensures forall i, j :: 0 <= i < j < |ranking| ==> ranking[i].0 != ranking[j].0 && ranking[i].1 >= ranking[j].1
    ensures forall i, w :: 0 <= i < |ranking| && Mentioned(Downloads(pages), w) && w !in Ranked(ranking) ==>
              Total(Downloads(pages), w) <= ranking[i].1
  {
    ranking := CountTopWords(pages, TopNWords);
  }
}

=== FILE: wrappers.dfy ===
/** Option and Result values that stand for Python's `None` returns and raised exceptions. */
module Wrappers {

  /** A value that may be absent (Python's `None`). */
  datatype Option<+T> = None | Some(value: T)

  /** The outcome of an operation that either returns a value or raises an error. */
  datatype Result<+T, +E> = Ok(value: T) | Err(error: E)
}
